=== FILE: README.md ===
# chip8-go in Dafny

A model of the CHIP-8 / SUPER-CHIP / XO-CHIP interpreter `chip8-go`. It covers the components the CPU drives:

- `memory`: 4 KiB of RAM with the interpreter region guarded.
- `ui`: the 64x32 frame buffer with XOR sprite drawing, and the sixteen-key keypad.
- `timer`: the delay and sound counters.
- `apu`: the XO-CHIP pattern player.
- `cpu`: fetch, decode and execute, with the compatibility-mode rules.
- The `chip8` scheduler: options, ROM loading, init, the paced tick and the tick limit.

The repository also has an older single-file interpreter under `chip8/`; it is modelled separately, as written.

Every `lib.Assert` panic, out-of-range index and fatal log of the program becomes a `Fatal(error)` value of a `Result` (module `Results`). Devices, clocks and randomness are parameters:

- A CPU step returns the new machine together with a list of *effects* it asks of members outside the model. These are scrolling, resolution, plane selection, pitch, pausing, the flag file and the tick rate.
- A step reads its inputs from an `Env`: the random byte, the key the display reports, whether both planes are selected, and the flag file's contents.

Files, one module each:

| file | module | models |
|---|---|---|
| results.dfy | Results | error values, `Result`, `Option` |
| lib.dfy | Lib | `internal/lib`: compatibility modes, `Bit`, `SetBit`, `ResetBit`, `FormatHex`, 8-bit logic |
| memory.dfy | Memory | `internal/chip8/components/memory` |
| ui.dfy | Ui | `internal/chip8/components/ui`: key map, key state, frame buffer, `DrawSprite` |
| timer.dfy | Timer | `internal/chip8/components/timer` |
| apu.dfy | Apu | `internal/chip8/components/apu` |
| instructions.dfy | Instructions | the opcode table of `execute` as a datatype, with decode and encode |
| cpu.dfy | Cpu | `internal/chip8/components/cpu` |
| cpu_props.dfy | CpuProps | properties of the CPU across instructions |
| scheduler.dfy | Scheduler | `internal/chip8/chip8.go` |
| legacy.dfy | Legacy | `chip8/chip8.go`, the older interpreter |
| legacy_props.dfy | LegacyProps | properties of the older interpreter, including its quirks |

Where the code departs from the usual CHIP-8 behaviour, the model follows the code:

- `PROGRAM_RAM_SIZE` is `0xFFF - 0x200 = 0xDFF`, one short of the 0xE00 program bytes. So a ROM that fills program RAM exactly is rejected.
- In the older interpreter, `8XY4` never sets VF, and the shifts test the wrong bits.
- A sprite that runs off the right edge in the older interpreter spills into the next row; one that runs off the bottom panics.

## Model

| member | source | states |
|---|---|---|
| Lib.ModeValueOrdered | internal/lib/lib.go:16-23 | the four compatibility modes are numbered 0..3 in the order NONE < CHIP8 < SUPERCHIP < XOCHIP, and distinct modes have distinct numbers |
| Lib.Bit | internal/lib/lib.go:31-33 | a bit is 0 or 1, and every bit at or above a value's width is 0 |
| Lib.BitOfByteBeyondWidth | internal/lib/lib.go:31-33 | bits 8 and above of a byte are 0 |
| Lib.BitsDetermine | internal/lib/lib.go:31-33 | two values below 2^w with the same w low bits are equal, so `Bit` determines a byte |
| Lib.BitTestTable | internal/lib/lib_test.go:14-46 | the table of bits of 0x12 used by the library's test |
| Lib.SetBit | internal/lib/lib.go:35-39 | succeeds iff pos < 8; the result has bit pos set and every other bit as in the input |
| Lib.ResetBit | internal/lib/lib.go:41-45 | succeeds iff pos < 8; the result has bit pos cleared and every other bit as in the input |
| Lib.SetBitIdempotent | internal/lib/lib.go:35-39 | setting a bit twice is the same as setting it once |
| Lib.ResetBitIdempotent | internal/lib/lib.go:41-45 | clearing a bit twice is the same as clearing it once |
| Lib.BitOfBitwise | internal/lib/lib.go:31-45 | bit p of a bitwise OR/AND/XOR is the operation applied to bit p of each operand, and 0 beyond the width |
| Lib.Xor8Involution | internal/chip8/components/ui/ui.go:152 | XOR-ing the same byte twice gives back the original byte (what makes a redraw erase a sprite) |
| Lib.Xor8OnBits | internal/chip8/components/ui/ui.go:152 | on single pixels XOR is 1 exactly when the pixels differ |
| Lib.Xor8Pair | internal/chip8/components/ui/ui.go:152 | XOR-ing the same byte into two pixels keeps the XOR difference between them |
| Lib.Xor8Cancel | internal/chip8/components/ui/ui.go:152 | a pixel is determined by its XOR difference to a known pixel |
| Lib.HexDigits | internal/lib/lib.go:76-77 | the unpadded hexadecimal form has at least one digit, all of them hex digits of the requested case |
| Lib.HexValueOfDigits | internal/lib/lib.go:76-77 | reading the unpadded hexadecimal form back gives the value |
| Lib.LeadingDigitNonZero | internal/lib/lib.go:76-77 | the unpadded form of a positive value has no leading zero |
| Lib.FormatHex | internal/lib/lib.go:66-79 | the string reads back as the value; for lengths 1..4 it is upper case and zero-padded to at least that length, otherwise lower case and unpadded |
| Memory.New | internal/chip8/components/memory/memory.go:24-28 | fresh RAM reads 0 everywhere |
| Memory.Read | internal/chip8/components/memory/memory.go:30-35 | succeeds iff 0x1FF < a < 4096 and returns that cell; an address past RAM and an address in the interpreter region are distinct fatal errors |
| Memory.Write | internal/chip8/components/memory/memory.go:37-42 | succeeds iff the address is accessible; it changes that cell only, with the same two errors as Read |
| Memory.ReadAfterWrite | internal/chip8/components/memory/memory.go:30-42 | reading after a write gives the written byte at that address and the old read result anywhere else |
| Memory.NewReadsZero | internal/chip8/components/memory/memory.go:24-35 | every accessible address of fresh memory reads 0 |
| Memory.ProgramRamSizeIsOneShort | internal/chip8/components/memory/memory.go:13-22 | program RAM starts at 0x200, and PROGRAM_RAM_SIZE (0xDFF) is one less than the 0xE00 bytes of the region |
| Ui.Idx | internal/chip8/components/ui/ui.go:20 | the flat frame index of column x, row y recovers x and y, as the source's [x][y] array does |
| Ui.HostKeyOf | internal/chip8/components/ui/ui.go:51-68 | every id below 16 has a host key that maps to it, and no other id has one |
| Ui.KeyMapIsBijection | internal/chip8/components/ui/ui.go:51-68 | the sixteen host keys map to distinct ids below 16 |
| Ui.IsKeyPressed | internal/chip8/components/ui/ui.go:194-196 | a key that was never recorded reads as not pressed |
| Ui.GetPressedKey | internal/chip8/components/ui/ui.go:198-206 | returns some pressed key, or 0xFF when and only when no key is pressed |
| Ui.Reset | internal/chip8/components/ui/ui.go:172-180 | every pixel is 0, the redraw flag is set, the key state is kept |
| Ui.Init | internal/chip8/components/ui/ui.go:81-107 | succeeds iff the display could be set up; then all sixteen keys read released, the frame is blank, and other recorded keys keep their state |
| Ui.DrawColumns | internal/chip8/components/ui/ui.go:148-164 | the inner loop over one sprite row; a collision, once reported, stays reported (its closed form is the next two rows) |
| Ui.DrawColumnsFrame | internal/chip8/components/ui/ui.go:148-164 | one sprite row XORs its lit bits into the row, skipping columns that wrapped past the right edge, and leaves every other pixel as it was |
| Ui.DrawColumnsCollision | internal/chip8/components/ui/ui.go:148-164 | a row reports a collision iff one of its lit bits lands on a lit pixel it actually draws |
| Ui.ColumnsStayInRow | internal/chip8/components/ui/ui.go:148-164 | one sprite row writes only pixels of its own pixel row |
| Ui.DrawRows | internal/chip8/components/ui/ui.go:140-165 | the outer loop over the sprite's rows; a collision, once reported, stays reported |
| Ui.RowsKeepAboveStart | internal/chip8/components/ui/ui.go:140-147 | for a sprite of any length, no pixel row above the start row is written: rows that wrap past the bottom are skipped, not drawn at the top |
| Ui.DrawRowsFrame | internal/chip8/components/ui/ui.go:140-165 | for sprites of at most 32 rows, the rows are XORed in turn, rows that wrapped past the bottom are skipped, and each pixel ends as the XOR of everything drawn on it |
| Ui.DrawRowsCollision | internal/chip8/components/ui/ui.go:140-165 | for sprites of at most 32 rows, the sprite reports a collision iff some drawn lit bit hit a lit pixel |
| Ui.DrawRowsKeepsBinary | internal/chip8/components/ui/ui.go:150-163 | drawing keeps every pixel 0 or 1 |
| Ui.ColumnsDiff | internal/chip8/components/ui/ui.go:148-164 | the pixels a row visits and the bits it XORs in do not depend on the frame, so two frames drawn alike keep their XOR difference |
| Ui.RowsDiff | internal/chip8/components/ui/ui.go:140-165 | the same for a whole sprite of any length |
| Ui.DrawSprite | internal/chip8/components/ui/ui.go:136-170 | sets the redraw flag and keeps the key state; for sprites of at most 32 rows each pixel gets its XOR value with clipping and a collision is reported iff a lit bit hit a lit pixel; pixels stay binary for any sprite |
| Ui.DrawTwiceRestores | internal/chip8/components/ui/ui.go:136-170 | drawing the same sprite twice at the same place restores the frame, for every sprite length including the 64 rows of DXY0 on both planes |
| Ui.RedrawCollides | internal/chip8/components/ui/ui.go:136-170 | for sprites of at most 32 rows, on a binary frame, the second of two identical draws collides iff the first lit any pixel; longer sprites overlap themselves, so there it does not hold |
| Timer.CountDown | internal/chip8/components/timer/timer.go:95-97 | a counter drops by one and stops at zero |
| Timer.Init | internal/chip8/components/timer/timer.go:40-46 | both counters are cleared and the audio setting is kept |
| Timer.GetDelay | internal/chip8/components/timer/timer.go:82-84 | the value read is the delay counter: writing it back leaves the timer unchanged |
| Timer.SetDelay | internal/chip8/components/timer/timer.go:86-88 | the delay reads back as the value set; the sound counter is untouched |
| Timer.SetSound | internal/chip8/components/timer/timer.go:90-92 | the sound counter becomes the value; the delay is untouched |
| Timer.SetDelayThenGet | internal/chip8/components/timer/timer.go:82-92 | get after set returns the value, a later set overrides an earlier one, and setting the two counters commutes |
| Timer.Tick | internal/chip8/components/timer/timer.go:94-115 | both counters count down to zero, and a beep is queued iff the sound counter was above 1, audio is on and the queue holds less than one beep |
| Timer.TicksSaturate | internal/chip8/components/timer/timer.go:94-115 | after n ticks each counter is max(0, start - n) |
| Apu.DefaultPattern | internal/chip8/components/apu/apu.go:46-51 | the default pattern has 0xF0 in every fourth byte and 0 elsewhere |
| Apu.Init | internal/chip8/components/apu/apu.go:41-85 | with audio off nothing changes and Init succeeds; otherwise the pattern is the default, the playback rate is 4000 and the sample rate 44100, and Init succeeds iff the device could be opened |
| Apu.FillPatternBuffer | internal/chip8/components/apu/apu.go:101-103 | the pattern becomes the sixteen given bytes and nothing else changes |
| Apu.PatternBitsMsbFirst | internal/chip8/components/apu/apu.go:131-134 | reading a pattern byte's eight bits most significant first rebuilds the byte |
| Apu.Level | internal/chip8/components/apu/apu.go:136-140 | a 1 bit plays the high level 192 and a 0 bit the low level 64 |
| Apu.Mod128 | internal/chip8/components/apu/apu.go:145 | the phase is reduced into [0, 128) by whole laps of the pattern |
| Apu.Render | internal/chip8/components/apu/apu.go:130-143 | the loop produces one sample per step, each at the high or the low level |
| Apu.RenderClosedForm | internal/chip8/components/apu/apu.go:130-143 | sample j of a buffer is the pattern sample at phase start + j * step |
| Apu.GenerateSound | internal/chip8/components/apu/apu.go:125-148 | a buffer holds sampleRate / 30 samples; the new phase is the old phase advanced by one step per sample, reduced modulo 128; nothing else changes |
| Apu.GeneratedSamples | internal/chip8/components/apu/apu.go:125-148 | each generated sample is the pattern level at its phase, and so is 192 or 64 |
| Apu.PlaySound | internal/chip8/components/apu/apu.go:93-99 | with audio off nothing happens; otherwise the phase always advances and the buffer is queued iff the device holds less than one buffer |
| Instructions.NibblesOfWord | internal/chip8/components/cpu/cpu.go:191-198 | splitting a word into its four nibbles inverts assembling it |
| Instructions.AluCodeRoundTrip | internal/chip8/components/cpu/cpu.go:335-425 | the low nibble of each 8XY_ arithmetic instruction decodes back to that instruction |
| Instructions.Decode | internal/chip8/components/cpu/cpu.go:191-697 | the instruction a word stands for; encoding it gives the word back, so decoding loses nothing |
| Instructions.Encode | internal/chip8/components/cpu/cpu.go:191-697 | the word of an instruction splits back into the instruction's four nibbles |
| Instructions.EncodeDecode | internal/chip8/components/cpu/cpu.go:191-697 | every 16-bit word decodes to an instruction that encodes back to the same word, so decoding loses nothing, even for unimplemented words |
| Instructions.DecodeEncode | internal/chip8/components/cpu/cpu.go:191-697 | every instruction in canonical form decodes back from its encoding, so no two instructions share a word |
| Cpu.New | internal/chip8/components/cpu/cpu.go:65-78 | a new CPU has no mode, is not forced, has run no ticks, and holds the given components |
| Cpu.WithCompatibilityMode | internal/chip8/components/cpu/cpu.go:80-85 | the option sets the mode and forces it iff it is not NONE; nothing else changes |
| Cpu.UpdateMode | internal/chip8/components/cpu/cpu.go:163-180 | a forced CPU that has ticked keeps its mode and asks for nothing; otherwise CPU and APU take the mode and the matching tick rate is requested; nothing else in the model changes (the timer has no mode here, see Left out) |
| Cpu.Push | internal/chip8/components/cpu/cpu.go:151-154 | succeeds iff sp < 16; it stores the value at sp and increments sp; anything else is a stack overflow |
| Cpu.Pop | internal/chip8/components/cpu/cpu.go:156-161 | succeeds iff 1 <= sp <= 16 and returns the entry below sp with sp decremented; anything else is a stack underflow |
| Cpu.Fetch | internal/chip8/components/cpu/cpu.go:182-189 | succeeds iff pc and pc+1 are both in program RAM, giving the big-endian word there; a pc at the end of RAM is an illegal program counter |
| Cpu.AdvancePc | internal/chip8/components/cpu/cpu.go:701 | pc advances by 2 with 16-bit wrap-around and nothing else changes |
| Cpu.Skip | internal/chip8/components/cpu/cpu.go:269-286 | a false condition changes nothing; a true one skips the next instruction, and is fatal iff that instruction cannot be fetched |
| Cpu.LoadBlock | internal/chip8/components/cpu/cpu.go:594-606 | reading n bytes from I succeeds iff every address is accessible and returns those bytes in order |
| Cpu.StoreBlock | internal/chip8/components/cpu/cpu.go:581-593 | writing a block succeeds iff every address is accessible; then each address holds its byte and every other cell is unchanged |
| Cpu.GatherRange | internal/chip8/components/cpu/cpu.go:289-303 | the registers from X to Y, ascending or descending, in that order |
| Cpu.ScatterRange | internal/chip8/components/cpu/cpu.go:304-318 | the registers from X to Y take the given values in order and the rest keep theirs |
| Cpu.Digits | internal/chip8/components/cpu/cpu.go:570-575 | three decimal digits whose value is the byte |
| Cpu.LogicFlag | internal/chip8/components/cpu/cpu.go:340-360 | in CHIP-8 mode the logic instructions clear VF, otherwise VF is kept; other registers are unchanged |
| Cpu.AddRegs | internal/chip8/components/cpu/cpu.go:361-372 | Vx + 256 * VF is the exact sum: VF is the carry, written after Vx |
| Cpu.SubRegs | internal/chip8/components/cpu/cpu.go:373-384 | VF is 1 iff Vx >= Vy (no borrow), and Vx is the difference mod 256 |
| Cpu.SubNRegs | internal/chip8/components/cpu/cpu.go:399-408 | VF is 1 iff Vy >= Vx, and Vx is Vy - Vx mod 256 |
| Cpu.ShrRegs | internal/chip8/components/cpu/cpu.go:385-398 | 2 * Vx + VF is the shifted value: VF is the bit shifted out |
| Cpu.ShlRegs | internal/chip8/components/cpu/cpu.go:409-422 | Vx + 256 * VF is twice the shifted value: VF is the bit shifted out |
| Cpu.AluRegs | internal/chip8/components/cpu/cpu.go:335-425 | the meaning of each 8XY_ instruction, with VF written last, and no register other than Vx and VF touched |
| Cpu.SpriteLen | internal/chip8/components/cpu/cpu.go:465-473 | DXYN reads between 1 and 64 bytes, and more than 32 only for DXY0 on both planes |
| Cpu.DrawStep | internal/chip8/components/cpu/cpu.go:458-485 | succeeds iff all SpriteLen bytes at I are readable; the screen is the one `DrawSprite` gives for those bytes at (VX, VY) read before VF is written; VF is 1 iff it reported a collision and no other register changes; beyond these only the guarded switch to SUPER-CHIP of DXY0 happens |
| Cpu.AwaitKey | internal/chip8/components/cpu/cpu.go:538-552 | waiting for a key neither writes memory nor the screen, and either stays on the instruction or moves past it |
| Cpu.SystemBody | internal/chip8/components/cpu/cpu.go:199-254 | in the 00__ group only RET moves pc or the stack; the mode afterwards is the one `NextMode` names |
| Cpu.SaveRegRange | internal/chip8/components/cpu/cpu.go:289-303 | 5XY2 changes no register, no I and no pc: apart from memory, the machine and the effects are those of the guarded switch to XO-CHIP |
| Cpu.LoadRegRange | internal/chip8/components/cpu/cpu.go:304-318 | 5XY3 changes the registers and, through the guard, the mode, and nothing else of the CPU |
| Cpu.LoadLongI | internal/chip8/components/cpu/cpu.go:511-517 | F000 changes only I and pc among the CPU state, and has no effect |
| Cpu.FillPattern | internal/chip8/components/cpu/cpu.go:523-534 | F002 fails iff one of the 16 bytes at I is unreadable; otherwise they become the audio pattern in order, and beyond that only the guarded switch to XO-CHIP happens |
| Cpu.StoreDigits | internal/chip8/components/cpu/cpu.go:570-575 | FX33 leaves the whole CPU state as it was and has no effect |
| Cpu.SaveRegs | internal/chip8/components/cpu/cpu.go:581-593 | FX55 changes only I among the CPU state, and has no effect |
| Cpu.LoadRegs | internal/chip8/components/cpu/cpu.go:594-606 | FX65 changes only the registers and I among the CPU state, and has no effect |
| Cpu.RestoreFlags | internal/chip8/components/cpu/cpu.go:645-690 | FX85 changes only the registers, beyond the guarded switch to SUPER-CHIP |
| Cpu.ModeMiscBody | internal/chip8/components/cpu/cpu.go:518-693 | FN01, F002, FX3A, FX75 and FX85 change only the registers and the mode among the CPU state, and the mode is the one `MiscMode` names |
| Cpu.DataMiscBody | internal/chip8/components/cpu/cpu.go:535-606 | FX07 sets VX to the delay timer; FX15 and FX18 set the delay and the sound timer from VX; FX1E sets I to I + VX mod 2^16; every FX__ of this group changes only registers, I and (for F000) pc among the CPU state |
| Cpu.MiscBody | internal/chip8/components/cpu/cpu.go:509-693 | in the FX__ group only F000 moves pc, none touches the stack, the tick count or the forced flag, and the mode afterwards is the one `NextMode` names |
| Cpu.DataBody | internal/chip8/components/cpu/cpu.go:269-457 | skips, loads, arithmetic, ANNN and CXNN change only the registers, I and (for skips) pc |
| Cpu.Body | internal/chip8/components/cpu/cpu.go:191-701 | instructions that do not move pc leave it for the final pc += 2; only RET touches the stack; no instruction changes the tick count or the forced flag; the mode afterwards is the requested one unless the CPU is frozen, and XO-CHIP after 00DN |
| Cpu.Leave | internal/chip8/components/cpu/cpu.go:255-268 | JP, CALL, BNNN and FX0A return early without changing mode, ticks or forced flag and without effects |
| Cpu.Execute | internal/chip8/components/cpu/cpu.go:191-707 | an unimplemented word is fatal with that word, and executing never changes the tick count or forced flag |
| Cpu.Tick | internal/chip8/components/cpu/cpu.go:110-114 | a tick succeeds iff fetch and execute do, counts one tick, and is otherwise exactly the executed instruction: the same memory, screen, timer, APU and effects |
| Cpu.Init | internal/chip8/components/cpu/cpu.go:93-108 | registers, stack, I, sp and the key slot are cleared, pc is 0x200, the tick count is 0, the mode is re-applied (asking for its tick rate unless frozen), memory, screen and timer are untouched, and the APU takes the CPU's mode again unless frozen |
| CpuProps.FetchDecodes | internal/chip8/components/cpu/cpu.go:182-198 | an instruction stored big-endian at pc is fetched and decoded back as itself |
| CpuProps.StraightLinePc | internal/chip8/components/cpu/cpu.go:701 | every instruction that does not jump, skip or return leaves pc two bytes further on |
| CpuProps.JumpsSetPc | internal/chip8/components/cpu/cpu.go:255-261 | JP sets pc to its address and BNNN to the address plus V0 (CHIP-8 mode) or VX |
| CpuProps.CallThenReturn | internal/chip8/components/cpu/cpu.go:262-268 | CALL then RET comes back to the instruction after the call with the stack depth restored |
| CpuProps.StackBounds | internal/chip8/components/cpu/cpu.go:151-161 | CALL overflows iff the stack is full, and RET on an empty stack underflows |
| CpuProps.PushThenPop | internal/chip8/components/cpu/cpu.go:151-161 | pop after push returns the pushed value and restores sp |
| CpuProps.SkipPc | internal/chip8/components/cpu/cpu.go:269-327 | a skip leaves pc two further when its condition fails and four further when it holds, failing only if the skipped word cannot be fetched |
| CpuProps.LongLoad | internal/chip8/components/cpu/cpu.go:511-517 | F000 loads I with the 16-bit word after it and moves past both words |
| CpuProps.AddImmediate | internal/chip8/components/cpu/cpu.go:332-334 | 7XNN adds mod 256 and leaves VF alone |
| CpuProps.FlagWrittenLast | internal/chip8/components/cpu/cpu.go:335-422 | with X = F the flag wins: VF holds the carry, NOT borrow or shifted-out bit, for 8FY1..8FY3 the CHIP-8 reset or else the bitwise result, and for 8FY0 VY |
| CpuProps.ShiftSourceByMode | internal/chip8/components/cpu/cpu.go:385-422 | CHIP-8 and XO-CHIP shift VY, SUPER-CHIP and NONE shift VX |
| CpuProps.RandomWithinMask | internal/chip8/components/cpu/cpu.go:452-457 | CXNN leaves every bit that NN masks out at zero |
| CpuProps.FontIndexIsByte | internal/chip8/components/cpu/cpu.go:562-565 | FX29 points I at the 5-byte glyph of VX, truncated to a byte; the address is exact iff VX < 0x34 |
| CpuProps.HiFontIndexIsByte | internal/chip8/components/cpu/cpu.go:566-569 | FX30 points I at the 10-byte large glyph after the small font, truncated to a byte; the address is exact iff VX < 0x12 |
| CpuProps.BcdDigits | internal/chip8/components/cpu/cpu.go:570-575 | FX33 succeeds iff I, I+1, I+2 are writable, writes the hundreds, tens and units of VX there, and changes no other memory cell |
| CpuProps.ScatterGathered | internal/chip8/components/cpu/cpu.go:289-318 | loading back a gathered register range changes nothing |
| CpuProps.LoadAfterStore | internal/chip8/components/cpu/cpu.go:581-606 | reading back a stored block returns the block |
| CpuProps.SaveThenLoadRange | internal/chip8/components/cpu/cpu.go:289-318 | 5XY3 after 5XY2 restores VX..VY |
| CpuProps.SaveRangeWrites | internal/chip8/components/cpu/cpu.go:289-303 | 5XY2 stores the k-th register of the range at I+k |
| CpuProps.StoreRegisters | internal/chip8/components/cpu/cpu.go:581-593 | FX55 stores V0..VX at I.., and advances I by X+1 exactly in the CHIP-8 quirk modes |
| CpuProps.LoadRegisters | internal/chip8/components/cpu/cpu.go:594-606 | FX65 loads V0..VX from I.., keeps the registers above X, and advances I by X+1 exactly in the CHIP-8 quirk modes |
| CpuProps.StoreThenLoad | internal/chip8/components/cpu/cpu.go:581-606 | outside the quirk modes, FX65 after FX55 restores V0..VX |
| CpuProps.DrawCollisionFlag | internal/chip8/components/cpu/cpu.go:458-485 | DXYN succeeds iff its SpriteLen bytes at I are readable; it keeps memory and every register but VF, switches to SUPER-CHIP for DXY0 under the guard, and leaves VF 0 or 1; for every form but DXY0 on both planes each pixel becomes its XOR closed form and VF is 1 iff the sprite hit a lit pixel |
| CpuProps.ClearScreen | internal/chip8/components/cpu/cpu.go:206-208 | 00E0 blanks every pixel and keeps the keys, registers and memory |
| CpuProps.ReadDelayTimer | internal/chip8/components/cpu/cpu.go:535-537 | FX07 copies the delay timer into VX and changes no other register |
| CpuProps.SetDelayTimer | internal/chip8/components/cpu/cpu.go:553-555 | FX15 sets the delay timer to VX and keeps the sound timer |
| CpuProps.SetSoundTimer | internal/chip8/components/cpu/cpu.go:556-558 | FX18 sets the sound timer to VX and keeps the delay timer |
| CpuProps.AddToI | internal/chip8/components/cpu/cpu.go:559-561 | FX1E sets I to I + VX mod 2^16 and sets no flag |
| CpuProps.LoadPatternFromMemory | internal/chip8/components/cpu/cpu.go:523-534 | F002 fails iff one of the 16 bytes at I is unreadable; otherwise the pattern is those bytes in order |
| CpuProps.WaitKeyProtocol | internal/chip8/components/cpu/cpu.go:538-552 | FX0A first records the polled key and stays; it stays while that key is held and stores it in VX on release |
| CpuProps.WaitKeyCaptureThenRelease | internal/chip8/components/cpu/cpu.go:538-552 | a key captured on one step and released by the next lands in VX, and the key slot is cleared |
| CpuProps.ModeAfterExecute | internal/chip8/components/cpu/cpu.go:163-180 | the mode after an instruction is the mode the instruction asks for, unless the CPU is frozen |
| CpuProps.ForcedModeStays | internal/chip8/components/cpu/cpu.go:163-180 | a frozen CPU stays frozen, and only 00DN changes its mode |
| CpuProps.ModeCanDowngrade | internal/chip8/components/cpu/cpu.go:215-218 | 00CN moves an unforced XO-CHIP CPU down to SUPER-CHIP at 700 ticks per second |
| CpuProps.ScrollUpBypassesGuard | internal/chip8/components/cpu/cpu.go:219-222 | 00DN sets the CPU's mode to XO-CHIP directly, bypassing the forced-mode guard, leaves the APU's copy alone and asks for no new tick rate |
| CpuProps.ForcedModeAfterInit | internal/chip8/components/cpu/cpu.go:80-108 | a mode forced by the option survives Init |
| CpuProps.TickFreezesForcedMode | internal/chip8/components/cpu/cpu.go:110-114 | after one tick a forced CPU is frozen |
| Scheduler.ApplyOption | internal/chip8/chip8.go:86-139 | a pause or exit limit applies only while no limit is set yet; the exit option's flag says whether its limit is positive; other options leave the limit alone |
| Scheduler.Configure | internal/chip8/chip8.go:57-108 | applying options in order never replaces a limit already set, and without an exit option the exit flag is kept |
| Scheduler.ConfigurePrecedence | internal/chip8/chip8.go:57-108 | over a list of options, the first non-zero limit wins and the last exit option decides whether reaching it exits |
| Scheduler.LoadRom | internal/chip8/chip8.go:207-217 | succeeds iff the ROM is at most 0xDFF bytes; byte k goes to 0x200 + k and every other cell is unchanged |
| Scheduler.FullSizeRomRejected | internal/chip8/chip8.go:207-217 | a ROM that fills program RAM exactly is rejected |
| Scheduler.Init | internal/chip8/chip8.go:219-243 | succeeds iff the display is ready (or headless), no test flag is set and the ROM fits; then the loop is unpaused with clocks reset, the CPU at 0x200 and the ROM in fresh memory |
| Scheduler.TestFlagIsFatal | internal/chip8/chip8.go:236-238 | a test flag writes to 0x1FF, inside the guarded region, which is fatal |
| Scheduler.Tick | internal/chip8/chip8.go:245-263 | when its period elapsed the CPU runs exactly one `Cpu.Tick`, whose state and effects are the result's, and only that can fail; otherwise the CPU is untouched; then the timers tick exactly once through `Timer.Tick` on the counters the CPU left when their period elapsed, and otherwise keep them and do not beep; each clock restarts only when its channel ran |
| Scheduler.HandleTickLimitReached | internal/chip8/chip8.go:265-275 | the loop pauses iff a positive limit is reached, and exits iff exiting was asked for too |
| Scheduler.TogglePause | internal/chip8/chip8.go:277-279 | flips the pause flag and nothing else |
| Scheduler.TogglePauseInvolution | internal/chip8/chip8.go:277-279 | toggling twice restores the state |
| Scheduler.LoopStep | internal/chip8/chip8.go:176-187 | a paused loop does nothing; otherwise the step fails exactly when the tick does |
| Scheduler.CountsAgree | internal/chip8/chip8.go:245-263 | the loop's tick count stays equal to the CPU's |
| Scheduler.PausesAtLimit | internal/chip8/chip8.go:176-187 | the tick that reaches the limit pauses the loop, and stops it iff exiting was asked for |
| Legacy.Init | chip8/chip8.go:49-79 | pc 0x200, sp and I 0, the font in the first 80 bytes and zero elsewhere, a blank screen, cleared registers, keys and timers |
| Legacy.Fetch | chip8/chip8.go:93 | succeeds iff pc+1 is inside memory and gives the big-endian word there |
| Legacy.SetV | chip8/chip8.go:162-174 | writes one register and nothing else |
| Legacy.SkipIf | chip8/chip8.go:132-160 | pc moves by 4 if the condition holds and by 2 otherwise, and nothing else changes |
| Legacy.System | chip8/chip8.go:98-117 | 00E0 blanks the screen; 00EE succeeds iff the stack holds 1..16 entries and returns after the call; other words are unknown |
| Legacy.Call | chip8/chip8.go:123-130 | succeeds iff sp < 15, pushes pc and jumps; sp = 15 is a stack overflow |
| Legacy.AddRegs | chip8/chip8.go:210-220 | 8XY4 adds mod 256 and never sets VF |
| Legacy.SubRegs | chip8/chip8.go:222-251 | the difference mod 256, with VF set to 1 when a > b and otherwise left as it was |
| Legacy.ShrReg | chip8/chip8.go:233-240 | VF is set only when the low nibble of VX is 1, and VX is halved after the flag is written |
| Legacy.ShlReg | chip8/chip8.go:253-261 | VF is set only when the high nibble of VX is 1, and VX is doubled mod 256 after the flag is written |
| Legacy.Alu | chip8/chip8.go:176-266 | the known 8XY_ codes succeed, advance pc and touch only registers; others are unknown |
| Legacy.DrawColumns | chip8/chip8.go:290-304 | one sprite row succeeds iff every lit bit lands inside the screen; it XORs exactly those cells and sets VF iff one was lit |
| Legacy.RowHitIsSpriteHit | chip8/chip8.go:285-309 | the cells of one row are the sprite's cells that belong to that row |
| Legacy.DrawRows | chip8/chip8.go:285-309 | the sprite succeeds iff every lit bit lands inside the screen; it XORs exactly the sprite's cells and sets VF iff one was lit |
| Legacy.Draw | chip8/chip8.go:285-309 | DXYN clears VF, draws with wrap into the next row and no clipping, sets VF iff a lit cell was hit, sets the draw flag and advances pc |
| Legacy.Keys | chip8/chip8.go:311-332 | EXA1 tests key[X], not key[VX]; EX9E fails iff VX is not a key; other words are unknown |
| Legacy.ScanKeys | chip8/chip8.go:343-357 | finds a key iff one is pressed, and then it is the highest-numbered pressed key, since later keys overwrite earlier ones |
| Legacy.WaitKey | chip8/chip8.go:343-357 | with no key pressed nothing changes; otherwise VX is the highest pressed key and pc advances |
| Legacy.Bcd | chip8/chip8.go:377-383 | three decimal digits whose value is the byte |
| Legacy.StoreBytes | chip8/chip8.go:385-392 | writing succeeds iff every address is inside memory; each address holds its byte and every other cell is unchanged |
| Legacy.LoadBytes | chip8/chip8.go:394-401 | reading succeeds iff every address is inside memory and returns those bytes in order |
| Legacy.Misc | chip8/chip8.go:334-406 | the known FX__ codes advance pc (except FX0A), keep stack and screen, set only the timer or I they name, and write memory only for FX33 and FX55 |
| Legacy.Execute | chip8/chip8.go:91-414 | BNNN and CXNN are unimplemented; no instruction touches the keys, the sound flag or the stop flag, and only FX15/FX18 touch the timers |
| Legacy.ExecuteOp | chip8/chip8.go:91-96 | a pc at the last byte of memory is fatal; otherwise the fetched word is executed |
| LegacyProps.JumpSetsPc | chip8/chip8.go:119-121 | 1NNN sets pc to NNN and nothing else |
| LegacyProps.SkipsAdvance | chip8/chip8.go:132-160 | 3X, 4X, 5X and 9X move pc by 4 when they skip and by 2 otherwise, and nothing else changes |
| LegacyProps.CallDepth | chip8/chip8.go:123-130 | CALL at depth 15 overflows; a successful CALL pushes the caller's pc |
| LegacyProps.CallThenReturn | chip8/chip8.go:98-130 | CALL then RET comes back to the instruction after the call with the depth restored |
| LegacyProps.ReturnOnEmptyStack | chip8/chip8.go:108-112 | RET on an empty stack indexes the stack at 0xFFFF, which is fatal |
| LegacyProps.ClearScreen | chip8/chip8.go:101-107 | 00E0 blanks every cell and advances pc |
| LegacyProps.AddNeverSetsFlag | chip8/chip8.go:210-220 | 8XY4 leaves VF unchanged even when the sum overflows |
| LegacyProps.SubtractFlagSetOnly | chip8/chip8.go:222-251 | 8XY5 and 8XY7 set VF to 1 when there is no borrow, and otherwise leave VF as it was |
| LegacyProps.ShiftRightMissesOddValues | chip8/chip8.go:233-240 | shifting 3 right gives 1 with VF still 0, although a 1 was shifted out |
| LegacyProps.ShiftLeftMissesHighBit | chip8/chip8.go:253-261 | shifting 0x80 left gives 0 with VF still 0, although a 1 was shifted out |
| LegacyProps.DrawKeepsCellsBinary | chip8/chip8.go:285-309 | drawing keeps every cell 0 or 1 |
| LegacyProps.DrawTwiceRestores | chip8/chip8.go:285-309 | drawing the same sprite twice restores the screen, and the second draw collides iff the first lit some cell |
| LegacyProps.DrawSpillsIntoNextRow | chip8/chip8.go:285-309 | a one-row sprite 0xC0 drawn at x = 63 toggles column 63 of its row and column 0 of the next row, and leaves column 0 of its own row alone |
| LegacyProps.DrawOffBottomIsFatal | chip8/chip8.go:297-303 | a lit sprite bit below the last row is fatal |
| LegacyProps.SkipIfKeyUpReadsKeyX | chip8/chip8.go:314-321 | EXA1 skips iff key[X] is up, whatever VX holds |
| LegacyProps.SkipIfKeyDownChecksRange | chip8/chip8.go:322-328 | EX9E fails iff VX is not a key, and otherwise skips iff key[VX] is down |
| LegacyProps.WaitKeyLastPressedWins | chip8/chip8.go:343-357 | FX0A stays put while no key is down; otherwise it stores the highest pressed key |
| LegacyProps.BcdWritesDigits | chip8/chip8.go:377-383 | FX33 writes the decimal digits of VX at I.. and keeps I |
| LegacyProps.StoreRegisters | chip8/chip8.go:385-392 | FX55 writes V0..VX at I.. and keeps I and the registers |
| LegacyProps.LoadRegisters | chip8/chip8.go:394-401 | FX65 reads V0..VX from I.., keeps the other registers and I |
| LegacyProps.StoreThenLoad | chip8/chip8.go:385-401 | FX65 after FX55 with the same X restores every register |
| LegacyProps.TimersOnlyAssigned | chip8/chip8.go:359-369 | an instruction never counts the timers down; it either keeps them or sets one from VX |
| LegacyProps.UnimplementedKinds | chip8/chip8.go:408-411 | BNNN and CXNN words are unknown opcodes |

## Left out

- SDL: the window, renderer, event loop, audio device and stream, scaling and colour output (`SetColor`, rendering in ui.go) are I/O. The display is the frame buffer, and the audio device's queue length is a parameter (`queued`).
- Clocks: `time.Now` and the periods of internal/chip8/chip8.go are integer parameters (`now`, `cpuPeriod`, `timerPeriod`). The float speed factor, the UI period and the signal handler are not modelled.
- Concurrency: the `Run` goroutine structure and context cancellation are not modelled. `LoopStep` is one pass of the loop, and exiting is a returned flag.
- Randomness: CXNN's `rand.Intn(0xFF)` is an input in [0, 254].
- The flag file of FX75/FX85: the read becomes `Env.loadedFlags` and the write a `PersistFlags` effect. File names and file errors are not modelled.
- Display members the CPU calls but ui.go does not show (scrolling, hi-res, plane selection) are requested as effects. So are pausing from the CPU and the tick rate. The plane selection's "both planes" test is an input.
- `GetPressedKey` returns a byte, but the CPU stores its result as a pointer. The model takes the polled key as `Env.polledKey` (None when no key is pressed).
- `SetPlaybackRate` (4000 * 2^((pitch - 64) / 4)) needs floating point and is requested as an effect. The APU phase is an exact real, so floating-point rounding is not modelled.
- `generateBeep`, the beep waveform of the timer, is audio synthesis; only its length enters the model.
- Debug output: `DebugInfo`, the debug log line after each instruction, the debugger and `SetLogger` are logging only.
- `mem.Init`, which the scheduler calls but memory.go does not define, is modelled by passing the freshly initialised memory in.
- Loading the older interpreter's ROM reads a file; only the CPU step is modelled.
- Scheduler.Tick: does not model the audio APU's per-frame `PlaySound` or the UI frame; only the CPU and timer channels are paced.
- Ui.DrawSprite: the closed form and the collision result are stated only for sprites of at most 32 rows. The row index `(y + row) % 32` of ui.go:141 cycles, so a longer sprite can draw over its own earlier rows (at y = 0 none of them is skipped), and the one-pass closed form no longer describes it. For the 64 rows of DXY0 on both planes the model proves that pixels stay binary, that rows above the start are untouched, and that a redraw restores the frame.
- Ui.DrawRowsFrame: the closed form is stated only for sprites of at most 32 rows, for the reason given under Ui.DrawSprite.
- Ui.DrawRowsCollision: the collision iff is stated only for sprites of at most 32 rows, for the reason given under Ui.DrawSprite.
- CpuProps.DrawCollisionFlag: the pixel closed form and the VF iff are stated only when `SpriteLen` is at most 32, which excludes DXY0 on both planes, for the reason given under Ui.DrawSprite.
- Cpu.UpdateMode: cpu.go also sets `c.timer.CompatibilityMode`, a field that the timer.go in this snapshot does not declare. The model has no such field, so the timer is left unchanged.
- Cpu.RestoreFlags: `register.value` is unexported, so the JSON the source writes for FX75 holds no register values and a reload through FX85 yields zeros. `Env.loadedFlags` stands for whatever the file decodes to, which over-approximates this.
- The snapshot's `New` in internal/chip8/chip8.go:69 calls `cpu.New(mem, ui, t)` with three arguments, while internal/chip8/components/cpu/cpu.go:65 takes an APU as well, and no file shown assigns the `SetCurrentTPS` callback (cpu.go:44) that cpu.go:174-178 calls. The model assumes the CPU is wired to an APU and reports tick-rate changes as a `SetTps` effect.
- Apu.GenerateSound: does not model float64 rounding or the `int()` truncation of sampleRate / TPS beyond integer division.

=== FILE: apu.dfy ===
/** The XO-CHIP audio pattern player of internal/chip8/components/apu: a
    128-bit pattern (16 bytes) played MSB first at a playback rate, one
    1-bit sample per pattern bit, rendered as the two levels 192 and 64.
    The phase is a real number here, so floating-point rounding is not
    modelled; the audio device is not part of this model. */
module Apu {
  import opened Results
  import opened Lib

  /** Buffers generated per second. */
  const TPS: nat := 30
  const PATTERN_BUFFER_BITS: nat := 128
  const PATTERN_BYTES: nat := 16

  const HIGH_SAMPLE: Byte := 192
  const LOW_SAMPLE: Byte := 64

  type Pattern = s: seq<Byte> | |s| == PATTERN_BYTES witness seq(16, _ => 0)

  datatype Apu = Apu(mode: CompatibilityMode, audioDisabled: bool, pattern: Pattern,
                     sampleRate: nat, playbackRate: real, phase: real)

  /** The source never makes the rate or the phase negative. */
  predicate Valid(a: Apu) {
    a.playbackRate >= 0.0 && 0.0 <= a.phase
  }

  /** Four 0xF0 bytes, each followed by three zero bytes. */
  function DefaultPattern(): (p: Pattern)
    ensures forall k :: 0 <= k < PATTERN_BYTES ==> p[k] == if k % 4 == 0 then 0xF0 else 0
  {
    seq(PATTERN_BYTES, k => if k % 4 == 0 then 0xF0 else 0)
  }

  /** `Init`: with audio disabled nothing is touched. Otherwise the default
      pattern, the 4000 Hz playback rate and the 44100 Hz sample rate are
      set before the device is opened; the second component says whether
      `Init` reported success, `deviceReady` standing for the SDL calls. */
  function Init(a: Apu, deviceReady: bool): (r: (Apu, bool))
    ensures a.audioDisabled ==> r.0 == a && r.1
    ensures !a.audioDisabled ==>
      && r.0 == a.(pattern := DefaultPattern(), playbackRate := 4000.0, sampleRate := 44100)
      && (r.1 <==> deviceReady)
    ensures Valid(a) ==> Valid(r.0)
  {
    if a.audioDisabled then (a, true)
    else (a.(pattern := DefaultPattern(), playbackRate := 4000.0, sampleRate := 44100), deviceReady)
  }

  /** `FillPatternBuffer`: the pattern becomes exactly the 16 given bytes. */
  function FillPatternBuffer(a: Apu, bytes: Pattern): (r: Apu)
    ensures forall k :: 0 <= k < PATTERN_BYTES ==> r.pattern[k] == bytes[k]
    ensures r.(pattern := a.pattern) == a
  {
    a.(pattern := bytes)
  }

  /** Bit `idx` of the pattern, most significant bit of byte 0 first. */
  function PatternBit(p: Pattern, idx: nat): (b: nat)
    requires idx < PATTERN_BUFFER_BITS
    ensures b < 2
  {
    Bit(p[idx / BYTE_SIZE], 7 - idx % BYTE_SIZE)
  }

  /** The value of a sequence of bits read most significant first. */
  function MsbValue(bits: seq<int>): int {
    if |bits| == 0 then 0 else 2 * MsbValue(bits[..|bits| - 1]) + bits[|bits| - 1]
  }

  /** The first n pattern bits of byte k, in playing order. */
  function ByteBits(p: Pattern, k: nat, n: nat): (r: seq<int>)
    requires k < PATTERN_BYTES && n <= BYTE_SIZE
    ensures |r| == n
  {
    seq(n, j requires 0 <= j < n => PatternBit(p, k * BYTE_SIZE + j))
  }

  lemma ShrStep(v: nat, m: nat)
    ensures Shr(v, m) == 2 * Shr(v, m + 1) + Bit(v, m)
    decreases m
  {
    if m > 0 {
      ShrStep(v / 2, m - 1);
    }
  }

  /** The first n bits played from byte k, read as a number, are the top n
      bits of that byte. */
  lemma {:induction false} ByteBitsValue(p: Pattern, k: nat, n: nat)
    requires k < PATTERN_BYTES && n <= BYTE_SIZE
    ensures MsbValue(ByteBits(p, k, n)) == Shr(p[k], BYTE_SIZE - n)
  {
    if n == 0 {
      Pow2Eight();
      assert Shr(p[k], 8) == 0;
    } else {
      ByteBitsValue(p, k, n - 1);
      assert ByteBits(p, k, n)[..n - 1] == ByteBits(p, k, n - 1);
      var idx := k * BYTE_SIZE + n - 1;
      assert idx / BYTE_SIZE == k && idx % BYTE_SIZE == n - 1;
      assert ByteBits(p, k, n)[n - 1] == PatternBit(p, idx);
      assert PatternBit(p, idx) == Bit(p[k], BYTE_SIZE - n);
      ShrStep(p[k], BYTE_SIZE - n);
    }
  }

  /** Playing order is MSB first: the eight bits played from byte k, read
      as a binary number, give back byte k. */
  lemma PatternBitsMsbFirst(p: Pattern, k: nat)
    requires k < PATTERN_BYTES
    ensures MsbValue(ByteBits(p, k, BYTE_SIZE)) == p[k]
  {
    ByteBitsValue(p, k, BYTE_SIZE);
  }

  /** The one-bit sample alphabet. */
  function Level(bit: nat): (s: Byte)
    ensures s == HIGH_SAMPLE || s == LOW_SAMPLE
    ensures s == HIGH_SAMPLE <==> bit == 1
  {
    if bit == 1 then HIGH_SAMPLE else LOW_SAMPLE
  }

  /** Go's `int(phase)` for a non-negative phase. */
  function Trunc(x: real): (n: nat)
    requires x >= 0.0
    ensures n as real <= x < n as real + 1.0
  {
    x.Floor
  }

  /** The sample for phase `ph`: the pattern bit at `int(ph) % 128`. */
  function SampleAt(p: Pattern, ph: real): (s: Byte)
    requires ph >= 0.0
    ensures s == HIGH_SAMPLE || s == LOW_SAMPLE
  {
    Level(PatternBit(p, Trunc(ph) % PATTERN_BUFFER_BITS))
  }

  /** The phase j steps after `ph`. */
  function Phase(ph: real, step: real, j: nat): (r: real)
    requires ph >= 0.0 && step >= 0.0
    ensures r >= ph
  {
    NonNegativeProduct(j, step);
    ph + j as real * step
  }

  lemma NonNegativeProduct(n: nat, step: real)
    requires step >= 0.0
    ensures n as real * step >= 0.0
  {
  }

  /** The loop of `generateSound`, from sample `i` on, with `ph` the phase
      reached so far. */
  function Render(p: Pattern, ph: real, step: real, i: nat, n: nat): (r: seq<Byte>)
    requires ph >= 0.0 && step >= 0.0 && i <= n
    ensures |r| == n - i
    ensures forall k :: 0 <= k < |r| ==> r[k] == HIGH_SAMPLE || r[k] == LOW_SAMPLE
    decreases n - i
  {
    if i == n then [] else [SampleAt(p, ph)] + Render(p, ph + step, step, i + 1, n)
  }

  /** One step taken first, then j - 1 more, is j steps. */
  lemma PhaseShift(ph: real, step: real, j: nat)
    requires ph >= 0.0 && step >= 0.0 && j > 0
    ensures Phase(ph + step, step, j - 1) == Phase(ph, step, j)
  {
    assert j as real == (j - 1) as real + 1.0;
  }

  /** The phase increment per sample. */
  function Step(a: Apu): (s: real)
    requires Valid(a) && a.sampleRate > 0
    ensures s >= 0.0
  {
    a.playbackRate / a.sampleRate as real
  }

  /** Sample j of the loop is the one at the start phase plus j steps. */
  lemma {:induction false} RenderClosedForm(p: Pattern, ph: real, step: real, i: nat, n: nat, j: nat)
    requires ph >= 0.0 && step >= 0.0 && i <= n && j < n - i
    ensures Render(p, ph, step, i, n)[j] == SampleAt(p, Phase(ph, step, j))
    decreases n - i
  {
    if j > 0 {
      var rest := Render(p, ph + step, step, i + 1, n);
      assert Render(p, ph, step, i, n)[j] == rest[j - 1];
      RenderClosedForm(p, ph + step, step, i + 1, n, j - 1);
      PhaseShift(ph, step, j);
    }
  }

  /** Whole pattern lengths in x. */
  function Laps(x: real): nat
    requires x >= 0.0
  {
    (x / 128.0).Floor
  }

  /** `math.Mod(x, 128)` for a non-negative x: x is a whole number of
      pattern lengths plus the result. */
  function Mod128(x: real): (r: real)
    requires x >= 0.0
    ensures 0.0 <= r < PATTERN_BUFFER_BITS as real
    ensures x == Laps(x) as real * PATTERN_BUFFER_BITS as real + r
  {
    x - Laps(x) as real * 128.0
  }

  /** `generateSound`: `sampleRate / TPS` samples, the j-th taken at phase
      `phase + j * step` with `step = playbackRate / sampleRate`; afterwards
      the phase has moved on by that many steps and is reduced mod 128. */
  function GenerateSound(a: Apu): (r: (Apu, seq<Byte>))
    requires Valid(a)
    ensures |r.1| == a.sampleRate / TPS
    ensures 0.0 <= r.0.phase < PATTERN_BUFFER_BITS as real
    ensures a.sampleRate > 0 ==> r.0.phase == Mod128(Phase(a.phase, Step(a), a.sampleRate / TPS))
    ensures Valid(r.0) && r.0.(phase := a.phase) == a
  {
    var n := a.sampleRate / TPS;
    if n == 0 then (a.(phase := Mod128(a.phase)), [])
    else
      var step := Step(a);
      (a.(phase := Mod128(Phase(a.phase, step, n))), Render(a.pattern, a.phase, step, 0, n))
  }

  /** Sample j of a generated buffer is the pattern bit at phase
      `phase + j * step`, so consecutive samples walk the pattern MSB first
      at `playbackRate / sampleRate` bits per sample. */
  lemma GeneratedSamples(a: Apu, j: nat)
    requires Valid(a) && a.sampleRate > 0 && j < a.sampleRate / TPS
    ensures GenerateSound(a).1[j] == SampleAt(a.pattern, Phase(a.phase, Step(a), j))
    ensures GenerateSound(a).1[j] == HIGH_SAMPLE || GenerateSound(a).1[j] == LOW_SAMPLE
  {
    RenderClosedForm(a.pattern, a.phase, Step(a), 0, a.sampleRate / TPS, j);
  }

  /** `PlaySound`: nothing with audio disabled; otherwise a buffer is
      generated (advancing the phase) and handed to the stream when fewer
      bytes than its length are queued. The second component is the buffer
      enqueued, if any. */
  function PlaySound(a: Apu, queued: int): (r: (Apu, Option<seq<Byte>>))
    requires Valid(a)
    ensures a.audioDisabled ==> r == (a, None)
    ensures !a.audioDisabled ==> r.0 == GenerateSound(a).0
    ensures !a.audioDisabled ==> (r.1.Some? <==> queued < a.sampleRate / TPS)
    ensures r.1.Some? ==> r.1.value == GenerateSound(a).1
  {
    if a.audioDisabled then (a, None)
    else
      var (a', sound) := GenerateSound(a);
      (a', if queued < |sound| then Some(sound) else None)
  }
}

=== FILE: cpu.dfy ===
/** The instruction engine of internal/chip8/components/cpu: sixteen 8-bit
    registers V0..VF, the 16-bit index register I and program counter, a
    sixteen-deep call stack, the compatibility mode with its `forced` flag
    and tick count, and the key slot of the FX0A wait. One step fetches a
    big-endian word at pc, decodes it (see module Instructions) and executes
    it, ending with pc += 2 unless the instruction set pc itself.

    The machine is an immutable record; a step returns the new machine and
    the effects it asked of display, pacing and storage members that are not
    part of this model (scrolling, resolution, plane selection, pitch,
    pausing, flag files, the tick rate), or the fatal error that stopped it.
    Randomness, the polled key, the plane selection and the loaded flag file
    are inputs (`Env`). */
module Cpu {
  import opened Results
  import opened Lib
  import opened Instructions
  import Memory
  import Ui
  import Timer
  import Apu

  const REGISTER_COUNT: nat := 16
  const STACK_SIZE: nat := 16
  /** VF, the flag register. */
  const FLAG: Nibble := 0xF

  type Regs = s: seq<Byte> | |s| == REGISTER_COUNT witness seq(16, _ => 0)
  type Stack = s: seq<U16> | |s| == STACK_SIZE witness seq(16, _ => 0)

  datatype Cpu = Cpu(reg: Regs, pc: U16, i: U16, stack: Stack, sp: Byte,
                     pressedKey: Option<Byte>, forced: bool, mode: CompatibilityMode, ticks: nat)

  /** The CPU with the components it drives. */
  datatype Machine = Machine(cpu: Cpu, mem: Memory.Memory, screen: Ui.Screen, timer: Timer.Timer, apu: Apu.Apu)

  /** The tick rate asked for on a mode change. */
  datatype Tps = Tps(perSecond: nat) | Unlimited

  datatype ScrollDir = Up | Down | Left | Right

  /** Requests to members outside this model, recorded without semantics. */
  datatype Effect =
    | SetTps(tps: Tps)
    | Scroll(dir: ScrollDir, n: nat)
    | ToggleHiRes(on: bool)
    | SelectFrameBuffer(planes: Nibble)
    | SetPlaybackRate(pitch: Byte)
    | TogglePause
    | PersistFlags(regs: Regs)

  /** What `rand.Intn(0xFF)` can return. */
  type RandomByte = x: int | 0 <= x < 255

  /** The inputs of one step: whether both planes are selected, the key the
      display reports as pressed (if any), a random byte, and the registers
      the flag file decodes to (None when it is missing, empty or bad). */
  datatype Env = Env(bothPlanes: bool, polledKey: Option<Byte>, rnd: RandomByte, loadedFlags: Option<Regs>)

  /** A machine together with the effects requested on the way to it. */
  datatype Step = Step(m: Machine, effects: seq<Effect>)

  function ZeroRegs(): (r: Regs)
    ensures forall j :: 0 <= j < REGISTER_COUNT ==> r[j] == 0
  {
    seq(REGISTER_COUNT, _ => 0)
  }

  function ZeroStack(): (r: Stack)
    ensures forall j :: 0 <= j < STACK_SIZE ==> r[j] == 0
  {
    seq(STACK_SIZE, _ => 0)
  }

  // ---------------------------------------------------------------------
  // Construction, options, mode

  /** `New`: the Go zero value of the CPU wired to its components. */
  function New(mem: Memory.Memory, screen: Ui.Screen, timer: Timer.Timer, apu: Apu.Apu): (m: Machine)
    ensures m.cpu.mode == CmNone && !m.cpu.forced && m.cpu.ticks == 0
    ensures m.mem == mem && m.screen == screen && m.timer == timer && m.apu == apu
  {
    Machine(Cpu(ZeroRegs(), 0, 0, ZeroStack(), 0, None, false, CmNone, 0), mem, screen, timer, apu)
  }

  /** The `WithCompatibilityMode` option: a mode other than NONE is forced. */
  function WithCompatibilityMode(m: Machine, mode: CompatibilityMode): (r: Machine)
    ensures r.cpu.mode == mode && (r.cpu.forced <==> mode != CmNone)
    ensures r.cpu.(mode := m.cpu.mode, forced := m.cpu.forced) == m.cpu && r.(cpu := m.cpu) == m
  {
    m.(cpu := m.cpu.(mode := mode, forced := mode != CmNone))
  }

  function TpsOf(mode: CompatibilityMode): Tps {
    match mode
    case CmNone => Tps(500)
    case CmChip8 => Tps(500)
    case CmSuperChip => Tps(700)
    case CmXoChip => Unlimited
  }

  /** A forced mode stops following the program once it has run a tick. */
  predicate Frozen(c: Cpu) {
    c.forced && c.ticks > 0
  }

  /** `updateCompatibilityMode`: unless frozen, the CPU and the APU take the
      requested mode, whatever it was before, and the matching tick rate is
      requested. */
  function UpdateMode(m: Machine, mode: CompatibilityMode): (r: Step)
    ensures Frozen(m.cpu) ==> r == Step(m, [])
    ensures !Frozen(m.cpu) ==> r.m.cpu.mode == mode && r.m.apu.mode == mode && r.effects == [SetTps(TpsOf(mode))]
    ensures r.m.cpu.(mode := m.cpu.mode) == m.cpu && r.m.apu.(mode := m.apu.mode) == m.apu
    ensures r.m.mem == m.mem && r.m.screen == m.screen && r.m.timer == m.timer
  {
    if Frozen(m.cpu) then Step(m, [])
    else Step(m.(cpu := m.cpu.(mode := mode), apu := m.apu.(mode := mode)), [SetTps(TpsOf(mode))])
  }

  /** The instructions that call `updateCompatibilityMode(SUPERCHIP)`. */
  predicate AsksSuperChip(ins: Instr) {
    ins.ScrollDown? || ins.ScrollRight? || ins.ScrollLeft? || ins.LoRes? || ins.HiRes?
    || (ins.Drw? && ins.n == 0) || ins.SaveFlags? || ins.LoadFlags?
  }

  /** The instructions that call `updateCompatibilityMode(XOCHIP)`. */
  predicate AsksXoChip(ins: Instr) {
    ins.SaveRange? || ins.LoadRange? || ins.SelectPlanes? || ins.LoadPattern? || ins.Pitch?
  }

  /** The mode each instruction asks `updateCompatibilityMode` for. */
  function RequestedMode(ins: Instr): Option<CompatibilityMode> {
    if AsksSuperChip(ins) then Some(CmSuperChip)
    else if AsksXoChip(ins) then Some(CmXoChip)
    else None
  }

  /** The mode after one instruction: 00DN sets XO-CHIP past the guard;
      otherwise a requested mode is taken unless the CPU is frozen. */
  function NextMode(c: Cpu, ins: Instr): CompatibilityMode {
    if ins.ScrollUp? then CmXoChip
    else if RequestedMode(ins).Some? && !Frozen(c) then RequestedMode(ins).value
    else c.mode
  }

  /** The quirk set shared by CHIP-8 and XO-CHIP: shifts read Vy, BNNN adds
      V0, FX55/FX65 advance I. */
  predicate Chip8Quirks(mode: CompatibilityMode) {
    mode == CmChip8 || mode == CmXoChip
  }

  // ---------------------------------------------------------------------
  // Stack and fetch

  /** `pushStack`: an index panic when all sixteen slots are taken. */
  function Push(c: Cpu, v: U16): (r: Result<Cpu>)
    ensures r.Ok? <==> c.sp < STACK_SIZE
    ensures r.Fatal? ==> r.error == StackOverflow
    ensures r.Ok? ==> r.value.sp == c.sp + 1 && r.value.stack[c.sp] == v
    ensures r.Ok? ==> forall j :: 0 <= j < STACK_SIZE && j != c.sp ==> r.value.stack[j] == c.stack[j]
    ensures r.Ok? ==> r.value.(stack := c.stack, sp := c.sp) == c
  {
    if c.sp < STACK_SIZE then Ok(c.(stack := c.stack[c.sp := v], sp := c.sp + 1))
    else Fatal(StackOverflow)
  }

  /** `popStack`: `sp` is decremented as a uint8 first, so popping an empty
      stack indexes slot 255 and panics, as does any `sp` above 16. */
  function Pop(c: Cpu): (r: Result<(Cpu, U16)>)
    ensures r.Ok? <==> 1 <= c.sp <= STACK_SIZE
    ensures r.Fatal? ==> r.error == StackUnderflow
    ensures r.Ok? ==> r.value.0 == c.(sp := c.sp - 1) && r.value.1 == c.stack[c.sp - 1]
  {
    var sp := (c.sp - 1) % 256;
    if sp < STACK_SIZE then Ok((c.(sp := sp), c.stack[sp])) else Fatal(StackUnderflow)
  }

  /** `decodeInstruction`: pc must lie below 0xFFF, then the big-endian
      word at pc, pc+1 is read through the memory bus. */
  function Fetch(m: Machine): (r: Result<U16>)
    ensures r.Ok? <==> Memory.INTERPRETER_RAM_END < m.cpu.pc < Memory.PROGRAM_RAM_END
    ensures r.Ok? ==> r.value == m.mem.ram[m.cpu.pc] as int * 0x100 + m.mem.ram[m.cpu.pc + 1] as int
    ensures m.cpu.pc >= Memory.PROGRAM_RAM_END ==> r == Fatal(IllegalProgramCounter(m.cpu.pc))
  {
    if m.cpu.pc >= Memory.PROGRAM_RAM_END then Fatal(IllegalProgramCounter(m.cpu.pc))
    else
      var hi :- Memory.Read(m.mem, m.cpu.pc);
      // Once pc itself is readable and below 0xFFF, so is pc + 1.
      var lo := Memory.Read(m.mem, m.cpu.pc + 1).value;
      Ok(hi as int * 0x100 + lo as int)
  }

  /** `pc += 2` on a uint16. */
  function AdvancePc(m: Machine): (r: Machine)
    ensures r.cpu.pc == (m.cpu.pc + 2) % 0x10000
    ensures r.cpu.(pc := m.cpu.pc) == m.cpu && r.(cpu := m.cpu) == m
  {
    m.(cpu := m.cpu.(pc := (m.cpu.pc + 2) % 0x10000))
  }

  /** The shared tail of the skip instructions: when `cond` holds, pc moves
      to the next instruction, and one word further when that instruction is
      the F000 prefix of a long load (whose fetch may fail). */
  function Skip(m: Machine, cond: bool): (r: Result<Machine>)
    ensures !cond ==> r == Ok(m)
    ensures cond ==> (r.Ok? <==> Fetch(AdvancePc(m)).Ok?)
    ensures cond && r.Ok? ==>
      r.value.cpu.pc == if Fetch(AdvancePc(m)).value == 0xF000 then (m.cpu.pc + 4) % 0x10000 else (m.cpu.pc + 2) % 0x10000
    ensures r.Ok? ==> r.value.cpu.(pc := m.cpu.pc) == m.cpu && r.value.(cpu := m.cpu) == m
  {
    if !cond then Ok(m)
    else
      var m1 := AdvancePc(m);
      var w :- Fetch(m1);
      Ok(if w == 0xF000 then AdvancePc(m1) else m1)
  }

  // ---------------------------------------------------------------------
  // Block transfers between registers and memory

  /** The 16-bit address k bytes after `base`. */
  function Offset(base: U16, k: nat): U16 {
    (base + k) % 0x10000
  }

  /** The bytes at base, base+1, ... base+n-1 (from position k on), read in
      order; the first inaccessible address is fatal. */
  function LoadBlock(mem: Memory.Memory, base: U16, n: nat, k: nat): (r: Result<seq<Byte>>)
    requires k <= n
    ensures r.Ok? <==> forall j :: k <= j < n ==> Memory.Accessible(Offset(base, j))
    ensures r.Ok? ==> |r.value| == n - k
    ensures r.Ok? ==> forall j :: k <= j < n ==> r.value[j - k] == mem.ram[Offset(base, j)]
    decreases n - k
  {
    if k == n then Ok([])
    else
      var v :- Memory.Read(mem, Offset(base, k));
      var rest :- LoadBlock(mem, base, n, k + 1);
      Ok([v] + rest)
  }

  /** Distinct offsets below 0x10000 name distinct addresses. */
  lemma OffsetInjective(base: U16, j: nat, k: nat)
    requires j < 0x10000 && k < 0x10000 && j != k
    ensures Offset(base, j) != Offset(base, k)
  {
  }

  /** Writes vals[k..] to base+k, base+k+1, ... in order; the first
      inaccessible address is fatal. */
  function StoreBlock(mem: Memory.Memory, base: U16, vals: seq<Byte>, k: nat): (r: Result<Memory.Memory>)
    requires k <= |vals| <= 0x10000
    ensures r.Ok? <==> forall j :: k <= j < |vals| ==> Memory.Accessible(Offset(base, j))
    ensures r.Ok? ==> forall j :: k <= j < |vals| ==> r.value.ram[Offset(base, j)] == vals[j]
    ensures r.Ok? ==> forall a :: 0 <= a < Memory.RAM_SIZE && (forall j :: k <= j < |vals| ==> Offset(base, j) != a) ==>
      r.value.ram[a] == mem.ram[a]
    decreases |vals| - k
  {
    if k == |vals| then Ok(mem)
    else
      var mem' :- Memory.Write(mem, Offset(base, k), vals[k]);
      var r := StoreBlock(mem', base, vals, k + 1);
      assert r.Ok? ==> r.value.ram[Offset(base, k)] == vals[k] by {
        forall j | k + 1 <= j < |vals| ensures Offset(base, j) != Offset(base, k) {
          OffsetInjective(base, j, k);
        }
      }
      r
  }

  /** The number of registers from Vx to Vy inclusive, in either direction. */
  function Count(x: Nibble, y: Nibble): (n: nat)
    ensures 1 <= n <= REGISTER_COUNT
  {
    if x < y then y - x + 1 else x - y + 1
  }

  /** The k-th register of the block from Vx to Vy: upwards when x < y,
      downwards otherwise. */
  function RangeReg(x: Nibble, y: Nibble, k: nat): Nibble
    requires k < Count(x, y)
  {
    if x < y then x + k else x - k
  }

  /** Register j lies in the block from Vx to Vy. */
  predicate InBlock(x: Nibble, y: Nibble, j: int) {
    if x < y then x <= j <= y else y <= j <= x
  }

  /** The position of register j within the block from Vx to Vy. */
  function BlockPos(x: Nibble, y: Nibble, j: Nibble): (k: nat)
    requires InBlock(x, y, j)
    ensures k < Count(x, y) && RangeReg(x, y, k) == j
  {
    if x < y then j - x else x - j
  }

  /** The block's register values in block order. */
  function GatherRange(reg: Regs, x: Nibble, y: Nibble): (r: seq<Byte>)
    ensures |r| == Count(x, y)
    ensures forall k :: 0 <= k < Count(x, y) ==> r[k] == reg[RangeReg(x, y, k)]
  {
    seq(Count(x, y), k requires 0 <= k < Count(x, y) => reg[RangeReg(x, y, k)])
  }

  /** The load loop: vals[k], vals[k+1], ... go to the block's k-th,
      (k+1)-th, ... register. Registers outside the block keep their value. */
  function ScatterRange(reg: Regs, x: Nibble, y: Nibble, vals: seq<Byte>, k: nat): (r: Regs)
    requires |vals| == Count(x, y) && k <= Count(x, y)
    ensures forall j: Nibble :: r[j] == if InBlock(x, y, j) && BlockPos(x, y, j) >= k then vals[BlockPos(x, y, j)] else reg[j]
    decreases Count(x, y) - k
  {
    if k == Count(x, y) then reg
    else ScatterRange(reg[RangeReg(x, y, k) := vals[k]], x, y, vals, k + 1)
  }

  /** The three decimal digits of a byte, most significant first. */
  function Digits(v: Byte): (d: seq<Byte>)
    ensures |d| == 3 && d[0] < 10 && d[1] < 10 && d[2] < 10
    ensures d[0] as int * 100 + d[1] as int * 10 + d[2] as int == v
  {
    [v / 100, (v / 10) % 10, v % 10]
  }

  // ---------------------------------------------------------------------
  // Arithmetic

  /** The value a shift works on: Vy in the CHIP-8 and XO-CHIP quirk set,
      Vx otherwise. */
  function ShiftSource(c: Cpu, x: Nibble, y: Nibble): Byte {
    if Chip8Quirks(c.mode) then c.reg[y] else c.reg[x]
  }

  /** The CHIP-8 quirk of the logic ops: VF is cleared afterwards. */
  function LogicFlag(mode: CompatibilityMode, reg: Regs): (r: Regs)
    ensures forall j :: 0 <= j < FLAG ==> r[j] == reg[j]
    ensures r[FLAG] == if mode == CmChip8 then 0 else reg[FLAG]
  {
    if mode == CmChip8 then reg[FLAG := 0] else reg
  }

  /** 8XY4: the sum mod 256 in Vx, then the carry in VF. */
  function AddRegs(reg: Regs, x: Nibble, y: Nibble): (r: Regs)
    ensures forall j :: 0 <= j < REGISTER_COUNT && j != x && j != FLAG ==> r[j] == reg[j]
    ensures r[FLAG] < 2 && (x != FLAG ==> r[x] as int + 0x100 * r[FLAG] as int == reg[x] as int + reg[y] as int)
  {
    var sum := reg[x] as int + reg[y] as int;
    reg[x := sum % 0x100][FLAG := if sum > 0xFF then 1 else 0]
  }

  /** 8XY5: the difference mod 256 in Vx, then NOT borrow in VF. */
  function SubRegs(reg: Regs, x: Nibble, y: Nibble): (r: Regs)
    ensures forall j :: 0 <= j < REGISTER_COUNT && j != x && j != FLAG ==> r[j] == reg[j]
    ensures r[FLAG] < 2 && (r[FLAG] == 1 <==> reg[x] >= reg[y])
    ensures x != FLAG ==> r[x] as int == reg[x] as int - reg[y] as int + 0x100 * (1 - r[FLAG] as int)
  {
    var a, b := reg[x], reg[y];
    reg[x := (a as int - b as int) % 0x100][FLAG := if a >= b then 1 else 0]
  }

  /** 8XY7: Vy - Vx mod 256 in Vx; the flag compares the registers after
      that write, which amounts to NOT borrow. */
  function SubNRegs(reg: Regs, x: Nibble, y: Nibble): (r: Regs)
    ensures forall j :: 0 <= j < REGISTER_COUNT && j != x && j != FLAG ==> r[j] == reg[j]
    ensures r[FLAG] < 2 && (r[FLAG] == 1 <==> reg[y] >= reg[x])
    ensures x != FLAG ==> r[x] as int == reg[y] as int - reg[x] as int + 0x100 * (1 - r[FLAG] as int)
  {
    var w := reg[x := (reg[y] as int - reg[x] as int) % 0x100];
    SubNFlag(reg, x, y);
    w[FLAG := if w[x] > w[y] then 0 else 1]
  }

  /** 8XY6: v >> 1 in Vx, then the dropped bit 0 in VF. */
  function ShrRegs(reg: Regs, x: Nibble, v: Byte): (r: Regs)
    ensures forall j :: 0 <= j < REGISTER_COUNT && j != x && j != FLAG ==> r[j] == reg[j]
    ensures r[FLAG] < 2 && (x != FLAG ==> 2 * r[x] as int + r[FLAG] as int == v as int)
  {
    ShiftRightFacts(v);
    reg[x := v / 2][FLAG := Bit(v, 0)]
  }

  /** 8XYE: v << 1 as a byte in Vx, then the dropped bit 7 in VF. */
  function ShlRegs(reg: Regs, x: Nibble, v: Byte): (r: Regs)
    ensures forall j :: 0 <= j < REGISTER_COUNT && j != x && j != FLAG ==> r[j] == reg[j]
    ensures r[FLAG] < 2 && (x != FLAG ==> r[x] as int + 0x100 * r[FLAG] as int == 2 * v as int)
  {
    ShiftLeftFacts(v);
    reg[x := Shl8(v, 1)][FLAG := Bit(v, 7)]
  }

  /** The registers after 8XY?. Vx is written first and VF last, so with
      X = F the flag is what remains; every other register is untouched.
      The arithmetic ops pair the result with the flag so that together they
      give the exact mathematical result: carry for 8XY4, NOT borrow for
      8XY5 and 8XY7, the shifted-out bit for 8XY6 and 8XYE. */
  function AluRegs(c: Cpu, op: AluOp, x: Nibble, y: Nibble): (r: Regs)
    ensures forall j :: 0 <= j < REGISTER_COUNT && j != x && j != FLAG ==> r[j] == c.reg[j]
    ensures op.Mov? ==> r[x] == c.reg[y] && (x != FLAG ==> r[FLAG] == c.reg[FLAG])
    ensures op.Or? && (x != FLAG || c.mode != CmChip8) ==> r[x] == Or8(c.reg[x], c.reg[y])
    ensures op.And? && (x != FLAG || c.mode != CmChip8) ==> r[x] == And8(c.reg[x], c.reg[y])
    ensures op.Xor? && (x != FLAG || c.mode != CmChip8) ==> r[x] == Xor8(c.reg[x], c.reg[y])
    ensures (op.Or? || op.And? || op.Xor?) && c.mode == CmChip8 ==> r[FLAG] == 0
    ensures (op.Or? || op.And? || op.Xor?) && c.mode != CmChip8 && x != FLAG ==> r[FLAG] == c.reg[FLAG]
    ensures op.Add? ==> r[FLAG] < 2 && (x != FLAG ==> r[x] as int + 0x100 * r[FLAG] as int == c.reg[x] as int + c.reg[y] as int)
    ensures op.Sub? ==> (r[FLAG] == 1 <==> c.reg[x] >= c.reg[y]) && r[FLAG] < 2
    ensures op.Sub? && x != FLAG ==> r[x] as int == c.reg[x] as int - c.reg[y] as int + 0x100 * (1 - r[FLAG] as int)
    ensures op.SubN? ==> (r[FLAG] == 1 <==> c.reg[y] >= c.reg[x]) && r[FLAG] < 2
    ensures op.SubN? && x != FLAG ==> r[x] as int == c.reg[y] as int - c.reg[x] as int + 0x100 * (1 - r[FLAG] as int)
    ensures op.Shr? ==> r[FLAG] < 2 && (x != FLAG ==> 2 * r[x] as int + r[FLAG] as int == ShiftSource(c, x, y) as int)
    ensures op.Shl? ==> r[FLAG] < 2 && (x != FLAG ==> r[x] as int + 0x100 * r[FLAG] as int == 2 * ShiftSource(c, x, y) as int)
  {
    if op.Mov? || op.Or? || op.And? || op.Xor? then LogicRegs(c, op, x, y) else ArithRegs(c, op, x, y)
  }

  /** 8XY0..8XY3: the copy and the bitwise ops, with the CHIP-8 VF reset. */
  function LogicRegs(c: Cpu, op: AluOp, x: Nibble, y: Nibble): (r: Regs)
    requires op.Mov? || op.Or? || op.And? || op.Xor?
    ensures forall j :: 0 <= j < REGISTER_COUNT && j != x && j != FLAG ==> r[j] == c.reg[j]
    ensures op.Mov? ==> r[x] == c.reg[y] && (x != FLAG ==> r[FLAG] == c.reg[FLAG])
    ensures op.Or? && (x != FLAG || c.mode != CmChip8) ==> r[x] == Or8(c.reg[x], c.reg[y])
    ensures op.And? && (x != FLAG || c.mode != CmChip8) ==> r[x] == And8(c.reg[x], c.reg[y])
    ensures op.Xor? && (x != FLAG || c.mode != CmChip8) ==> r[x] == Xor8(c.reg[x], c.reg[y])
    ensures !op.Mov? && c.mode == CmChip8 ==> r[FLAG] == 0
    ensures !op.Mov? && c.mode != CmChip8 && x != FLAG ==> r[FLAG] == c.reg[FLAG]
  {
    var a, b := c.reg[x], c.reg[y];
    match op
    case Mov => c.reg[x := b]
    case Or => LogicFlag(c.mode, c.reg[x := Or8(a, b)])
    case And => LogicFlag(c.mode, c.reg[x := And8(a, b)])
    case Xor => LogicFlag(c.mode, c.reg[x := Xor8(a, b)])
  }

  /** 8XY4..8XYE: the arithmetic ops and the shifts, each with its flag. */
  function ArithRegs(c: Cpu, op: AluOp, x: Nibble, y: Nibble): (r: Regs)
    requires !(op.Mov? || op.Or? || op.And? || op.Xor?)
    ensures forall j :: 0 <= j < REGISTER_COUNT && j != x && j != FLAG ==> r[j] == c.reg[j]
    ensures op.Add? ==> r[FLAG] < 2 && (x != FLAG ==> r[x] as int + 0x100 * r[FLAG] as int == c.reg[x] as int + c.reg[y] as int)
    ensures op.Sub? ==> (r[FLAG] == 1 <==> c.reg[x] >= c.reg[y]) && r[FLAG] < 2
    ensures op.Sub? && x != FLAG ==> r[x] as int == c.reg[x] as int - c.reg[y] as int + 0x100 * (1 - r[FLAG] as int)
    ensures op.SubN? ==> (r[FLAG] == 1 <==> c.reg[y] >= c.reg[x]) && r[FLAG] < 2
    ensures op.SubN? && x != FLAG ==> r[x] as int == c.reg[y] as int - c.reg[x] as int + 0x100 * (1 - r[FLAG] as int)
    ensures op.Shr? ==> r[FLAG] < 2 && (x != FLAG ==> 2 * r[x] as int + r[FLAG] as int == ShiftSource(c, x, y) as int)
    ensures op.Shl? ==> r[FLAG] < 2 && (x != FLAG ==> r[x] as int + 0x100 * r[FLAG] as int == 2 * ShiftSource(c, x, y) as int)
  {
    match op
    case Add => AddRegs(c.reg, x, y)
    case Sub => SubRegs(c.reg, x, y)
    case Shr => ShrRegs(c.reg, x, ShiftSource(c, x, y))
    case SubN => SubNRegs(c.reg, x, y)
    case Shl => ShlRegs(c.reg, x, ShiftSource(c, x, y))
  }

  /** Bit 0 is what a right shift drops. */
  lemma ShiftRightFacts(v: Byte)
    ensures 2 * (v / 2) as int + Bit(v, 0) == v
  {
    BitZero(v);
  }

  /** Bit 7 is what a left shift of a byte drops. */
  lemma ShiftLeftFacts(v: Byte)
    ensures Shl8(v, 1) as int + 0x100 * Bit(v, 7) == 2 * v as int
  {
    assert Pow2(1) == 2;
    BitOfByteBeyondWidth(v, 8);
    ShrUnfoldSeven(v);
  }

  /** Shifting a byte right by 7 leaves its top bit. */
  lemma ShrUnfoldSeven(v: Byte)
    ensures Bit(v, 7) == v / 128
  {
    ShrLast(v, 0); ShrLast(v, 1); ShrLast(v, 2); ShrLast(v, 3);
    ShrLast(v, 4); ShrLast(v, 5); ShrLast(v, 6);
  }

  /** 8XY7 decides its flag by comparing the registers after Vx has been
      overwritten; that comparison is exactly "Vy >= the original Vx". */
  lemma SubNFlag(reg: Regs, x: Nibble, y: Nibble)
    ensures var w := reg[x := (reg[y] as int - reg[x] as int) % 0x100];
      (w[x] > w[y]) <==> reg[y] < reg[x]
  {
  }

  // ---------------------------------------------------------------------
  // Execution

  /** The instructions that set pc themselves and return before the final
      `pc += 2`, and the unimplemented words. */
  predicate Returns(ins: Instr) {
    ins.Jp? || ins.Call? || ins.JpOffset? || ins.WaitKey? || ins.Unknown?
  }

  /** The instructions that move pc before the final `pc += 2`. */
  predicate MovesPc(ins: Instr) {
    ins.Ret? || ins.LdILong? || IsSkip(ins)
  }

  /** The conditional skips. */
  predicate IsSkip(ins: Instr) {
    ins.SeImm? || ins.SneImm? || ins.SeReg? || ins.SneReg? || ins.Skp? || ins.Sknp?
  }

  /** The condition under which a skip instruction skips. */
  predicate SkipCondition(m: Machine, ins: Instr)
    requires IsSkip(ins)
  {
    var reg := m.cpu.reg;
    match ins
    case SeImm(x, nn) => reg[x] == nn
    case SneImm(x, nn) => reg[x] != nn
    case SeReg(x, y, _) => reg[x] == reg[y]
    case SneReg(x, y, _) => reg[x] != reg[y]
    case Skp(x) => Ui.IsKeyPressed(m.screen, reg[x])
    case Sknp(x) => !Ui.IsKeyPressed(m.screen, reg[x])
  }

  function SetRegs(m: Machine, reg: Regs): Machine {
    m.(cpu := m.cpu.(reg := reg))
  }

  function SetI(m: Machine, i: U16): Machine {
    m.(cpu := m.cpu.(i := i))
  }

  /** A step that only changes the machine. */
  function Just(m: Machine): Result<Step> {
    Ok(Step(m, []))
  }

  /** A mode update followed by one effect. */
  function Then(s: Step, e: Effect): Result<Step> {
    Ok(Step(s.m, s.effects + [e]))
  }

  /** The number of bytes DXYN reads: N, or 32 for N = 0, twice that when
      both planes are selected. */
  function SpriteLen(n: Nibble, bothPlanes: bool): (r: nat)
    ensures 0 < r <= 64 && (r > Ui.HEIGHT <==> n == 0 && bothPlanes)
  {
    (if n == 0 then 32 else n) * (if bothPlanes then 2 else 1)
  }

  /** DXYN: the sprite is N rows at I (32 rows and a mode switch for N = 0),
      twice as many when both planes are selected; it is drawn at (VX, VY)
      as read before VF is written, and VF reports the collision. Besides
      the screen and the registers only the guarded mode switch of N = 0
      changes anything. */
  function DrawStep(m: Machine, env: Env, x: Nibble, y: Nibble, n: Nibble): (r: Result<Step>)
    ensures r.Ok? <==> forall k :: 0 <= k < SpriteLen(n, env.bothPlanes) ==> Memory.Accessible(Offset(m.cpu.i, k))
    ensures r.Ok? ==>
      var d := Ui.DrawSprite(m.screen, m.cpu.reg[x], m.cpu.reg[y], LoadBlock(m.mem, m.cpu.i, SpriteLen(n, env.bothPlanes), 0).value);
      && r.value.m.screen == d.0
      && r.value.m.cpu.reg == m.cpu.reg[FLAG := if d.1 then 1 else 0]
    ensures r.Ok? ==>
      var base := if n == 0 then UpdateMode(m, CmSuperChip) else Step(m, []);
      && r.value.m.(screen := m.screen, cpu := r.value.m.cpu.(reg := m.cpu.reg)) == base.m
      && r.value.effects == base.effects
    ensures r.Ok? ==> r.value.m.cpu.reg[FLAG] < 2
    ensures r.Ok? ==> r.value.m.mem == m.mem && r.value.m.cpu.pc == m.cpu.pc
    ensures r.Ok? ==> r.value.m.cpu.mode == if n == 0 && !Frozen(m.cpu) then CmSuperChip else m.cpu.mode
  {
    var s := if n == 0 then UpdateMode(m, CmSuperChip) else Step(m, []);
    var sprite :- LoadBlock(s.m.mem, s.m.cpu.i, SpriteLen(n, env.bothPlanes), 0);
    var (screen, collision) := Ui.DrawSprite(s.m.screen, m.cpu.reg[x], m.cpu.reg[y], sprite);
    Ok(Step(SetRegs(s.m.(screen := screen), s.m.cpu.reg[FLAG := if collision then 1 else 0]), s.effects))
  }

  /** FX0A: with no key captured yet, capture the polled one and stay; with
      a captured key still held, stay; once it is released, store it in Vx,
      clear the slot and move on. */
  function AwaitKey(m: Machine, env: Env, x: Nibble): (r: Step)
    ensures r.effects == [] && r.m.mem == m.mem && r.m.screen == m.screen
    ensures r.m.cpu.pc == m.cpu.pc || r.m.cpu.pc == (m.cpu.pc + 2) % 0x10000
  {
    match m.cpu.pressedKey
    case None => Step(m.(cpu := m.cpu.(pressedKey := env.polledKey)), [])
    case Some(k) =>
      if Ui.IsKeyPressed(m.screen, k) then Step(m, [])
      else Step(AdvancePc(m.(cpu := m.cpu.(reg := m.cpu.reg[x := k], pressedKey := None))), [])
  }

  /** The 0x00?? group: clear, return, scrolling, exit and resolution. */
  predicate IsSystem(ins: Instr) {
    ins.Cls? || ins.Ret? || ins.ScrollDown? || ins.ScrollUp? || ins.ScrollRight? || ins.ScrollLeft?
    || ins.Exit? || ins.LoRes? || ins.HiRes?
  }

  /** The 0xFX?? group. */
  predicate IsMisc(ins: Instr) {
    ins.LdILong? || ins.SelectPlanes? || ins.LoadPattern? || ins.LdVxDt? || ins.LdDt? || ins.LdSt?
    || ins.AddI? || ins.LdF? || ins.LdHf? || ins.Bcd? || ins.Pitch? || ins.Store? || ins.Load?
    || ins.SaveFlags? || ins.LoadFlags?
  }

  /** 5XY2: VX..VY to I, I+1, ... (after the switch to XO-CHIP). */
  function SaveRegRange(m: Machine, x: Nibble, y: Nibble): (r: Result<Step>)
    ensures r.Ok? ==> r.value.m.(mem := m.mem) == UpdateMode(m, CmXoChip).m
    ensures r.Ok? ==> r.value.effects == UpdateMode(m, CmXoChip).effects
  {
    var s := UpdateMode(m, CmXoChip);
    var mem :- StoreBlock(s.m.mem, m.cpu.i, GatherRange(m.cpu.reg, x, y), 0);
    Ok(Step(s.m.(mem := mem), s.effects))
  }

  /** 5XY3: VX..VY from I, I+1, ... (after the switch to XO-CHIP). */
  function LoadRegRange(m: Machine, x: Nibble, y: Nibble): (r: Result<Step>)
    ensures r.Ok? ==> r.value.m.cpu.(reg := m.cpu.reg) == UpdateMode(m, CmXoChip).m.cpu
  {
    var s := UpdateMode(m, CmXoChip);
    var vals :- LoadBlock(s.m.mem, m.cpu.i, Count(x, y), 0);
    Ok(Step(SetRegs(s.m, ScatterRange(m.cpu.reg, x, y, vals, 0)), s.effects))
  }

  /** F000 NNNN: I := the word after the instruction, which is skipped. */
  function LoadLongI(m: Machine): (r: Result<Step>)
    ensures r.Ok? ==> r.value.m.cpu.(i := m.cpu.i, pc := m.cpu.pc) == m.cpu && r.value.effects == []
  {
    var m1 := AdvancePc(m);
    var w :- Fetch(m1);
    Just(SetI(m1, w))
  }

  /** F002: the 16 bytes at I become the audio pattern; it fails iff one of
      them is unreadable. Beyond the pattern only the guarded switch to
      XO-CHIP changes anything. */
  function FillPattern(m: Machine): (r: Result<Step>)
    ensures r.Ok? <==> forall k :: 0 <= k < Apu.PATTERN_BYTES ==> Memory.Accessible(Offset(m.cpu.i, k))
    ensures r.Ok? ==> forall k :: 0 <= k < Apu.PATTERN_BYTES ==> r.value.m.apu.pattern[k] == m.mem.ram[Offset(m.cpu.i, k)]
    ensures r.Ok? ==>
      var s := UpdateMode(m, CmXoChip);
      && r.value.m.(apu := r.value.m.apu.(pattern := s.m.apu.pattern)) == s.m
      && r.value.effects == s.effects
  {
    var s := UpdateMode(m, CmXoChip);
    var bytes :- LoadBlock(m.mem, m.cpu.i, Apu.PATTERN_BYTES, 0);
    var a := Apu.FillPatternBuffer(s.m.apu, bytes);
    assert a == s.m.apu.(pattern := bytes);
    Ok(Step(s.m.(apu := a), s.effects))
  }

  /** FX33: the decimal digits of VX at I, I+1, I+2. */
  function StoreDigits(m: Machine, x: Nibble): (r: Result<Step>)
    ensures r.Ok? ==> r.value.m.cpu == m.cpu && r.value.effects == []
  {
    var mem :- StoreBlock(m.mem, m.cpu.i, Digits(m.cpu.reg[x]), 0);
    Just(m.(mem := mem))
  }

  /** FX55: V0..VX to I, I+1, ...; the CHIP-8 quirk moves I past them. */
  function SaveRegs(m: Machine, x: Nibble): (r: Result<Step>)
    ensures r.Ok? ==> r.value.m.cpu.(i := m.cpu.i) == m.cpu && r.value.effects == []
  {
    var c := m.cpu;
    var mem :- StoreBlock(m.mem, c.i, GatherRange(c.reg, 0, x), 0);
    Just(SetI(m.(mem := mem), if Chip8Quirks(c.mode) then Offset(c.i, x + 1) else c.i))
  }

  /** FX65: V0..VX from I, I+1, ...; the CHIP-8 quirk moves I past them. */
  function LoadRegs(m: Machine, x: Nibble): (r: Result<Step>)
    ensures r.Ok? ==> r.value.m.cpu.(reg := m.cpu.reg, i := m.cpu.i) == m.cpu && r.value.effects == []
  {
    var c := m.cpu;
    var vals :- LoadBlock(m.mem, c.i, x + 1, 0);
    Just(SetI(SetRegs(m, ScatterRange(c.reg, 0, x, vals, 0)), if Chip8Quirks(c.mode) then Offset(c.i, x + 1) else c.i))
  }

  /** FX85: the registers the flag file decodes to, if it gave any. */
  function RestoreFlags(m: Machine, env: Env): (r: Step)
    ensures r.m.cpu.(reg := m.cpu.reg) == UpdateMode(m, CmSuperChip).m.cpu
  {
    var s := UpdateMode(m, CmSuperChip);
    Step(if env.loadedFlags.Some? then SetRegs(s.m, env.loadedFlags.value) else s.m, s.effects)
  }

  /** The 0x00?? group of `execute`. Only RET moves pc or touches the
      stack; 00DN sets XO-CHIP past the forced-mode guard. */
  function SystemBody(m: Machine, ins: Instr): (r: Result<Step>)
    requires IsSystem(ins)
    ensures r.Ok? && !ins.Ret? ==> r.value.m.cpu.pc == m.cpu.pc
    ensures r.Ok? && !ins.Ret? ==> r.value.m.cpu.stack == m.cpu.stack && r.value.m.cpu.sp == m.cpu.sp
    ensures r.Ok? ==> r.value.m.cpu.ticks == m.cpu.ticks && r.value.m.cpu.forced == m.cpu.forced
    ensures r.Ok? ==> r.value.m.cpu.mode == NextMode(m.cpu, ins)
  {
    var c := m.cpu;
    match ins
    case Cls => Just(m.(screen := Ui.Reset(m.screen)))
    case Ret =>
      var p :- Pop(c);
      Just(m.(cpu := p.0.(pc := p.1)))
    case ScrollDown(n) => Then(UpdateMode(m, CmSuperChip), Scroll(Down, n))
    case ScrollUp(n) => Ok(Step(m.(cpu := c.(mode := CmXoChip)), [Scroll(Up, n)]))
    case ScrollRight => Then(UpdateMode(m, CmSuperChip), Scroll(Right, 4))
    case ScrollLeft => Then(UpdateMode(m, CmSuperChip), Scroll(Left, 4))
    case Exit => Ok(Step(m, [TogglePause]))
    case LoRes => Then(UpdateMode(m, CmSuperChip), ToggleHiRes(false))
    case HiRes => Then(UpdateMode(m, CmSuperChip), ToggleHiRes(true))
  }

  /** The 0xFX?? group of `execute`. Only the long load moves pc, and none
      touches the stack. */
  function MiscBody(m: Machine, env: Env, ins: Instr): (r: Result<Step>)
    requires IsMisc(ins)
    ensures r.Ok? && !ins.LdILong? ==> r.value.m.cpu.pc == m.cpu.pc
    ensures r.Ok? ==> r.value.m.cpu.stack == m.cpu.stack && r.value.m.cpu.sp == m.cpu.sp
    ensures r.Ok? ==> r.value.m.cpu.ticks == m.cpu.ticks && r.value.m.cpu.forced == m.cpu.forced
    ensures r.Ok? ==> r.value.m.cpu.mode == NextMode(m.cpu, ins)
  {
    MiscNextMode(m.cpu, ins);
    if IsModeMisc(ins) then ModeMiscBody(m, env, ins) else DataMiscBody(m, ins)
  }

  /** The mode after a mode-switching FX?? instruction. */
  function MiscMode(c: Cpu, ins: Instr): CompatibilityMode {
    if Frozen(c) then c.mode else if ins.SaveFlags? || ins.LoadFlags? then CmSuperChip else CmXoChip
  }

  /** Within the FX?? group, only the mode-switching instructions move the
      mode, and to `MiscMode`. */
  lemma MiscNextMode(c: Cpu, ins: Instr)
    requires IsMisc(ins)
    ensures NextMode(c, ins) == if IsModeMisc(ins) then MiscMode(c, ins) else c.mode
  {
  }

  /** The FX?? instructions that switch the mode first. */
  predicate IsModeMisc(ins: Instr) {
    ins.SelectPlanes? || ins.LoadPattern? || ins.Pitch? || ins.SaveFlags? || ins.LoadFlags?
  }

  /** FN01, F002, FX3A, FX75, FX85: a mode switch, then planes, pattern,
      pitch or flags; pc, I and the stack stay. */
  function ModeMiscBody(m: Machine, env: Env, ins: Instr): (r: Result<Step>)
    requires IsModeMisc(ins)
    ensures r.Ok? ==> r.value.m.cpu.(reg := m.cpu.reg, mode := m.cpu.mode) == m.cpu
    ensures r.Ok? ==> r.value.m.cpu.mode == MiscMode(m.cpu, ins)
  {
    match ins
    case SelectPlanes(x) => Then(UpdateMode(m, CmXoChip), SelectFrameBuffer(x))
    case LoadPattern(_) => FillPattern(m)
    case Pitch(x) => Then(UpdateMode(m, CmXoChip), SetPlaybackRate(m.cpu.reg[x]))
    case SaveFlags(_) =>
      var s := UpdateMode(m, CmSuperChip);
      Then(s, PersistFlags(s.m.cpu.reg))
    case LoadFlags(_) => Ok(RestoreFlags(m, env))
  }

  /** The other FX?? instructions: timers, I, digits and register blocks;
      the mode and the stack stay, and only F000 moves pc. */
  function DataMiscBody(m: Machine, ins: Instr): (r: Result<Step>)
    requires IsMisc(ins) && !IsModeMisc(ins)
    ensures r.Ok? ==> r.value.m.cpu.(reg := m.cpu.reg, i := m.cpu.i, pc := m.cpu.pc) == m.cpu
    ensures r.Ok? && !ins.LdILong? ==> r.value.m.cpu.pc == m.cpu.pc
    // FX07 reads the delay timer; FX15 and FX18 set one counter each.
    ensures ins.LdVxDt? ==> r.Ok? && r.value.m == m.(cpu := m.cpu.(reg := m.cpu.reg[ins.x := m.timer.delay]))
    ensures ins.LdDt? ==> r.Ok? && r.value.m == m.(timer := m.timer.(delay := m.cpu.reg[ins.x]))
    ensures ins.LdSt? ==> r.Ok? && r.value.m == m.(timer := m.timer.(sound := m.cpu.reg[ins.x]))
    // FX1E: I wraps at 16 bits.
    ensures ins.AddI? ==> r.Ok? && r.value.m == m.(cpu := m.cpu.(i := (m.cpu.i + m.cpu.reg[ins.x]) % 0x10000))
  {
    var c := m.cpu;
    match ins
    case LdILong(_) => LoadLongI(m)
    case LdVxDt(x) => Just(SetRegs(m, c.reg[x := Timer.GetDelay(m.timer)]))
    case LdDt(x) => Just(m.(timer := Timer.SetDelay(m.timer, c.reg[x])))
    case LdSt(x) => Just(m.(timer := Timer.SetSound(m.timer, c.reg[x])))
    case AddI(x) => Just(SetI(m, Offset(c.i, c.reg[x])))
    case LdF(x) => Just(SetI(m, (c.reg[x] as int * 5) % 0x100))
    case LdHf(x) => Just(SetI(m, (c.reg[x] as int * 10 + 80) % 0x100))
    case Bcd(x) => StoreDigits(m, x)
    case Store(x) => SaveRegs(m, x)
    case Load(x) => LoadRegs(m, x)
  }

  /** The part of `execute` before the final `pc += 2`, for the
      instructions that reach it. Only returns, skips and the long load
      touch pc here, and only a return touches the stack. */
  function Body(m: Machine, env: Env, ins: Instr): (r: Result<Step>)
    requires !Returns(ins)
    ensures r.Ok? && !MovesPc(ins) ==> r.value.m.cpu.pc == m.cpu.pc
    ensures r.Ok? && !ins.Ret? ==> r.value.m.cpu.stack == m.cpu.stack && r.value.m.cpu.sp == m.cpu.sp
    ensures r.Ok? ==> r.value.m.cpu.ticks == m.cpu.ticks && r.value.m.cpu.forced == m.cpu.forced
    ensures r.Ok? ==> r.value.m.cpu.mode == NextMode(m.cpu, ins)
  {
    if IsSystem(ins) then SystemBody(m, ins)
    else if IsMisc(ins) then MiscBody(m, env, ins)
    else if ins.Drw? then DrawStep(m, env, ins.x, ins.y, ins.n)
    else if ins.SaveRange? then SaveRegRange(m, ins.x, ins.y)
    else if ins.LoadRange? then LoadRegRange(m, ins.x, ins.y)
    else DataBody(m, env, ins)
  }

  /** The instructions `DataBody` handles. */
  predicate IsData(ins: Instr) {
    !Returns(ins) && !IsSystem(ins) && !IsMisc(ins) && !ins.Drw? && !ins.SaveRange? && !ins.LoadRange?
  }

  /** Skips, loads, arithmetic, I and random numbers: only the registers,
      I and (for skips) pc change. */
  function DataBody(m: Machine, env: Env, ins: Instr): (r: Result<Step>)
    requires IsData(ins)
    ensures r.Ok? ==> r.value.m.cpu.(reg := m.cpu.reg, i := m.cpu.i, pc := m.cpu.pc) == m.cpu
    ensures r.Ok? && !MovesPc(ins) ==> r.value.m.cpu.pc == m.cpu.pc
  {
    var c := m.cpu;
    if IsSkip(ins) then
      var m' :- Skip(m, SkipCondition(m, ins));
      Just(m')
    else
    match ins
    case LdImm(x, nn) => Just(SetRegs(m, c.reg[x := nn]))
    case AddImm(x, nn) => Just(SetRegs(m, c.reg[x := (c.reg[x] as int + nn as int) % 0x100]))
    case Alu(op, x, y) => Just(SetRegs(m, AluRegs(c, op, x, y)))
    case LdI(a) => Just(SetI(m, a))
    case Rnd(x, nn) => Just(SetRegs(m, c.reg[x := And8(env.rnd, nn)]))
  }


  /** The instructions that leave `execute` before its final `pc += 2`. */
  function Leave(m: Machine, env: Env, ins: Instr): (r: Result<Step>)
    requires Returns(ins)
    ensures r.Ok? ==> r.value.m.cpu.ticks == m.cpu.ticks && r.value.m.cpu.forced == m.cpu.forced
    ensures r.Ok? ==> r.value.m.cpu.mode == m.cpu.mode && r.value.effects == []
  {
    var c := m.cpu;
    match ins
    case Jp(a) => Just(m.(cpu := c.(pc := a)))
    case Call(a) =>
      var c' :- Push(c, c.pc);
      Just(m.(cpu := c'.(pc := a)))
    case JpOffset(a) =>
      var base := if Chip8Quirks(c.mode) then c.reg[0] else c.reg[a / 0x100];
      Just(m.(cpu := c.(pc := a + base)))
    case WaitKey(x) => Ok(AwaitKey(m, env, x))
    case Unknown(w) => Fatal(UnimplementedInstruction(w))
  }

  /** `execute`: JP, CALL and BNNN set pc and return, FX0A may return
      early, an unimplemented word is fatal, and everything else runs its
      body and then advances pc by 2. */
  function Execute(m: Machine, env: Env, ins: Instr): (r: Result<Step>)
    ensures ins.Unknown? ==> r == Fatal(UnimplementedInstruction(ins.word))
    ensures r.Ok? ==> r.value.m.cpu.ticks == m.cpu.ticks && r.value.m.cpu.forced == m.cpu.forced
  {
    if Returns(ins) then Leave(m, env, ins)
    else
      var s :- Body(m, env, ins);
      Ok(s.(m := AdvancePc(s.m)))
  }

  /** `Tick`: fetch, decode, execute, count the tick. */
  function Tick(m: Machine, env: Env): (r: Result<Step>)
    ensures r.Ok? ==> Fetch(m).Ok? && Execute(m, env, Decode(Fetch(m).value)).Ok?
    ensures r.Ok? ==> r.value.m.cpu.ticks == m.cpu.ticks + 1
    ensures r.Ok? ==> r.value.m.cpu.(ticks := m.cpu.ticks) == Execute(m, env, Decode(Fetch(m).value)).value.m.cpu
    ensures r.Ok? <==> Fetch(m).Ok? && Execute(m, env, Decode(Fetch(m).value)).Ok?
    ensures r.Ok? ==> var s := Execute(m, env, Decode(Fetch(m).value)).value;
      r.value.m.(cpu := s.m.cpu) == s.m && r.value.effects == s.effects
  {
    var w :- Fetch(m);
    var s :- Execute(m, env, Decode(w));
    Ok(Step(s.m.(cpu := s.m.cpu.(ticks := s.m.cpu.ticks + 1)), s.effects))
  }

  /** `Init`: registers, stack, I, sp and the key slot cleared, pc at the
      program start, the current mode re-applied (under the guard, with the
      tick count of before, so the APU takes the mode again), and the tick
      count reset. */
  function Init(m: Machine): (r: Step)
    ensures r.m.cpu.pc == Memory.PROGRAM_RAM_START && r.m.cpu.i == 0 && r.m.cpu.sp == 0
    ensures r.m.cpu.pressedKey == None && r.m.cpu.ticks == 0
    ensures forall j :: 0 <= j < REGISTER_COUNT ==> r.m.cpu.reg[j] == 0
    ensures forall j :: 0 <= j < STACK_SIZE ==> r.m.cpu.stack[j] == 0
    ensures r.m.cpu.mode == m.cpu.mode && r.m.cpu.forced == m.cpu.forced
    ensures r.effects == if Frozen(m.cpu) then [] else [SetTps(TpsOf(m.cpu.mode))]
    ensures r.m.mem == m.mem && r.m.screen == m.screen && r.m.timer == m.timer
    ensures r.m.apu == if Frozen(m.cpu) then m.apu else m.apu.(mode := m.cpu.mode)
  {
    var c := m.cpu.(reg := ZeroRegs(), stack := ZeroStack(), i := 0, pc := Memory.PROGRAM_RAM_START,
                    sp := 0, pressedKey := None);
    var s := UpdateMode(m.(cpu := c), m.cpu.mode);
    Step(s.m.(cpu := s.m.cpu.(ticks := 0)), s.effects)
  }
}

=== FILE: cpu_props.dfy ===
/** Properties of the instruction engine in module Cpu: the pc discipline,
    the stack, the skip rule, flags and quirks, block transfers, the key
    wait and the compatibility-mode guard. */
module CpuProps {
  import opened Results
  import opened Lib
  import opened Instructions
  import opened Cpu
  import Memory
  import Ui

  /** Every instruction that does not leave early is its body followed by
      `pc += 2`. */
  lemma ExecuteBody(m: Machine, env: Env, ins: Instr)
    requires !Returns(ins)
    ensures Execute(m, env, ins).Ok? <==> Body(m, env, ins).Ok?
    ensures Execute(m, env, ins).Ok? ==>
      Execute(m, env, ins).value == Body(m, env, ins).value.(m := AdvancePc(Body(m, env, ins).value.m))
  {
  }

  /** The data group's part before `pc += 2` is `DataBody`. */
  lemma BodyData(m: Machine, env: Env, ins: Instr)
    requires IsData(ins)
    ensures Body(m, env, ins) == DataBody(m, env, ins)
  {
  }

  /** A skip's part before `pc += 2` is the skip rule alone. */
  lemma BodySkip(m: Machine, env: Env, ins: Instr)
    requires IsSkip(ins)
    ensures Body(m, env, ins) == (var m' :- Skip(m, SkipCondition(m, ins)); Just(m'))
  {
    BodyData(m, env, ins);
  }

  /** 5XY2's part before `pc += 2` is its block store. */
  lemma BodySaveRange(m: Machine, env: Env, x: Nibble, y: Nibble)
    ensures Body(m, env, SaveRange(x, y)) == SaveRegRange(m, x, y)
  {
  }

  /** 5XY3's part before `pc += 2` is its block load. */
  lemma BodyLoadRange(m: Machine, env: Env, x: Nibble, y: Nibble)
    ensures Body(m, env, LoadRange(x, y)) == LoadRegRange(m, x, y)
  {
  }

  // ---------------------------------------------------------------------
  // Fetch and pc

  /** The word fetched at pc is the big-endian pair of bytes there, so a
      program holding an instruction's encoding at pc yields that very
      instruction. */
  lemma FetchDecodes(m: Machine, ins: Instr)
    requires Canonical(ins)
    requires Memory.INTERPRETER_RAM_END < m.cpu.pc < Memory.PROGRAM_RAM_END
    requires m.mem.ram[m.cpu.pc] == Encode(ins) / 0x100 && m.mem.ram[m.cpu.pc + 1] == Encode(ins) % 0x100
    ensures Fetch(m) == Ok(Encode(ins))
    ensures Decode(Fetch(m).value) == ins
  {
    DecodeEncode(ins);
  }

  /** Everything but the jumps, returns, skips, the long load and the key
      wait ends with pc advanced by exactly 2. */
  lemma StraightLinePc(m: Machine, env: Env, ins: Instr)
    requires !Returns(ins) && !MovesPc(ins)
    ensures Execute(m, env, ins).Ok? ==> Execute(m, env, ins).value.m.cpu.pc == (m.cpu.pc + 2) % 0x10000
  {
  }

  /** JP sets pc to NNN; BNNN to NNN plus V0 under the CHIP-8 and XO-CHIP
      quirk, plus VX (X the top nibble of NNN) otherwise. Neither adds 2. */
  lemma JumpsSetPc(m: Machine, env: Env, a: Addr)
    ensures Execute(m, env, Jp(a)).Ok? && Execute(m, env, Jp(a)).value.m.cpu.pc == a
    ensures Execute(m, env, JpOffset(a)).Ok?
    ensures Execute(m, env, JpOffset(a)).value.m.cpu.pc ==
      a + if Chip8Quirks(m.cpu.mode) then m.cpu.reg[0] else m.cpu.reg[a / 0x100]
  {
  }

  // ---------------------------------------------------------------------
  // Stack

  /** CALL with a free slot pushes the address of the CALL itself and
      jumps; the RET that follows pops it, restores sp and resumes right
      after the CALL. */
  lemma CallThenReturn(m: Machine, env: Env, a: Addr)
    requires m.cpu.sp < STACK_SIZE
    ensures Execute(m, env, Call(a)).Ok?
    ensures var m1 := Execute(m, env, Call(a)).value.m;
      && m1.cpu.pc == a && m1.cpu.sp == m.cpu.sp + 1 && m1.cpu.stack[m.cpu.sp] == m.cpu.pc
      && Execute(m1, env, Ret).Ok?
      && Execute(m1, env, Ret).value.m.cpu.sp == m.cpu.sp
      && Execute(m1, env, Ret).value.m.cpu.pc == (m.cpu.pc + 2) % 0x10000
  {
    var m1 := Execute(m, env, Call(a)).value.m;
    assert Pop(m1.cpu).Ok?;
  }

  /** A CALL with sixteen return addresses stacked, and a RET with none,
      are fatal. */
  lemma StackBounds(m: Machine, env: Env, a: Addr)
    ensures m.cpu.sp >= STACK_SIZE <==> Execute(m, env, Call(a)) == Fatal(StackOverflow)
    ensures m.cpu.sp == 0 ==> Execute(m, env, Ret) == Fatal(StackUnderflow)
  {
  }

  /** Pushing and then popping gives back the value and the stack pointer. */
  lemma PushThenPop(c: Cpu, v: U16)
    requires c.sp < STACK_SIZE
    ensures Pop(Push(c, v).value) == Ok((c.(stack := c.stack[c.sp := v]), v))
  {
  }

  // ---------------------------------------------------------------------
  // Skips and the long load

  /** An untaken skip advances pc by 2. A taken skip fetches the next word
      (which can be fatal) and advances by 4, or by 6 when that word is the
      F000 prefix, so the skip jumps over the whole long load. Nothing but
      pc changes. */
  lemma SkipPc(m: Machine, env: Env, ins: Instr)
    requires IsSkip(ins)
    ensures !SkipCondition(m, ins) ==> Execute(m, env, ins) == Ok(Step(AdvancePc(m), []))
    ensures SkipCondition(m, ins) ==> (Execute(m, env, ins).Ok? <==> Fetch(AdvancePc(m)).Ok?)
    ensures SkipCondition(m, ins) && Execute(m, env, ins).Ok? ==>
      Execute(m, env, ins).value.m.cpu.pc ==
        (m.cpu.pc + if Fetch(AdvancePc(m)).value == 0xF000 then 6 else 4) % 0x10000
    ensures Execute(m, env, ins).Ok? ==>
      var m' := Execute(m, env, ins).value.m; m'.cpu.(pc := m.cpu.pc) == m.cpu && m'.(cpu := m.cpu) == m
  {
    ExecuteSkip(m, env, ins);
    PcWraps(m.cpu.pc);
  }

  /** A skip instruction is the skip rule followed by `pc += 2`. */
  lemma ExecuteSkip(m: Machine, env: Env, ins: Instr)
    requires IsSkip(ins)
    ensures Execute(m, env, ins) == (var m' :- Skip(m, SkipCondition(m, ins)); Ok(Step(AdvancePc(m'), [])))
  {
    BodySkip(m, env, ins);
    ExecuteBody(m, env, ins);
  }

  /** Two or three `pc += 2` steps in 16 bits are one step of 4 or 6. */
  lemma PcWraps(pc: U16)
    ensures ((pc + 2) % 0x10000 + 2) % 0x10000 == (pc + 4) % 0x10000
    ensures ((pc + 4) % 0x10000 + 2) % 0x10000 == (pc + 6) % 0x10000
  {
  }

  /** F000 NNNN loads the whole 16-bit word after it into I and moves pc
      past both words. */
  lemma LongLoad(m: Machine, env: Env, x: Nibble)
    ensures Execute(m, env, LdILong(x)).Ok? <==> Fetch(AdvancePc(m)).Ok?
    ensures Execute(m, env, LdILong(x)).Ok? ==>
      && Execute(m, env, LdILong(x)).value.m.cpu.i == Fetch(AdvancePc(m)).value
      && Execute(m, env, LdILong(x)).value.m.cpu.pc == (m.cpu.pc + 4) % 0x10000
  {
  }

  // ---------------------------------------------------------------------
  // Arithmetic and quirks

  /** 7XNN adds mod 256 and, unlike 8XY4, leaves VF alone. */
  lemma AddImmediate(m: Machine, env: Env, x: Nibble, nn: Byte)
    ensures Execute(m, env, AddImm(x, nn)).Ok?
    ensures var reg := Execute(m, env, AddImm(x, nn)).value.m.cpu.reg;
      && reg[x] == (m.cpu.reg[x] as int + nn as int) % 0x100
      && forall j :: 0 <= j < REGISTER_COUNT && j != x ==> reg[j] == m.cpu.reg[j]
  {
    BodyData(m, env, AddImm(x, nn));
  }

  /** With X = F the flag overwrites the result: VF ends up holding the
      carry, NOT borrow or shifted-out bit, and for the bitwise ops the
      CHIP-8 reset, or outside CHIP-8 mode the bitwise result itself. */
  lemma FlagWrittenLast(c: Cpu, op: AluOp, y: Nibble)
    ensures var r := AluRegs(c, op, FLAG, y); var a, b := c.reg[FLAG], c.reg[y];
      r[FLAG] == match op
        case Mov => b
        case Or => if c.mode == CmChip8 then 0 else Or8(a, b)
        case And => if c.mode == CmChip8 then 0 else And8(a, b)
        case Xor => if c.mode == CmChip8 then 0 else Xor8(a, b)
        case Add => if a as int + b as int > 0xFF then 1 else 0
        case Sub => if a >= b then 1 else 0
        case SubN => if b >= a then 1 else 0
        case Shr => Bit(ShiftSource(c, FLAG, y), 0)
        case Shl => Bit(ShiftSource(c, FLAG, y), 7)
  {
  }

  /** The shifts read Vy in CHIP-8 and XO-CHIP mode and Vx otherwise. */
  lemma ShiftSourceByMode(c: Cpu, x: Nibble, y: Nibble)
    ensures c.mode == CmChip8 || c.mode == CmXoChip ==> ShiftSource(c, x, y) == c.reg[y]
    ensures c.mode == CmNone || c.mode == CmSuperChip ==> ShiftSource(c, x, y) == c.reg[x]
  {
  }

  /** CXNN keeps only bits of NN: whatever the random byte, a bit NN lacks
      is clear in the result. */
  lemma RandomWithinMask(m: Machine, env: Env, x: Nibble, nn: Byte, p: nat)
    requires Bit(nn, p) == 0
    ensures Execute(m, env, Rnd(x, nn)).Ok?
    ensures Bit(Execute(m, env, Rnd(x, nn)).value.m.cpu.reg[x], p) == 0
  {
    BodyRandom(m, env, x, nn);
    ExecuteBody(m, env, Rnd(x, nn));
    assert Execute(m, env, Rnd(x, nn)).value.m.cpu.reg[x] == And8(env.rnd, nn);
    And8WithinMask(env.rnd, nn, p);
  }

  /** CXNN's part before `pc += 2` writes `rnd & NN` to VX. */
  lemma BodyRandom(m: Machine, env: Env, x: Nibble, nn: Byte)
    ensures Body(m, env, Rnd(x, nn)) == Just(SetRegs(m, m.cpu.reg[x := And8(env.rnd, nn)]))
  {
    BodyData(m, env, Rnd(x, nn));
  }

  /** FX29 computes I in 8-bit arithmetic, so I stays below 0x100; it is
      exactly 5 bytes per glyph iff VX is at most 0x33 (5 * 0x33 = 255), and
      wraps past that. */
  lemma FontIndexIsByte(m: Machine, env: Env, x: Nibble)
    ensures Execute(m, env, LdF(x)).Ok?
    ensures Execute(m, env, LdF(x)).value.m.cpu.i < 0x100
    ensures Execute(m, env, LdF(x)).value.m.cpu.i == 5 * (m.cpu.reg[x] as int) <==> m.cpu.reg[x] < 0x34
  {
    var v: int := m.cpu.reg[x];
    assert Execute(m, env, LdF(x)).value.m.cpu.i == (v * 5) % 0x100;
    if v < 0x34 {
      assert v * 5 < 0x100;
    } else {
      assert v * 5 >= 0x100;
    }
  }

  /** FX30 likewise: the large glyphs start at 80, 10 bytes apart, and I
      stays below 0x100; the address is exact iff VX is at most 17 (10 * 17
      + 80 = 250), and wraps past that. */
  lemma HiFontIndexIsByte(m: Machine, env: Env, x: Nibble)
    ensures Execute(m, env, LdHf(x)).Ok?
    ensures Execute(m, env, LdHf(x)).value.m.cpu.i < 0x100
    ensures Execute(m, env, LdHf(x)).value.m.cpu.i == 10 * (m.cpu.reg[x] as int) + 80 <==> m.cpu.reg[x] < 0x12
  {
    var v: int := m.cpu.reg[x];
    assert Execute(m, env, LdHf(x)).value.m.cpu.i == (v * 10 + 80) % 0x100;
    if v < 0x12 {
      assert v * 10 + 80 < 0x100;
    } else {
      assert v * 10 + 80 >= 0x100;
    }
  }

  // ---------------------------------------------------------------------
  // Memory blocks

  /** FX33 succeeds exactly when I, I+1 and I+2 are writable and stores the
      decimal digits of Vx there, most significant first; nothing else in
      memory changes. */
  lemma BcdDigits(m: Machine, env: Env, x: Nibble)
    ensures var i := m.cpu.i;
      Execute(m, env, Bcd(x)).Ok? <==>
        Memory.Accessible(Offset(i, 0)) && Memory.Accessible(Offset(i, 1)) && Memory.Accessible(Offset(i, 2))
    ensures Execute(m, env, Bcd(x)).Ok? ==>
      var ram := Execute(m, env, Bcd(x)).value.m.mem.ram; var i := m.cpu.i;
      && ram[Offset(i, 0)] < 10 && ram[Offset(i, 1)] < 10 && ram[Offset(i, 2)] < 10
      && ram[Offset(i, 0)] as int * 100 + ram[Offset(i, 1)] as int * 10 + ram[Offset(i, 2)] as int == m.cpu.reg[x]
    ensures Execute(m, env, Bcd(x)).Ok? ==>
      var ram := Execute(m, env, Bcd(x)).value.m.mem.ram; var i := m.cpu.i;
      forall a :: 0 <= a < Memory.RAM_SIZE && a != Offset(i, 0) && a != Offset(i, 1) && a != Offset(i, 2) ==>
        ram[a] == m.mem.ram[a]
  {
    BodyDataMisc(m, env, Bcd(x));
    var i := m.cpu.i;
    var d := Digits(m.cpu.reg[x]);
    var r := StoreBlock(m.mem, i, d, 0);
    assert r.Ok? <==> forall j :: 0 <= j < 3 ==> Memory.Accessible(Offset(i, j));
    if r.Ok? {
      assert r.value.ram[Offset(i, 0)] == d[0];
      assert r.value.ram[Offset(i, 1)] == d[1];
      assert r.value.ram[Offset(i, 2)] == d[2];
    }
  }

  /** Loading a block just stored, into the same registers, changes none. */
  lemma ScatterGathered(reg: Regs, x: Nibble, y: Nibble)
    ensures ScatterRange(reg, x, y, GatherRange(reg, x, y), 0) == reg
  {
    var r := ScatterRange(reg, x, y, GatherRange(reg, x, y), 0);
    forall j: Nibble ensures r[j] == reg[j] {
    }
  }

  /** The bytes a successful block store leaves behind read back as the
      stored values. */
  lemma LoadAfterStore(mem: Memory.Memory, base: U16, vals: seq<Byte>)
    requires |vals| <= 0x10000 && StoreBlock(mem, base, vals, 0).Ok?
    ensures LoadBlock(StoreBlock(mem, base, vals, 0).value, base, |vals|, 0) == Ok(vals)
  {
    var mem' := StoreBlock(mem, base, vals, 0).value;
    var r := LoadBlock(mem', base, |vals|, 0);
    assert r.Ok?;
    assert r.value == vals;
  }

  /** 5XY2 then 5XY3 with the same X, Y and I gives every register back,
      in either direction, and leaves I where it was. */
  lemma SaveThenLoadRange(m: Machine, env: Env, x: Nibble, y: Nibble)
    requires Execute(m, env, SaveRange(x, y)).Ok?
    ensures var m1 := Execute(m, env, SaveRange(x, y)).value.m;
      && m1.cpu.i == m.cpu.i
      && Execute(m1, env, LoadRange(x, y)).Ok?
      && Execute(m1, env, LoadRange(x, y)).value.m.cpu.reg == m.cpu.reg
      && Execute(m1, env, LoadRange(x, y)).value.m.cpu.i == m.cpu.i
  {
    BodySaveRange(m, env, x, y);
    var m1 := Execute(m, env, SaveRange(x, y)).value.m;
    BodyLoadRange(m1, env, x, y);
    var vals := GatherRange(m.cpu.reg, x, y);
    LoadAfterStore(m.mem, m.cpu.i, vals);
    ScatterGathered(m.cpu.reg, x, y);
  }

  /** 5XY2 stores the block's k-th register at I+k. */
  lemma SaveRangeWrites(m: Machine, env: Env, x: Nibble, y: Nibble, k: nat)
    requires k < Count(x, y) && Execute(m, env, SaveRange(x, y)).Ok?
    ensures Execute(m, env, SaveRange(x, y)).value.m.mem.ram[Offset(m.cpu.i, k)] == m.cpu.reg[RangeReg(x, y, k)]
  {
  }

  /** FX55 moves I past the block (by X+1) only under the CHIP-8 and
      XO-CHIP quirk, and stores V0..VX at I, I+1, ... */
  lemma StoreRegisters(m: Machine, env: Env, x: Nibble)
    ensures var r := Execute(m, env, Store(x));
      r.Ok? ==>
        && r.value.m.cpu.i == (if Chip8Quirks(m.cpu.mode) then Offset(m.cpu.i, x + 1) else m.cpu.i)
        && forall k :: 0 <= k <= x ==> r.value.m.mem.ram[Offset(m.cpu.i, k)] == m.cpu.reg[k]
  {
    if Execute(m, env, Store(x)).Ok? {
      StoreStep(m, env, x);
      var vals := GatherRange(m.cpu.reg, 0, x);
      var mem := StoreBlock(m.mem, m.cpu.i, vals, 0).value;
      forall k | 0 <= k <= x ensures mem.ram[Offset(m.cpu.i, k)] == m.cpu.reg[k] {
        assert RangeReg(0, x, k) == k;
      }
    }
  }

  /** FX65 moves I the same way, and loads V0..VX from I, I+1, ...,
      leaving the registers above X alone. */
  lemma LoadRegisters(m: Machine, env: Env, x: Nibble)
    ensures var r := Execute(m, env, Load(x));
      r.Ok? ==>
        && r.value.m.cpu.i == (if Chip8Quirks(m.cpu.mode) then Offset(m.cpu.i, x + 1) else m.cpu.i)
        && (forall k :: 0 <= k <= x ==> r.value.m.cpu.reg[k] == m.mem.ram[Offset(m.cpu.i, k)])
        && (forall k :: x < k < REGISTER_COUNT ==> r.value.m.cpu.reg[k] == m.cpu.reg[k])
  {
    var block := LoadBlock(m.mem, m.cpu.i, x + 1, 0);
    if block.Ok? {
      var vals := block.value;
      LoadStep(m, env, x, vals);
      var reg := ScatterRange(m.cpu.reg, 0, x, vals, 0);
      forall k | 0 <= k <= x ensures reg[k] == m.mem.ram[Offset(m.cpu.i, k)] {
        assert InBlock(0, x, k) && BlockPos(0, x, k) == k;
      }
    } else {
      assert !Execute(m, env, Load(x)).Ok?;
    }
  }

  /** FX55 as one memory update. */
  lemma StoreStep(m: Machine, env: Env, x: Nibble)
    requires Execute(m, env, Store(x)).Ok?
    ensures StoreBlock(m.mem, m.cpu.i, GatherRange(m.cpu.reg, 0, x), 0).Ok?
    ensures Execute(m, env, Store(x)).value.m ==
      AdvancePc(SetI(m.(mem := StoreBlock(m.mem, m.cpu.i, GatherRange(m.cpu.reg, 0, x), 0).value),
                     if Chip8Quirks(m.cpu.mode) then Offset(m.cpu.i, x + 1) else m.cpu.i))
  {
  }

  /** FX65 as one register update. */
  lemma LoadStep(m: Machine, env: Env, x: Nibble, vals: seq<Byte>)
    requires LoadBlock(m.mem, m.cpu.i, x + 1, 0) == Ok(vals)
    ensures Execute(m, env, Load(x)).Ok?
    ensures Execute(m, env, Load(x)).value.m ==
      AdvancePc(SetI(SetRegs(m, ScatterRange(m.cpu.reg, 0, x, vals, 0)),
                     if Chip8Quirks(m.cpu.mode) then Offset(m.cpu.i, x + 1) else m.cpu.i))
  {
  }

  /** Outside the CHIP-8 and XO-CHIP quirk, FX55 then FX65 with the same X
      gives every register back and leaves I unchanged. */
  lemma StoreThenLoad(m: Machine, env: Env, x: Nibble)
    requires !Chip8Quirks(m.cpu.mode) && Execute(m, env, Store(x)).Ok?
    ensures var m1 := Execute(m, env, Store(x)).value.m;
      && Execute(m1, env, Load(x)).Ok?
      && Execute(m1, env, Load(x)).value.m.cpu.reg == m.cpu.reg
      && Execute(m1, env, Load(x)).value.m.cpu.i == m.cpu.i
  {
    var vals := GatherRange(m.cpu.reg, 0, x);
    StoreStep(m, env, x);
    var m1 := Execute(m, env, Store(x)).value.m;
    LoadAfterStore(m.mem, m.cpu.i, vals);
    assert LoadBlock(m1.mem, m1.cpu.i, x + 1, 0) == Ok(vals);
    LoadStep(m1, env, x, vals);
    ScatterGathered(m.cpu.reg, 0, x);
  }

  // ---------------------------------------------------------------------
  // Drawing

  /** The N bytes a DXYN sprite is read from. */
  function SpriteAt(m: Machine, n: nat): (s: seq<Byte>)
    requires forall k :: 0 <= k < n ==> Memory.Accessible(Offset(m.cpu.i, k))
    ensures |s| == n
  {
    seq(n, k requires 0 <= k < n && Memory.Accessible(Offset(m.cpu.i, k)) => m.mem.ram[Offset(m.cpu.i, k)])
  }

  /** DXYN's part before `pc += 2` is the draw step. */
  lemma BodyDraw(m: Machine, env: Env, x: Nibble, y: Nibble, n: Nibble)
    ensures Body(m, env, Drw(x, y, n)) == DrawStep(m, env, x, y, n)
  {
  }

  /** DXYN reads `SpriteLen` bytes at I and fails iff one is unreadable; it
      switches to SUPER-CHIP under the guard when N = 0, keeps memory and
      every register but VF, and leaves VF as 0 or 1. Whenever the sprite has
      at most 32 rows (every form except DXY0 on both planes) each pixel
      becomes its XOR closed form and VF is 1 exactly when a set sprite bit
      landed on a lit pixel. */
  lemma DrawCollisionFlag(m: Machine, env: Env, x: Nibble, y: Nibble, n: Nibble)
    ensures Execute(m, env, Drw(x, y, n)).Ok? <==>
      forall k :: 0 <= k < SpriteLen(n, env.bothPlanes) ==> Memory.Accessible(Offset(m.cpu.i, k))
    ensures Execute(m, env, Drw(x, y, n)).Ok? ==>
      var m' := Execute(m, env, Drw(x, y, n)).value.m;
      && m'.mem == m.mem
      && m'.cpu.mode == (if n == 0 && !Frozen(m.cpu) then CmSuperChip else m.cpu.mode)
      && m'.cpu.reg[FLAG] < 2
      && (forall j :: 0 <= j < REGISTER_COUNT && j != FLAG ==> m'.cpu.reg[j] == m.cpu.reg[j])
    ensures Execute(m, env, Drw(x, y, n)).Ok? && SpriteLen(n, env.bothPlanes) <= Ui.HEIGHT ==>
      var m' := Execute(m, env, Drw(x, y, n)).value.m;
      var sprite := SpriteAt(m, SpriteLen(n, env.bothPlanes));
      && (forall i :: 0 <= i < Ui.CELLS ==>
            m'.screen.frame[i] == Ui.SpriteValue(m.screen.frame, m.cpu.reg[x], m.cpu.reg[y], sprite, 0, i))
      && (m'.cpu.reg[FLAG] == 1 <==> Ui.AnySpriteHit(m.screen.frame, m.cpu.reg[x], m.cpu.reg[y], sprite, 0))
  {
    BodyDraw(m, env, x, y, n);
    var d := DrawStep(m, env, x, y, n);
    DrawStepFacts(m, env, x, y, n);
    if d.Ok? {
      assert Execute(m, env, Drw(x, y, n)).value.m == AdvancePc(d.value.m);
    }
  }

  /** DrawCollisionFlag for the draw step, before pc moves. */
  lemma DrawStepFacts(m: Machine, env: Env, x: Nibble, y: Nibble, n: Nibble)
    ensures DrawStep(m, env, x, y, n).Ok? <==> forall k :: 0 <= k < SpriteLen(n, env.bothPlanes) ==> Memory.Accessible(Offset(m.cpu.i, k))
    ensures DrawStep(m, env, x, y, n).Ok? ==>
      && DrawStep(m, env, x, y, n).value.m.mem == m.mem
      && DrawStep(m, env, x, y, n).value.m.cpu.mode == (if n == 0 && !Frozen(m.cpu) then CmSuperChip else m.cpu.mode)
      && DrawStep(m, env, x, y, n).value.m.cpu.reg[FLAG] < 2
      && (forall j :: 0 <= j < REGISTER_COUNT && j != FLAG ==> DrawStep(m, env, x, y, n).value.m.cpu.reg[j] == m.cpu.reg[j])
    ensures DrawStep(m, env, x, y, n).Ok? && SpriteLen(n, env.bothPlanes) <= Ui.HEIGHT ==>
      var sprite := SpriteAt(m, SpriteLen(n, env.bothPlanes));
      && (forall i :: 0 <= i < Ui.CELLS ==>
            DrawStep(m, env, x, y, n).value.m.screen.frame[i] == Ui.SpriteValue(m.screen.frame, m.cpu.reg[x], m.cpu.reg[y], sprite, 0, i))
      && (DrawStep(m, env, x, y, n).value.m.cpu.reg[FLAG] == 1 <==> Ui.AnySpriteHit(m.screen.frame, m.cpu.reg[x], m.cpu.reg[y], sprite, 0))
  {
    var r := LoadBlock(m.mem, m.cpu.i, SpriteLen(n, env.bothPlanes), 0);
    if r.Ok? {
      assert r.value == SpriteAt(m, SpriteLen(n, env.bothPlanes));
    }
  }

  // ---------------------------------------------------------------------
  // Screen, timers, I and the audio pattern

  /** The FX?? instructions outside the mode group: the part before
      `pc += 2` is `DataMiscBody`. */
  lemma BodyDataMisc(m: Machine, env: Env, ins: Instr)
    requires IsMisc(ins) && !IsModeMisc(ins)
    ensures Body(m, env, ins) == DataMiscBody(m, ins)
  {
    assert !IsSystem(ins);
    assert Body(m, env, ins) == MiscBody(m, env, ins);
  }

  /** 00E0 blanks every pixel and keeps the keys, registers and memory. */
  lemma ClearScreen(m: Machine, env: Env)
    ensures Execute(m, env, Cls).Ok?
    ensures var m' := Execute(m, env, Cls).value.m;
      && (forall i :: 0 <= i < Ui.CELLS ==> m'.screen.frame[i] == 0)
      && m'.screen.keyState == m.screen.keyState
      && m'.cpu.reg == m.cpu.reg && m'.mem == m.mem
  {
  }

  /** FX07 copies the delay timer into VX. */
  lemma ReadDelayTimer(m: Machine, env: Env, x: Nibble)
    ensures Execute(m, env, LdVxDt(x)).Ok?
    ensures var m' := Execute(m, env, LdVxDt(x)).value.m;
      m'.cpu.reg == m.cpu.reg[x := m.timer.delay] && m'.timer == m.timer
  {
    BodyDataMisc(m, env, LdVxDt(x));
  }

  /** FX15 sets the delay timer from VX and leaves the sound timer alone. */
  lemma SetDelayTimer(m: Machine, env: Env, x: Nibble)
    ensures Execute(m, env, LdDt(x)).Ok?
    ensures var m' := Execute(m, env, LdDt(x)).value.m;
      m'.timer.delay == m.cpu.reg[x] && m'.timer.sound == m.timer.sound && m'.cpu.reg == m.cpu.reg
  {
    BodyDataMisc(m, env, LdDt(x));
  }

  /** FX18 sets the sound timer from VX and leaves the delay timer alone. */
  lemma SetSoundTimer(m: Machine, env: Env, x: Nibble)
    ensures Execute(m, env, LdSt(x)).Ok?
    ensures var m' := Execute(m, env, LdSt(x)).value.m;
      m'.timer.sound == m.cpu.reg[x] && m'.timer.delay == m.timer.delay && m'.cpu.reg == m.cpu.reg
  {
    BodyDataMisc(m, env, LdSt(x));
  }

  /** FX1E adds VX to I modulo 2^16 and sets no flag. */
  lemma AddToI(m: Machine, env: Env, x: Nibble)
    ensures Execute(m, env, AddI(x)).Ok?
    ensures var m' := Execute(m, env, AddI(x)).value.m;
      m'.cpu.i == (m.cpu.i + m.cpu.reg[x]) % 0x10000 && m'.cpu.reg == m.cpu.reg
  {
    BodyDataMisc(m, env, AddI(x));
  }

  /** F002 fails iff one of the 16 bytes at I is unreadable, and otherwise
      makes them the audio pattern, in order. */
  lemma LoadPatternFromMemory(m: Machine, env: Env, x: Nibble)
    ensures Execute(m, env, LoadPattern(x)).Ok? <==>
      forall k :: 0 <= k < Apu.PATTERN_BYTES ==> Memory.Accessible(Offset(m.cpu.i, k))
    ensures Execute(m, env, LoadPattern(x)).Ok? ==>
      forall k :: 0 <= k < Apu.PATTERN_BYTES ==>
        Execute(m, env, LoadPattern(x)).value.m.apu.pattern[k] == m.mem.ram[Offset(m.cpu.i, k)]
  {
    assert Body(m, env, LoadPattern(x)) == FillPattern(m);
  }

  // ---------------------------------------------------------------------
  // FX0A

  /** The key wait as a small state machine. With no key captured, the
      polled key (if any) is captured and pc stays; while the captured key
      is held nothing changes; once it is released it goes to Vx, the slot
      is cleared and pc moves on. pc never moves otherwise. */
  lemma WaitKeyProtocol(m: Machine, env: Env, x: Nibble)
    ensures Execute(m, env, WaitKey(x)).Ok?
    ensures var m' := Execute(m, env, WaitKey(x)).value.m;
      && (m.cpu.pressedKey.None? ==> m' == m.(cpu := m.cpu.(pressedKey := env.polledKey)))
      && (m.cpu.pressedKey.Some? && Ui.IsKeyPressed(m.screen, m.cpu.pressedKey.value) ==> m' == m)
      && (m'.cpu.pc != m.cpu.pc <==> m.cpu.pressedKey.Some? && !Ui.IsKeyPressed(m.screen, m.cpu.pressedKey.value))
      && (m'.cpu.pc != m.cpu.pc ==>
            m'.cpu.pc == (m.cpu.pc + 2) % 0x10000 && m'.cpu.reg[x] == m.cpu.pressedKey.value && m'.cpu.pressedKey.None?)
  {
  }

  /** Two FX0A steps: a key is captured, then on its release stored. */
  lemma WaitKeyCaptureThenRelease(m: Machine, env: Env, env2: Env, x: Nibble, k: Byte)
    requires m.cpu.pressedKey.None? && env.polledKey == Some(k) && !Ui.IsKeyPressed(m.screen, k)
    ensures var m1 := Execute(m, env, WaitKey(x)).value.m;
      && m1.cpu.pc == m.cpu.pc
      && Execute(m1, env2, WaitKey(x)).Ok?
      && Execute(m1, env2, WaitKey(x)).value.m.cpu.reg[x] == k
      && Execute(m1, env2, WaitKey(x)).value.m.cpu.pc == (m.cpu.pc + 2) % 0x10000
      && Execute(m1, env2, WaitKey(x)).value.m.cpu.pressedKey.None?
  {
    WaitKeyProtocol(m, env, x);
    var m1 := Execute(m, env, WaitKey(x)).value.m;
    WaitKeyProtocol(m1, env2, x);
  }

  // ---------------------------------------------------------------------
  // Compatibility mode

  /** The mode after one instruction: 00DN sets XO-CHIP unconditionally;
      otherwise a requested mode is taken (upgrade or downgrade alike)
      unless the mode is forced and a tick has run, and any other
      instruction leaves the mode alone. */
  lemma ModeAfterExecute(m: Machine, env: Env, ins: Instr)
    ensures Execute(m, env, ins).Ok? ==>
      Execute(m, env, ins).value.m.cpu.mode ==
        if ins.ScrollUp? then CmXoChip
        else if RequestedMode(ins).Some? && !Frozen(m.cpu) then RequestedMode(ins).value
        else m.cpu.mode
  {
    if Execute(m, env, ins).Ok? && !Returns(ins) {
      var s := Body(m, env, ins).value;
      assert Execute(m, env, ins).value.m.cpu.mode == s.m.cpu.mode;
    }
  }

  /** Once a forced mode has run a tick it stays frozen, and only 00DN can
      still change the mode. */
  lemma ForcedModeStays(m: Machine, env: Env)
    requires Frozen(m.cpu)
    ensures Tick(m, env).Ok? ==> Frozen(Tick(m, env).value.m.cpu)
    ensures Tick(m, env).Ok? && !Decode(Fetch(m).value).ScrollUp? ==> Tick(m, env).value.m.cpu.mode == m.cpu.mode
  {
    if Tick(m, env).Ok? {
      ModeAfterExecute(m, env, Decode(Fetch(m).value));
    }
  }

  /** The mode is not monotone: an unforced XO-CHIP program that scrolls
      down drops back to SUPER-CHIP and asks for 700 ticks per second. */
  lemma ModeCanDowngrade(m: Machine, env: Env, n: Nibble)
    requires !Frozen(m.cpu) && m.cpu.mode == CmXoChip
    ensures Execute(m, env, ScrollDown(n)).Ok?
    ensures Execute(m, env, ScrollDown(n)).value.m.cpu.mode == CmSuperChip
    ensures ModeValue(Execute(m, env, ScrollDown(n)).value.m.cpu.mode) < ModeValue(m.cpu.mode)
    ensures Execute(m, env, ScrollDown(n)).value.effects == [SetTps(Tps(700)), Scroll(Down, n)]
  {
  }

  /** 00DN bypasses the guard: the CPU mode becomes XO-CHIP even when
      forced, the APU's copy is not updated and no tick rate is requested. */
  lemma ScrollUpBypassesGuard(m: Machine, env: Env, n: Nibble)
    ensures Execute(m, env, ScrollUp(n)).Ok?
    ensures var m' := Execute(m, env, ScrollUp(n)).value.m;
      m'.cpu.mode == CmXoChip && m'.apu == m.apu
    ensures Execute(m, env, ScrollUp(n)).value.effects == [Scroll(Up, n)]
  {
  }

  /** A forced mode set before the first tick survives `Init` and is
      announced with its tick rate; the first tick then freezes it. */
  lemma ForcedModeAfterInit(m: Machine, mode: CompatibilityMode)
    requires m.cpu.ticks == 0
    ensures var s := Init(WithCompatibilityMode(m, mode));
      && s.m.cpu.mode == mode && (s.m.cpu.forced <==> mode != CmNone)
      && s.effects == [SetTps(TpsOf(mode))]
      && !Frozen(s.m.cpu)
  {
  }

  /** A tick counts itself, so a forced mode is frozen from the second
      tick on. */
  lemma TickFreezesForcedMode(m: Machine, env: Env)
    requires m.cpu.forced
    ensures Tick(m, env).Ok? ==> Frozen(Tick(m, env).value.m.cpu)
  {
  }
}

=== FILE: instructions.dfy ===
/** The instruction set dispatched by `execute` in
    internal/chip8/components/cpu/cpu.go. A 16-bit word splits into four
    nibbles hi1 hi0 lo1 lo0; the source switches on them in that order, and
    every word it does not recognise is reported as unimplemented. `Decode`
    follows the same nested switch, and `Encode` puts a decoded instruction
    back into its word, so the two form a bijection between words and
    canonical instructions. */
module Instructions {
  import opened Results
  import opened Lib

  type Nibble = x: int | 0 <= x < 16
  type Addr = x: int | 0 <= x < 0x1000

  /** The 8XY? arithmetic group, by low nibble. */
  datatype AluOp = Mov | Or | And | Xor | Add | Sub | Shr | SubN | Shl

  datatype Instr =
    // 0x00E0, 0x00EE, 0x00CN, 0x00DN, 0x00FB..0x00FF
    | Cls | Ret | ScrollDown(n: Nibble) | ScrollUp(n: Nibble)
    | ScrollRight | ScrollLeft | Exit | LoRes | HiRes
    // 0x1NNN, 0x2NNN
    | Jp(addr: Addr) | Call(addr: Addr)
    // 0x3XNN, 0x4XNN
    | SeImm(x: Nibble, nn: Byte) | SneImm(x: Nibble, nn: Byte)
    // 0x5XY2, 0x5XY3, and 0x5XYN for any other N
    | SaveRange(x: Nibble, y: Nibble) | LoadRange(x: Nibble, y: Nibble) | SeReg(x: Nibble, y: Nibble, n: Nibble)
    // 0x6XNN, 0x7XNN, 0x8XY?
    | LdImm(x: Nibble, nn: Byte) | AddImm(x: Nibble, nn: Byte) | Alu(op: AluOp, x: Nibble, y: Nibble)
    // 0x9XYN
    | SneReg(x: Nibble, y: Nibble, n: Nibble)
    // 0xANNN, 0xBNNN, 0xCXNN, 0xDXYN
    | LdI(addr: Addr) | JpOffset(addr: Addr) | Rnd(x: Nibble, nn: Byte) | Drw(x: Nibble, y: Nibble, n: Nibble)
    // 0xEX9E, 0xEXA1
    | Skp(x: Nibble) | Sknp(x: Nibble)
    // 0xFX00 (X ignored), 0xFX01 .. 0xFX85
    | LdILong(x: Nibble) | SelectPlanes(x: Nibble) | LoadPattern(x: Nibble) | LdVxDt(x: Nibble)
    | WaitKey(x: Nibble) | LdDt(x: Nibble) | LdSt(x: Nibble) | AddI(x: Nibble) | LdF(x: Nibble)
    | LdHf(x: Nibble) | Bcd(x: Nibble) | Pitch(x: Nibble) | Store(x: Nibble) | Load(x: Nibble)
    | SaveFlags(x: Nibble) | LoadFlags(x: Nibble)
    // anything else
    | Unknown(word: U16)

  /** The word with nibbles a b c d, most significant first. */
  function Word(a: Nibble, b: Nibble, c: Nibble, d: Nibble): U16 {
    a * 0x1000 + b * 0x100 + c * 0x10 + d
  }

  /** The three low nibbles of a 12-bit address. */
  function AddrNibbles(v: Addr): (r: (Nibble, Nibble, Nibble))
    ensures r.0 * 0x100 + r.1 * 0x10 + r.2 == v
  {
    (v / 0x100, (v % 0x100) / 0x10, v % 0x10)
  }

  /** The two nibbles of a byte. */
  function ByteNibbles(v: Byte): (r: (Nibble, Nibble))
    ensures r.0 * 0x10 + r.1 == v
  {
    (v / 0x10, v % 0x10)
  }

  function AluCode(op: AluOp): Nibble {
    match op
    case Mov => 0x0 case Or => 0x1 case And => 0x2 case Xor => 0x3 case Add => 0x4
    case Sub => 0x5 case Shr => 0x6 case SubN => 0x7 case Shl => 0xE
  }

  function AluOpOf(code: Nibble): Option<AluOp> {
    match code
    case 0x0 => Some(Mov) case 0x1 => Some(Or) case 0x2 => Some(And) case 0x3 => Some(Xor)
    case 0x4 => Some(Add) case 0x5 => Some(Sub) case 0x6 => Some(Shr) case 0x7 => Some(SubN)
    case 0xE => Some(Shl)
    case _ => None
  }

  /** The 0x00?? group: only 00E0, 00EE, 00CN, 00DN and 00FB..00FF. */
  function DecodeSystem(w: U16, lo1: Nibble, lo0: Nibble): Instr {
    if lo1 == 0xE then
      (if lo0 == 0x0 then Cls else if lo0 == 0xE then Ret else Unknown(w))
    else if lo1 == 0xC then ScrollDown(lo0)
    else if lo1 == 0xD then ScrollUp(lo0)
    else if lo1 == 0xF then
      (if lo0 == 0xB then ScrollRight else if lo0 == 0xC then ScrollLeft
       else if lo0 == 0xD then Exit else if lo0 == 0xE then LoRes
       else if lo0 == 0xF then HiRes else Unknown(w))
    else Unknown(w)
  }

  /** The 0xFX?? group, by low byte. */
  function DecodeMisc(w: U16, x: Nibble, lo: Byte): Instr {
    match lo
    case 0x00 => LdILong(x) case 0x01 => SelectPlanes(x) case 0x02 => LoadPattern(x)
    case 0x07 => LdVxDt(x) case 0x0A => WaitKey(x) case 0x15 => LdDt(x) case 0x18 => LdSt(x)
    case 0x1E => AddI(x) case 0x29 => LdF(x) case 0x30 => LdHf(x) case 0x33 => Bcd(x)
    case 0x3A => Pitch(x) case 0x55 => Store(x) case 0x65 => Load(x) case 0x75 => SaveFlags(x)
    case 0x85 => LoadFlags(x)
    case _ => Unknown(w)
  }

  /** The instruction for the word with nibbles hi1 hi0 lo1 lo0. */
  function DecodeNibbles(hi1: Nibble, hi0: Nibble, lo1: Nibble, lo0: Nibble): Instr {
    var w := Word(hi1, hi0, lo1, lo0);
    var lo := lo1 * 0x10 + lo0;
    var nnn := hi0 * 0x100 + lo;
    match hi1
    case 0x0 => if hi0 == 0 then DecodeSystem(w, lo1, lo0) else Unknown(w)
    case 0x1 => Jp(nnn)
    case 0x2 => Call(nnn)
    case 0x3 => SeImm(hi0, lo)
    case 0x4 => SneImm(hi0, lo)
    case 0x5 => if lo0 == 0x2 then SaveRange(hi0, lo1) else if lo0 == 0x3 then LoadRange(hi0, lo1) else SeReg(hi0, lo1, lo0)
    case 0x6 => LdImm(hi0, lo)
    case 0x7 => AddImm(hi0, lo)
    case 0x8 => (match AluOpOf(lo0) case Some(op) => Alu(op, hi0, lo1) case None => Unknown(w))
    case 0x9 => SneReg(hi0, lo1, lo0)
    case 0xA => LdI(nnn)
    case 0xB => JpOffset(nnn)
    case 0xC => Rnd(hi0, lo)
    case 0xD => Drw(hi0, lo1, lo0)
    case 0xE => if lo == 0x9E then Skp(hi0) else if lo == 0xA1 then Sknp(hi0) else Unknown(w)
    case 0xF => DecodeMisc(w, hi0, lo)
  }

  /** The nibbles of a word, most significant first, as `execute` extracts
      them with shifts and masks. */
  function Nibbles(w: U16): (r: (Nibble, Nibble, Nibble, Nibble))
    ensures Word(r.0, r.1, r.2, r.3) == w
  {
    var low := AddrNibbles(w % 0x1000);
    (w / 0x1000, low.0, low.1, low.2)
  }

  lemma NibblesOfWord(a: Nibble, b: Nibble, c: Nibble, d: Nibble)
    ensures Nibbles(Word(a, b, c, d)) == (a, b, c, d)
  {
    var w := Word(a, b, c, d);
    assert w / 0x1000 == a && w % 0x1000 == b * 0x100 + c * 0x10 + d;
  }

  /** The instruction a word stands for; encoding it gives the word back,
      so decoding loses nothing. */
  function Decode(w: U16): (r: Instr)
    ensures Encode(r) == w
  {
    var (a, b, c, d) := Nibbles(w);
    EncodeDecodeNibbles(a, b, c, d);
    DecodeNibbles(a, b, c, d)
  }

  /** The nibbles of the word an instruction is written as. */
  function EncodeNibbles(i: Instr): (Nibble, Nibble, Nibble, Nibble) {
    match i
    case Cls => (0x0, 0x0, 0xE, 0x0)
    case Ret => (0x0, 0x0, 0xE, 0xE)
    case ScrollDown(n) => (0x0, 0x0, 0xC, n)
    case ScrollUp(n) => (0x0, 0x0, 0xD, n)
    case ScrollRight => (0x0, 0x0, 0xF, 0xB)
    case ScrollLeft => (0x0, 0x0, 0xF, 0xC)
    case Exit => (0x0, 0x0, 0xF, 0xD)
    case LoRes => (0x0, 0x0, 0xF, 0xE)
    case HiRes => (0x0, 0x0, 0xF, 0xF)
    case Jp(a) => WithAddr(0x1, a)
    case Call(a) => WithAddr(0x2, a)
    case SeImm(x, nn) => WithByte(0x3, x, nn)
    case SneImm(x, nn) => WithByte(0x4, x, nn)
    case SaveRange(x, y) => (0x5, x, y, 0x2)
    case LoadRange(x, y) => (0x5, x, y, 0x3)
    case SeReg(x, y, n) => (0x5, x, y, n)
    case LdImm(x, nn) => WithByte(0x6, x, nn)
    case AddImm(x, nn) => WithByte(0x7, x, nn)
    case Alu(op, x, y) => (0x8, x, y, AluCode(op))
    case SneReg(x, y, n) => (0x9, x, y, n)
    case LdI(a) => WithAddr(0xA, a)
    case JpOffset(a) => WithAddr(0xB, a)
    case Rnd(x, nn) => WithByte(0xC, x, nn)
    case Drw(x, y, n) => (0xD, x, y, n)
    case Skp(x) => (0xE, x, 0x9, 0xE)
    case Sknp(x) => (0xE, x, 0xA, 0x1)
    case LdILong(x) => (0xF, x, 0x0, 0x0)
    case SelectPlanes(x) => (0xF, x, 0x0, 0x1)
    case LoadPattern(x) => (0xF, x, 0x0, 0x2)
    case LdVxDt(x) => (0xF, x, 0x0, 0x7)
    case WaitKey(x) => (0xF, x, 0x0, 0xA)
    case LdDt(x) => (0xF, x, 0x1, 0x5)
    case LdSt(x) => (0xF, x, 0x1, 0x8)
    case AddI(x) => (0xF, x, 0x1, 0xE)
    case LdF(x) => (0xF, x, 0x2, 0x9)
    case LdHf(x) => (0xF, x, 0x3, 0x0)
    case Bcd(x) => (0xF, x, 0x3, 0x3)
    case Pitch(x) => (0xF, x, 0x3, 0xA)
    case Store(x) => (0xF, x, 0x5, 0x5)
    case Load(x) => (0xF, x, 0x6, 0x5)
    case SaveFlags(x) => (0xF, x, 0x7, 0x5)
    case LoadFlags(x) => (0xF, x, 0x8, 0x5)
    case Unknown(w) => Nibbles(w)
  }

  function WithAddr(a: Nibble, v: Addr): (Nibble, Nibble, Nibble, Nibble) {
    var n := AddrNibbles(v);
    (a, n.0, n.1, n.2)
  }

  function WithByte(a: Nibble, b: Nibble, v: Byte): (Nibble, Nibble, Nibble, Nibble) {
    var n := ByteNibbles(v);
    (a, b, n.0, n.1)
  }

  /** The word an instruction is written as: splitting it into nibbles
      gives back the instruction's fields. */
  function Encode(i: Instr): (r: U16)
    ensures Nibbles(r) == EncodeNibbles(i)
  {
    var (a, b, c, d) := EncodeNibbles(i);
    NibblesOfWord(a, b, c, d);
    Word(a, b, c, d)
  }

  /** The instructions `Decode` produces: 5XY2 and 5XY3 are never the plain
      register compare, and an unknown word is one the decoder rejects. */
  predicate Canonical(i: Instr) {
    match i
    case SeReg(_, _, n) => n != 0x2 && n != 0x3
    case Unknown(w) => Decode(w).Unknown?
    case _ => true
  }

  lemma AluCodeRoundTrip(op: AluOp)
    ensures AluOpOf(AluCode(op)) == Some(op)
  {
  }

  lemma AddrNibblesOf(b: Nibble, c: Nibble, d: Nibble)
    ensures AddrNibbles(b * 0x100 + c * 0x10 + d) == (b, c, d)
  {
  }

  lemma ByteNibblesOf(c: Nibble, d: Nibble)
    ensures ByteNibbles(c * 0x10 + d) == (c, d)
  {
  }

  lemma EncodeDecodeSystem(b: Nibble, c: Nibble, d: Nibble)
    ensures EncodeNibbles(DecodeNibbles(0x0, b, c, d)) == (0x0, b, c, d)
  {
    NibblesOfWord(0x0, b, c, d);
  }

  lemma EncodeDecodeMisc(b: Nibble, c: Nibble, d: Nibble)
    ensures EncodeNibbles(DecodeNibbles(0xF, b, c, d)) == (0xF, b, c, d)
  {
    var ins := DecodeMisc(Word(0xF, b, c, d), b, c * 0x10 + d);
    if ins.Unknown? {
      NibblesOfWord(0xF, b, c, d);
    } else {
      // Each known low byte has one pair of digits.
      ByteNibblesOf(c, d);
      assert (c, d) == ByteNibbles(c * 0x10 + d);
    }
  }

  lemma EncodeDecodeAlu(b: Nibble, c: Nibble, d: Nibble)
    ensures EncodeNibbles(DecodeNibbles(0x8, b, c, d)) == (0x8, b, c, d)
  {
    match AluOpOf(d)
    case Some(op) => assert AluCode(op) == d;
    case None => NibblesOfWord(0x8, b, c, d);
  }

  lemma EncodeDecodeOther(a: Nibble, b: Nibble, c: Nibble, d: Nibble)
    requires a != 0x0 && a != 0x8 && a != 0xF
    ensures EncodeNibbles(DecodeNibbles(a, b, c, d)) == (a, b, c, d)
  {
    AddrNibblesOf(b, c, d);
    ByteNibblesOf(c, d);
    NibblesOfWord(a, b, c, d);
  }

  lemma EncodeDecodeNibbles(a: Nibble, b: Nibble, c: Nibble, d: Nibble)
    ensures EncodeNibbles(DecodeNibbles(a, b, c, d)) == (a, b, c, d)
  {
    if a == 0x0 {
      EncodeDecodeSystem(b, c, d);
    } else if a == 0x8 {
      EncodeDecodeAlu(b, c, d);
    } else if a == 0xF {
      EncodeDecodeMisc(b, c, d);
    } else {
      EncodeDecodeOther(a, b, c, d);
    }
  }

  /** Every word is given back by encoding its decoding: no two words decode
      to the same instruction. */
  lemma EncodeDecode(w: U16)
    ensures Encode(Decode(w)) == w
    ensures Canonical(Decode(w))
  {
    var (a, b, c, d) := Nibbles(w);
    EncodeDecodeNibbles(a, b, c, d);
  }

  lemma DecodeEncodeSystem(i: Instr)
    requires !i.Unknown? && EncodeNibbles(i).0 == 0x0
    ensures var (a, b, c, d) := EncodeNibbles(i); DecodeNibbles(a, b, c, d) == i
  {
  }

  lemma DecodeEncodeMisc(i: Instr)
    requires !i.Unknown? && EncodeNibbles(i).0 == 0xF
    ensures var (a, b, c, d) := EncodeNibbles(i); DecodeNibbles(a, b, c, d) == i
  {
  }

  lemma DecodeEncodeOther(i: Instr)
    requires Canonical(i) && !i.Unknown? && EncodeNibbles(i).0 !in {0x0, 0xF}
    ensures var (a, b, c, d) := EncodeNibbles(i); DecodeNibbles(a, b, c, d) == i
  {
    if i.Alu? {
      AluCodeRoundTrip(i.op);
    }
  }

  lemma DecodeNibblesOfEncoding(i: Instr)
    requires Canonical(i)
    ensures var (a, b, c, d) := EncodeNibbles(i); DecodeNibbles(a, b, c, d) == i
  {
    if i.Unknown? {
    } else if EncodeNibbles(i).0 == 0x0 {
      DecodeEncodeSystem(i);
    } else if EncodeNibbles(i).0 == 0xF {
      DecodeEncodeMisc(i);
    } else {
      DecodeEncodeOther(i);
    }
  }

  /** Decoding a canonical instruction's word gives the instruction back. */
  lemma DecodeEncode(i: Instr)
    requires Canonical(i)
    ensures Decode(Encode(i)) == i
  {
    var (a, b, c, d) := EncodeNibbles(i);
    NibblesOfWord(a, b, c, d);
    DecodeNibblesOfEncoding(i);
  }
}

=== FILE: legacy.dfy ===
/** The older, self-contained interpreter of chip8/chip8.go. It shares
    nothing with the one under internal/ and keeps its own quirks: fetches
    and stores use plain slice indexing (an index past the end is a panic,
    below 0x200 is allowed), 8XY4 never sets VF, 8XY5/8XY7/8XY6/8XYE only
    ever set VF, EXA1 looks at key X rather than key VX, FX55/FX65 leave I
    alone, BNNN and CXNN are unknown, and the timers are never decremented.
    Panics and `log.Fatal` become `Fatal`; the tracing output is dropped. */
module Legacy {
  import opened Results
  import opened Lib

  const MEMORY_SIZE: nat := 4096
  const WIDTH: nat := 64
  const HEIGHT: nat := 32
  const GFX_SIZE: nat := WIDTH * HEIGHT
  const REGISTERS: nat := 16
  const KEYS: nat := 16
  const START_PC: U16 := 0x200
  const FLAG: Reg := 0xF

  type Reg = x: int | 0 <= x < REGISTERS
  type Mem = s: seq<Byte> | |s| == MEMORY_SIZE witness seq(4096, _ => 0)
  type Gfx = s: seq<Byte> | |s| == GFX_SIZE witness seq(2048, _ => 0)
  type Regs = s: seq<Byte> | |s| == REGISTERS witness seq(16, _ => 0)
  type Stack = s: seq<U16> | |s| == 16 witness seq(16, _ => 0)

  /** The interpreter state. `gfx` is row-major: cell `x + 64 * y`. */
  datatype Chip8 = Chip8(drawFlag: bool, playSound: bool, stop: bool,
                         pc: U16, i: U16, stack: Stack, sp: U16,
                         memory: Mem, v: Regs, gfx: Gfx, key: Regs,
                         delayTimer: Byte, soundTimer: Byte)

  /** The 4x5 glyphs of the hex digits 0..F, five bytes each. */
  const FONTSET: seq<Byte> := [
    0xF0, 0x90, 0x90, 0x90, 0xF0, 0x20, 0x60, 0x20, 0x20, 0x70,
    0xF0, 0x10, 0xF0, 0x80, 0xF0, 0xF0, 0x10, 0xF0, 0x10, 0xF0,
    0x90, 0x90, 0xF0, 0x10, 0x10, 0xF0, 0x80, 0xF0, 0x10, 0xF0,
    0xF0, 0x80, 0xF0, 0x90, 0xF0, 0xF0, 0x10, 0x20, 0x40, 0x40,
    0xF0, 0x90, 0xF0, 0x90, 0xF0, 0xF0, 0x90, 0xF0, 0x10, 0xF0,
    0xF0, 0x90, 0xF0, 0x90, 0x90, 0xE0, 0x90, 0xE0, 0x90, 0xE0,
    0xF0, 0x80, 0x80, 0x80, 0xF0, 0xE0, 0x90, 0x90, 0x90, 0xE0,
    0xF0, 0x80, 0xF0, 0x80, 0xF0, 0xF0, 0x80, 0xF0, 0x80, 0x80]

  /** `Init`: everything zero except the font at 0..80 and pc = 0x200. */
  function Init(): (c: Chip8)
    ensures c.pc == START_PC && c.sp == 0 && c.i == 0
    ensures forall a :: 0 <= a < |FONTSET| ==> c.memory[a] == FONTSET[a]
    ensures forall a :: |FONTSET| <= a < MEMORY_SIZE ==> c.memory[a] == 0
    ensures forall p :: 0 <= p < GFX_SIZE ==> c.gfx[p] == 0
    ensures forall r :: 0 <= r < REGISTERS ==> c.v[r] == 0 && c.key[r] == 0
    ensures c.delayTimer == 0 && c.soundTimer == 0 && !c.drawFlag && !c.stop
  {
    Chip8(false, false, false, START_PC, 0, seq(16, _ => 0), 0,
          seq(MEMORY_SIZE, a => if 0 <= a < |FONTSET| then FONTSET[a] else 0),
          seq(REGISTERS, _ => 0), seq(GFX_SIZE, _ => 0), seq(KEYS, _ => 0), 0, 0)
  }

  // ---------------------------------------------------------------------
  // Fetch and decode

  /** The big-endian word at pc; either byte past the end of memory panics. */
  function Fetch(c: Chip8): (r: Result<U16>)
    ensures r.Ok? <==> c.pc < MEMORY_SIZE - 1
    ensures r.Ok? ==> r.value / 0x100 == c.memory[c.pc] && r.value % 0x100 == c.memory[c.pc + 1]
  {
    if c.pc >= MEMORY_SIZE then Fatal(IndexOutOfRange(c.pc))
    else if c.pc + 1 >= MEMORY_SIZE then Fatal(IndexOutOfRange(c.pc + 1))
    else Ok(c.memory[c.pc] as int * 0x100 + c.memory[c.pc + 1])
  }

  function Kind(op: U16): nat { op / 0x1000 }
  function X(op: U16): Reg { (op / 0x100) % 16 }
  function Y(op: U16): Reg { (op / 0x10) % 16 }
  function N(op: U16): nat { op % 0x10 }
  function NN(op: U16): Byte { op % 0x100 }
  function NNN(op: U16): U16 { op % 0x1000 }

  // ---------------------------------------------------------------------
  // Small state updates

  /** `pc += 2` on a uint16. */
  function Adv(pc: U16): U16 { (pc + 2) % 0x10000 }

  function SetV(c: Chip8, x: Reg, val: Byte): (r: Chip8)
    ensures r.v[x] == val && r.(v := c.v) == c
    ensures forall j :: 0 <= j < REGISTERS && j != x ==> r.v[j] == c.v[j]
  {
    c.(v := c.v[x := val])
  }

  /** A conditional skip: +4 when the condition holds, +2 otherwise. */
  function SkipIf(c: Chip8, cond: bool): (r: Chip8)
    ensures r.pc == (c.pc + if cond then 4 else 2) % 0x10000
    ensures r.(pc := c.pc) == c
  {
    c.(pc := (c.pc + if cond then 4 else 2) % 0x10000)
  }

  /** The unknown-opcode exit. */
  function Unknown(op: U16): Result<Chip8> {
    Fatal(UnimplementedInstruction(op))
  }

  // ---------------------------------------------------------------------
  // 0x0 group: selected by the LOW nibble only

  function System(c: Chip8, op: U16): (r: Result<Chip8>)
    requires Kind(op) == 0
    ensures N(op) == 0x0 ==> r == Ok(c.(gfx := seq(GFX_SIZE, _ => 0), pc := Adv(c.pc)))
    ensures N(op) == 0xE ==> (r.Ok? <==> 1 <= c.sp <= 16)
    ensures N(op) == 0xE && r.Ok? ==> r.value == c.(sp := c.sp - 1, pc := Adv(c.stack[c.sp - 1]))
    ensures N(op) != 0x0 && N(op) != 0xE ==> r == Unknown(op)
  {
    if N(op) == 0x0 then Ok(c.(gfx := seq(GFX_SIZE, _ => 0), pc := Adv(c.pc)))
    else if N(op) == 0xE then
      var top := (c.sp - 1) % 0x10000;
      if top >= 16 then Fatal(IndexOutOfRange(top))
      else Ok(c.(pc := Adv(c.stack[top]), sp := top))
    else Unknown(op)
  }

  /** 2NNN: a full stack is refused at 15 entries, so slot 15 is never used. */
  function Call(c: Chip8, op: U16): (r: Result<Chip8>)
    ensures r.Ok? <==> c.sp < 15
    ensures c.sp == 15 ==> r == Fatal(StackOverflow)
    ensures r.Ok? ==> r.value == c.(stack := c.stack[c.sp := c.pc], sp := c.sp + 1, pc := NNN(op))
  {
    if c.sp == 0xF then Fatal(StackOverflow)
    else if c.sp >= 16 then Fatal(IndexOutOfRange(c.sp))
    else Ok(c.(stack := c.stack[c.sp := c.pc], sp := c.sp + 1, pc := NNN(op)))
  }

  // ---------------------------------------------------------------------
  // 0x8 group

  /** 8XY4: the sum is taken in 8 bits, so the source's `res > 0xFF` test
      can never hold and VF is left alone. */
  function AddRegs(c: Chip8, x: Reg, y: Reg): (r: Chip8)
    ensures r.v[x] == (c.v[x] as int + c.v[y]) % 256
    ensures forall j :: 0 <= j < REGISTERS && j != x ==> r.v[j] == c.v[j]
    ensures r.(v := c.v) == c
  {
    var res: Byte := (c.v[x] as int + c.v[y]) % 256;
    SetV(c, x, res)
  }

  /** 8XY5 / 8XY7: the wrapped difference `a - b`, and VF := 1 when a > b
      (set only, never cleared); the result is written last. */
  function SubRegs(c: Chip8, x: Reg, a: Byte, b: Byte): (r: Chip8)
    ensures r.v[x] == (a - b) % 256
    ensures x != FLAG ==> r.v[FLAG] == if a > b then 1 else c.v[FLAG]
    ensures forall j :: 0 <= j < REGISTERS && j != x && j != FLAG ==> r.v[j] == c.v[j]
    ensures r.(v := c.v) == c
  {
    var res: Byte := (a - b) % 256;
    var c1 := if a > b then SetV(c, FLAG, 1) else c;
    SetV(c1, x, res)
  }

  /** 8XY6: VF := 1 when the LOW NIBBLE of Vx is 1 (not bit 0), then Vx is
      halved, reading Vx after the flag write. */
  function ShrReg(c: Chip8, x: Reg): (r: Chip8)
    ensures x != FLAG ==> r.v[x] == c.v[x] / 2
    ensures x != FLAG ==> r.v[FLAG] == if c.v[x] % 16 == 1 then 1 else c.v[FLAG]
    ensures x == FLAG ==> r.v[FLAG] == (if c.v[x] % 16 == 1 then 1 else c.v[x]) / 2
    ensures forall j :: 0 <= j < REGISTERS && j != x && j != FLAG ==> r.v[j] == c.v[j]
    ensures r.(v := c.v) == c
  {
    var c1 := if c.v[x] % 16 == 1 then SetV(c, FLAG, 1) else c;
    SetV(c1, x, c1.v[x] / 2)
  }

  /** 8XYE: VF := 1 when the HIGH NIBBLE of Vx is 1 (not bit 7), then Vx is
      doubled in 8 bits, reading Vx after the flag write. */
  function ShlReg(c: Chip8, x: Reg): (r: Chip8)
    ensures x != FLAG ==> r.v[x] == (c.v[x] as int * 2) % 256
    ensures x != FLAG ==> r.v[FLAG] == if c.v[x] / 16 == 1 then 1 else c.v[FLAG]
    ensures x == FLAG ==> r.v[FLAG] == ((if c.v[x] / 16 == 1 then 1 else c.v[x] as int) * 2) % 256
    ensures forall j :: 0 <= j < REGISTERS && j != x && j != FLAG ==> r.v[j] == c.v[j]
    ensures r.(v := c.v) == c
  {
    var c1 := if c.v[x] / 16 == 1 then SetV(c, FLAG, 1) else c;
    SetV(c1, x, (c1.v[x] as int * 2) % 256)
  }

  /** The 0x8 group, selected by the low nibble; the result advances pc. */
  function Alu(c: Chip8, op: U16): (r: Result<Chip8>)
    requires Kind(op) == 8
    ensures r.Ok? <==> N(op) in {0x0, 0x1, 0x2, 0x3, 0x4, 0x5, 0x6, 0x7, 0xE}
    ensures r.Ok? ==> r.value.pc == Adv(c.pc) && r.value.(v := c.v, pc := c.pc) == c
  {
    var x, y := X(op), Y(op);
    var c1 :-
      match N(op)
      case 0x0 => Ok(SetV(c, x, c.v[y]))
      case 0x1 => Ok(SetV(c, x, Or8(c.v[x], c.v[y])))
      case 0x2 => Ok(SetV(c, x, And8(c.v[x], c.v[y])))
      case 0x3 => Ok(SetV(c, x, Xor8(c.v[x], c.v[y])))
      case 0x4 => Ok(AddRegs(c, x, y))
      case 0x5 => Ok(SubRegs(c, x, c.v[x], c.v[y]))
      case 0x6 => Ok(ShrReg(c, x))
      case 0x7 => Ok(SubRegs(c, x, c.v[y], c.v[x]))
      case 0xE => Ok(ShlReg(c, x))
      case _ => Unknown(op);
    Ok(c1.(pc := Adv(c.pc)))
  }

  // ---------------------------------------------------------------------
  // DXYN

  /** Bit k of a sprite row, k = 0 being the leftmost pixel (`0x80 >> k`). */
  predicate SpriteBit(pixel: Byte, k: int) {
    0 <= k < 8 && Bit(pixel, 7 - k) == 1
  }

  /** The framebuffer index of sprite row r, column 0: no wrapping. */
  function RowBase(vx: Byte, vy: Byte, r: nat): int {
    vx + (vy + r) * WIDTH
  }

  /** Cell p is drawn by columns col.. of the row starting at `base`. */
  predicate RowHit(base: int, pixel: Byte, col: nat, p: int) {
    col <= p - base && SpriteBit(pixel, p - base)
  }

  /** A set pixel of the row lands on a lit cell. */
  predicate RowCollides(gfx: Gfx, base: int, pixel: Byte, col: nat) {
    exists p :: 0 <= p < GFX_SIZE && RowHit(base, pixel, col, p) && gfx[p] == 1
  }

  /** The inner loop of DXYN over the columns col..7 of one row: each set
      bit toggles its cell, VF := 1 when that cell was 1, an index past the
      framebuffer panics. */
  function DrawColumns(gfx: Gfx, vf: Byte, base: int, pixel: Byte, col: nat): (r: Result<(Gfx, Byte)>)
    requires 0 <= base && col <= 8
    ensures r.Ok? <==> forall k :: col <= k < 8 && SpriteBit(pixel, k) ==> base + k < GFX_SIZE
    ensures r.Ok? ==> forall p :: 0 <= p < GFX_SIZE ==>
      r.value.0[p] == if RowHit(base, pixel, col, p) then Xor8(gfx[p], 1) else gfx[p]
    ensures r.Ok? ==> r.value.1 == if RowCollides(gfx, base, pixel, col) then 1 else vf
    decreases 8 - col
  {
    if col == 8 then Ok((gfx, vf))
    else if !SpriteBit(pixel, col) then
      ColumnSkipped(gfx, base, pixel, col);
      DrawColumns(gfx, vf, base, pixel, col + 1)
    else
      var idx := base + col;
      if idx >= GFX_SIZE then Fatal(IndexOutOfRange(idx))
      else
        ColumnDrawn(gfx, base, pixel, col);
        DrawColumns(gfx[idx := Xor8(gfx[idx], 1)], if gfx[idx] == 1 then 1 else vf, base, pixel, col + 1)
  }

  /** A clear sprite bit at `col` adds no cell and no collision. */
  lemma ColumnSkipped(gfx: Gfx, base: int, pixel: Byte, col: nat)
    requires col < 8 && !SpriteBit(pixel, col)
    ensures forall p :: RowHit(base, pixel, col, p) <==> RowHit(base, pixel, col + 1, p)
    ensures RowCollides(gfx, base, pixel, col) <==> RowCollides(gfx, base, pixel, col + 1)
  {
  }

  /** A set sprite bit at `col` adds cell base + col, which collides when
      it is lit; the cells after it are tested against the updated
      framebuffer, which agrees with the old one on them. */
  lemma ColumnDrawn(gfx: Gfx, base: int, pixel: Byte, col: nat)
    requires col < 8 && SpriteBit(pixel, col) && 0 <= base + col < GFX_SIZE
    ensures forall p :: RowHit(base, pixel, col, p) <==> p == base + col || RowHit(base, pixel, col + 1, p)
    ensures var idx := base + col;
      RowCollides(gfx, base, pixel, col) <==>
        gfx[idx] == 1 || RowCollides(gfx[idx := Xor8(gfx[idx], 1)], base, pixel, col + 1)
  {
    var idx := base + col;
    var gfx1 := gfx[idx := Xor8(gfx[idx], 1)];
    if gfx[idx] != 1 && RowCollides(gfx, base, pixel, col) {
      var p :| 0 <= p < GFX_SIZE && RowHit(base, pixel, col, p) && gfx[p] == 1;
      assert gfx1[p] == gfx[p];
    }
    if RowCollides(gfx1, base, pixel, col + 1) {
      var p :| 0 <= p < GFX_SIZE && RowHit(base, pixel, col + 1, p) && gfx1[p] == 1;
      assert gfx1[p] == gfx[p];
    }
  }

  /** The address of sprite row r: `I + r` on a uint16. */
  function RowAddr(i: U16, r: nat): int { (i + r) % 0x10000 }

  /** Row r of the sprite, when its address is inside memory. */
  predicate RowReadable(mem: Mem, i: U16, r: nat) { RowAddr(i, r) < MEMORY_SIZE }

  /** Cell p lies in sprite row q = (p - vx) / 64 - vy, column
      m = (p - vx) % 64, with rows..height-1 drawn: m < 8 and bit m of
      that row is set. Since columns stay below 8 < 64 this is the one
      (row, column) that can reach p. */
  predicate SpriteHit(mem: Mem, i: U16, vx: Byte, vy: Byte, height: nat, rows: nat, p: int) {
    var q := (p - vx) / WIDTH - vy;
    var m := (p - vx) % WIDTH;
    rows <= q < height && RowReadable(mem, i, q) && SpriteBit(mem[RowAddr(i, q)], m)
  }

  predicate SpriteCollides(gfx: Gfx, mem: Mem, i: U16, vx: Byte, vy: Byte, height: nat, rows: nat) {
    exists p :: 0 <= p < GFX_SIZE && SpriteHit(mem, i, vx, vy, height, rows, p) && gfx[p] == 1
  }

  /** Whether every row rows..height-1 is readable and every set pixel of
      it falls inside the framebuffer. */
  predicate SpriteFits(mem: Mem, i: U16, vx: Byte, vy: Byte, height: nat, rows: nat) {
    forall q :: rows <= q < height ==> RowReadable(mem, i, q) && RowFits(mem[RowAddr(i, q)], RowBase(vx, vy, q))
  }

  /** Every set pixel of a row starting at `base` is inside the framebuffer. */
  predicate RowFits(pixel: Byte, base: int) {
    forall k :: 0 <= k < 8 && SpriteBit(pixel, k) ==> base + k < GFX_SIZE
  }

  /** Row q's cells in the column-wise form are its cells in the p-wise form. */
  lemma RowHitIsSpriteHit(mem: Mem, i: U16, vx: Byte, vy: Byte, height: nat, q: nat, p: int)
    requires q < height && RowReadable(mem, i, q)
    ensures RowHit(RowBase(vx, vy, q), mem[RowAddr(i, q)], 0, p) <==>
      SpriteHit(mem, i, vx, vy, height, q, p) && (p - vx) / WIDTH - vy == q
  {
    var k := p - RowBase(vx, vy, q);
    if 0 <= k < 8 {
      assert p - vx == (vy + q) * WIDTH + k;
      assert (p - vx) / WIDTH == vy + q && (p - vx) % WIDTH == k;
    }
    if (p - vx) / WIDTH - vy == q && 0 <= (p - vx) % WIDTH < 8 {
      assert p - vx == ((p - vx) / WIDTH) * WIDTH + (p - vx) % WIDTH;
      assert k == (p - vx) % WIDTH;
    }
  }

  /** The outer loop of DXYN over the rows rows..height-1. */
  function DrawRows(gfx: Gfx, vf: Byte, mem: Mem, i: U16, vx: Byte, vy: Byte, height: nat, rows: nat): (r: Result<(Gfx, Byte)>)
    requires rows <= height
    ensures r.Ok? <==> SpriteFits(mem, i, vx, vy, height, rows)
    ensures r.Ok? ==> forall p :: 0 <= p < GFX_SIZE ==>
      r.value.0[p] == if SpriteHit(mem, i, vx, vy, height, rows, p) then Xor8(gfx[p], 1) else gfx[p]
    ensures r.Ok? ==> r.value.1 == if SpriteCollides(gfx, mem, i, vx, vy, height, rows) then 1 else vf
    decreases height - rows
  {
    if rows == height then Ok((gfx, vf))
    else
      var addr := RowAddr(i, rows);
      if addr >= MEMORY_SIZE then Fatal(IndexOutOfRange(addr))
      else
        var base := RowBase(vx, vy, rows);
        SpriteFitsSplit(mem, i, vx, vy, height, rows);
        SpriteHitSplit(mem, i, vx, vy, height, rows);
        var row := DrawColumns(gfx, vf, base, mem[addr], 0);
        if row.Fatal? then row
        else
          var (gfx1, vf1) := row.value;
          CollidesSplit(gfx, gfx1, mem, i, vx, vy, height, rows);
          DrawRows(gfx1, vf1, mem, i, vx, vy, height, rows + 1)
  }

  lemma SpriteFitsSplit(mem: Mem, i: U16, vx: Byte, vy: Byte, height: nat, rows: nat)
    requires rows < height
    ensures SpriteFits(mem, i, vx, vy, height, rows) <==>
      RowReadable(mem, i, rows) && RowFits(mem[RowAddr(i, rows)], RowBase(vx, vy, rows)) && SpriteFits(mem, i, vx, vy, height, rows + 1)
  {
  }

  /** The cells of rows rows.. are those of row `rows` plus, disjointly,
      those of the rows after it. */
  lemma SpriteHitSplit(mem: Mem, i: U16, vx: Byte, vy: Byte, height: nat, rows: nat)
    requires rows < height && RowReadable(mem, i, rows)
    ensures forall p :: SpriteHit(mem, i, vx, vy, height, rows, p) <==>
      RowHit(RowBase(vx, vy, rows), mem[RowAddr(i, rows)], 0, p) || SpriteHit(mem, i, vx, vy, height, rows + 1, p)
    ensures forall p :: SpriteHit(mem, i, vx, vy, height, rows + 1, p) ==> !RowHit(RowBase(vx, vy, rows), mem[RowAddr(i, rows)], 0, p)
  {
    forall p
      ensures SpriteHit(mem, i, vx, vy, height, rows, p) <==>
        RowHit(RowBase(vx, vy, rows), mem[RowAddr(i, rows)], 0, p) || SpriteHit(mem, i, vx, vy, height, rows + 1, p)
      ensures SpriteHit(mem, i, vx, vy, height, rows + 1, p) ==> !RowHit(RowBase(vx, vy, rows), mem[RowAddr(i, rows)], 0, p)
    {
      RowHitIsSpriteHit(mem, i, vx, vy, height, rows, p);
    }
  }

  /** A collision in rows rows.. is one in row `rows` against the old
      framebuffer or one in the later rows against the framebuffer after
      row `rows`, which agrees with the old one on their cells. */
  lemma CollidesSplit(gfx: Gfx, gfx1: Gfx, mem: Mem, i: U16, vx: Byte, vy: Byte, height: nat, rows: nat)
    requires rows < height && RowReadable(mem, i, rows)
    requires forall p :: 0 <= p < GFX_SIZE ==>
      gfx1[p] == if RowHit(RowBase(vx, vy, rows), mem[RowAddr(i, rows)], 0, p) then Xor8(gfx[p], 1) else gfx[p]
    ensures SpriteCollides(gfx, mem, i, vx, vy, height, rows) <==>
      RowCollides(gfx, RowBase(vx, vy, rows), mem[RowAddr(i, rows)], 0) || SpriteCollides(gfx1, mem, i, vx, vy, height, rows + 1)
  {
    var base, pixel := RowBase(vx, vy, rows), mem[RowAddr(i, rows)];
    SpriteHitSplit(mem, i, vx, vy, height, rows);
    if SpriteCollides(gfx, mem, i, vx, vy, height, rows) && !RowCollides(gfx, base, pixel, 0) {
      var p :| 0 <= p < GFX_SIZE && SpriteHit(mem, i, vx, vy, height, rows, p) && gfx[p] == 1;
      assert SpriteHit(mem, i, vx, vy, height, rows + 1, p);
      assert gfx1[p] == 1;
    }
    if RowCollides(gfx, base, pixel, 0) {
      var p :| 0 <= p < GFX_SIZE && RowHit(base, pixel, 0, p) && gfx[p] == 1;
      assert SpriteHit(mem, i, vx, vy, height, rows, p);
    }
    if SpriteCollides(gfx1, mem, i, vx, vy, height, rows + 1) {
      var p :| 0 <= p < GFX_SIZE && SpriteHit(mem, i, vx, vy, height, rows + 1, p) && gfx1[p] == 1;
      assert gfx[p] == 1;
    }
  }

  /** DXYN: VF := 0, draw `N` rows from I at (Vx, Vy) with no wrapping,
      raise the draw flag. */
  function Draw(c: Chip8, op: U16): (r: Result<Chip8>)
    ensures r.Ok? <==> SpriteFits(c.memory, c.i, c.v[X(op)], c.v[Y(op)], N(op), 0)
    ensures r.Ok? ==> forall p :: 0 <= p < GFX_SIZE ==>
      r.value.gfx[p] == if SpriteHit(c.memory, c.i, c.v[X(op)], c.v[Y(op)], N(op), 0, p) then Xor8(c.gfx[p], 1) else c.gfx[p]
    ensures r.Ok? ==> r.value.v[FLAG] == if SpriteCollides(c.gfx, c.memory, c.i, c.v[X(op)], c.v[Y(op)], N(op), 0) then 1 else 0
    ensures r.Ok? ==> r.value == c.(gfx := r.value.gfx, v := c.v[FLAG := r.value.v[FLAG]], drawFlag := true, pc := Adv(c.pc))
  {
    var vx, vy := c.v[X(op)], c.v[Y(op)];
    var (gfx, vf) :- DrawRows(c.gfx, 0, c.memory, c.i, vx, vy, N(op), 0);
    Ok(c.(gfx := gfx, v := c.v[FLAG := vf], drawFlag := true, pc := Adv(c.pc)))
  }

  // ---------------------------------------------------------------------
  // 0xE and 0xF groups

  /** EXA1 tests key X itself; EX9E tests key Vx and panics for Vx >= 16. */
  function Keys(c: Chip8, op: U16): (r: Result<Chip8>)
    ensures NN(op) == 0xA1 ==> r == Ok(SkipIf(c, c.key[X(op)] == 0))
    ensures NN(op) == 0x9E ==> (r.Ok? <==> c.v[X(op)] < KEYS)
    ensures NN(op) == 0x9E && r.Ok? ==> r.value == SkipIf(c, c.key[c.v[X(op)]] == 1)
    ensures NN(op) != 0xA1 && NN(op) != 0x9E ==> r == Unknown(op)
  {
    if NN(op) == 0xA1 then Ok(SkipIf(c, c.key[X(op)] == 0))
    else if NN(op) == 0x9E then
      var k := c.v[X(op)];
      if k >= KEYS then Fatal(IndexOutOfRange(k)) else Ok(SkipIf(c, c.key[k] == 1))
    else Unknown(op)
  }

  /** The scan of FX0A over keys from..15: each pressed key overwrites the
      candidate, so the last pressed key wins. */
  function ScanKeys(key: Regs, from: nat, found: Option<Byte>): (r: Option<Byte>)
    requires from <= KEYS
    ensures r.Some? <==> found.Some? || exists k :: from <= k < KEYS && key[k] != 0
    ensures r.Some? && (exists k :: from <= k < KEYS && key[k] != 0) ==>
      from <= r.value < KEYS && key[r.value] != 0 && forall k :: r.value < k < KEYS ==> key[k] == 0
    ensures (forall k :: from <= k < KEYS ==> key[k] == 0) ==> r == found
    decreases KEYS - from
  {
    if from == KEYS then found
    else ScanKeys(key, from + 1, if key[from] != 0 then Some(from) else found)
  }

  /** FX0A: with no key pressed pc stays (the instruction repeats);
      otherwise Vx := the highest pressed key and pc advances. */
  function WaitKey(c: Chip8, x: Reg): (r: Chip8)
    ensures (forall k :: 0 <= k < KEYS ==> c.key[k] == 0) ==> r == c
    ensures (exists k :: 0 <= k < KEYS && c.key[k] != 0) ==>
      && r == c.(v := r.v, pc := Adv(c.pc))
      && r.v[x] < KEYS && c.key[r.v[x]] != 0 && (forall k :: r.v[x] < k < KEYS ==> c.key[k] == 0)
      && forall j :: 0 <= j < REGISTERS && j != x ==> r.v[j] == c.v[j]
  {
    match ScanKeys(c.key, 0, None)
    case None => c
    case Some(k) => SetV(c, x, k).(pc := Adv(c.pc))
  }

  /** The BCD digits of a byte: hundreds, tens, ones. */
  function Bcd(v: Byte): (d: seq<Byte>)
    ensures |d| == 3 && d[0] < 10 && d[1] < 10 && d[2] < 10
    ensures d[0] as int * 100 + d[1] as int * 10 + d[2] == v
  {
    [(v / 100) % 10, (v / 10) % 10, v % 10]
  }

  /** Sixteen consecutive uint16 sums are distinct, wrap-around or not. */
  lemma RowAddrsDistinct(i: U16, from: nat, n: nat)
    requires n <= 16
    ensures forall k :: from < k < n ==> RowAddr(i, k) != RowAddr(i, from)
  {
  }

  /** Bytes written one after another at `I + k` for k in from..|vals|-1
      (uint16 sums, so an index past memory panics). */
  function StoreBytes(mem: Mem, i: U16, vals: seq<Byte>, from: nat): (r: Result<Mem>)
    requires from <= |vals| <= 16
    ensures r.Ok? <==> forall k :: from <= k < |vals| ==> RowAddr(i, k) < MEMORY_SIZE
    ensures r.Ok? ==> forall k :: from <= k < |vals| ==> r.value[RowAddr(i, k)] == vals[k]
    ensures r.Ok? ==> forall a :: 0 <= a < MEMORY_SIZE && !(exists k :: from <= k < |vals| && a == RowAddr(i, k)) ==> r.value[a] == mem[a]
    decreases |vals| - from
  {
    if from == |vals| then Ok(mem)
    else
      var a := RowAddr(i, from);
      if a >= MEMORY_SIZE then Fatal(IndexOutOfRange(a))
      else
        var r := StoreBytes(mem[a := vals[from]], i, vals, from + 1);
        RowAddrsDistinct(i, from, |vals|);
        r
  }

  /** The bytes at `I + k` for k in from..n-1, read one after another. */
  function LoadBytes(mem: Mem, i: U16, n: nat, from: nat): (r: Result<seq<Byte>>)
    requires from <= n
    ensures r.Ok? <==> forall k :: from <= k < n ==> RowAddr(i, k) < MEMORY_SIZE
    ensures r.Ok? ==> |r.value| == n - from && forall k :: from <= k < n ==> r.value[k - from] == mem[RowAddr(i, k)]
    decreases n - from
  {
    if from == n then Ok([])
    else
      var a := RowAddr(i, from);
      if a >= MEMORY_SIZE then Fatal(IndexOutOfRange(a))
      else
        var rest :- LoadBytes(mem, i, n, from + 1);
        Ok([mem[a]] + rest)
  }

  /** The 0xF group, selected by the low byte. */
  function Misc(c: Chip8, op: U16): (r: Result<Chip8>)
    ensures NN(op) !in {0x07, 0x0A, 0x15, 0x18, 0x1E, 0x33, 0x55, 0x65} ==> r == Unknown(op)
    ensures r.Ok? && NN(op) != 0x0A ==> r.value.pc == Adv(c.pc)
    ensures r.Ok? ==> r.value.stack == c.stack && r.value.sp == c.sp && r.value.gfx == c.gfx
    ensures r.Ok? ==> r.value.delayTimer == if NN(op) == 0x15 then c.v[X(op)] else c.delayTimer
    ensures r.Ok? ==> r.value.soundTimer == if NN(op) == 0x18 then c.v[X(op)] else c.soundTimer
    ensures r.Ok? ==> r.value.i == if NN(op) == 0x1E then (c.i + c.v[X(op)]) % 0x10000 else c.i
    ensures r.Ok? && NN(op) !in {0x33, 0x55} ==> r.value.memory == c.memory
  {
    var x := X(op);
    match NN(op)
    case 0x07 => Ok(SetV(c, x, c.delayTimer).(pc := Adv(c.pc)))
    case 0x0A => Ok(WaitKey(c, x))
    case 0x15 => Ok(c.(delayTimer := c.v[x], pc := Adv(c.pc)))
    case 0x18 => Ok(c.(soundTimer := c.v[x], pc := Adv(c.pc)))
    case 0x1E => Ok(c.(i := (c.i + c.v[x]) % 0x10000, pc := Adv(c.pc)))
    case 0x33 =>
      var mem :- StoreBytes(c.memory, c.i, Bcd(c.v[x]), 0);
      Ok(c.(memory := mem, pc := Adv(c.pc)))
    case 0x55 =>
      var mem :- StoreBytes(c.memory, c.i, c.v[..x + 1], 0);
      Ok(c.(memory := mem, pc := Adv(c.pc)))
    case 0x65 =>
      var vals :- LoadBytes(c.memory, c.i, x + 1, 0);
      Ok(c.(v := vals + c.v[x + 1..], pc := Adv(c.pc)))
    case _ => Unknown(op)
  }

  // ---------------------------------------------------------------------
  // The step

  /** `ExecuteOP` after the fetch: dispatch on the high nibble. */
  function Execute(c: Chip8, op: U16): (r: Result<Chip8>)
    ensures Kind(op) in {0xB, 0xC} ==> r == Unknown(op)
    ensures r.Ok? ==> r.value.stop == c.stop && r.value.playSound == c.playSound && r.value.key == c.key
    ensures r.Ok? && !(Kind(op) == 0xF && NN(op) in {0x15, 0x18}) ==>
      r.value.delayTimer == c.delayTimer && r.value.soundTimer == c.soundTimer
  {
    match Kind(op)
    case 0x0 => System(c, op)
    case 0x2 => Call(c, op)
    case 0x8 => Alu(c, op)
    case 0xD => Draw(c, op)
    case 0xE => Keys(c, op)
    case 0xF => Misc(c, op)
    case 0xB => Unknown(op)
    case 0xC => Unknown(op)
    case _ => Ok(Plain(c, op))
  }

  /** 1NNN, 3XNN..7XNN, 9XY0 and ANNN: jumps, skips, loads and I; only pc,
      the registers and I change. */
  function Plain(c: Chip8, op: U16): (r: Chip8)
    requires Kind(op) in {0x1, 0x3, 0x4, 0x5, 0x6, 0x7, 0x9, 0xA}
    ensures r.(pc := c.pc, v := c.v, i := c.i) == c
  {
    var x, y := X(op), Y(op);
    match Kind(op)
    case 0x1 => c.(pc := NNN(op))
    case 0x3 => SkipIf(c, c.v[x] == NN(op))
    case 0x4 => SkipIf(c, c.v[x] != NN(op))
    case 0x5 => SkipIf(c, c.v[x] == c.v[y])
    case 0x6 => SetV(c, x, NN(op)).(pc := Adv(c.pc))
    case 0x7 => SetV(c, x, (c.v[x] + NN(op)) % 256).(pc := Adv(c.pc))
    case 0x9 => SkipIf(c, c.v[x] != c.v[y])
    case 0xA => c.(i := NNN(op), pc := Adv(c.pc))
  }

  /** `ExecuteOP`: fetch, then execute. */
  function ExecuteOp(c: Chip8): (r: Result<Chip8>)
    ensures c.pc >= MEMORY_SIZE - 1 ==> r.Fatal?
    ensures c.pc < MEMORY_SIZE - 1 ==> r == Execute(c, Fetch(c).value)
  {
    var op :- Fetch(c);
    Execute(c, op)
  }
}

=== FILE: legacy_props.dfy ===
/** Properties of the legacy interpreter in chip8/chip8.go, stated about
    whole instructions (`Execute`) rather than the per-group helpers. */
module LegacyProps {
  import opened Results
  import opened Lib
  import opened Legacy

  /** The condition each skip instruction tests. */
  predicate SkipTaken(c: Chip8, op: U16)
    requires Kind(op) in {0x3, 0x4, 0x5, 0x9}
  {
    match Kind(op)
    case 0x3 => c.v[X(op)] == NN(op)
    case 0x4 => c.v[X(op)] != NN(op)
    case 0x5 => c.v[X(op)] == c.v[Y(op)]
    case 0x9 => c.v[X(op)] != c.v[Y(op)]
  }

  /** 1NNN jumps to NNN and changes nothing else. */
  lemma JumpSetsPc(c: Chip8, op: U16)
    requires Kind(op) == 0x1
    ensures Execute(c, op) == Ok(c.(pc := op % 0x1000))
  {
  }

  /** 3XNN, 4XNN, 5XY0 and 9XY0 advance pc by 4 when their condition holds
      and by 2 otherwise (5XY0/9XY0 ignore the low nibble), changing
      nothing else. */
  lemma SkipsAdvance(c: Chip8, op: U16)
    requires Kind(op) in {0x3, 0x4, 0x5, 0x9}
    ensures Execute(c, op).Ok?
    ensures Execute(c, op).value.pc == (c.pc + if SkipTaken(c, op) then 4 else 2) % 0x10000
    ensures Execute(c, op).value.(pc := c.pc) == c
  {
  }

  /** 2NNN refuses a call when 15 slots are taken; otherwise it records pc
      and jumps. So at most 15 calls can be nested. */
  lemma CallDepth(c: Chip8, op: U16)
    requires Kind(op) == 0x2
    ensures c.sp == 15 ==> Execute(c, op) == Fatal(StackOverflow)
    ensures Execute(c, op).Ok? ==>
      && c.sp < 15 && Execute(c, op).value.sp == c.sp + 1 <= 15
      && Execute(c, op).value.stack[c.sp] == c.pc
      && Execute(c, op).value.pc == op % 0x1000
  {
  }

  /** A call followed by a return (00EE, or any 0x0 opcode with low nibble
      E) resumes right after the call with the stack depth restored. */
  lemma CallThenReturn(c: Chip8, call: U16, ret: U16)
    requires Kind(call) == 0x2 && Kind(ret) == 0x0 && N(ret) == 0xE
    requires c.sp < 15
    ensures Execute(c, call).Ok?
    ensures Execute(Execute(c, call).value, ret).Ok?
    ensures Execute(Execute(c, call).value, ret).value.pc == Adv(c.pc)
    ensures Execute(Execute(c, call).value, ret).value.sp == c.sp
  {
    var c1 := Execute(c, call).value;
    assert c1.sp == c.sp + 1 && c1.stack[c.sp] == c.pc;
  }

  /** A return with an empty stack indexes slot 0xFFFF and panics. */
  lemma ReturnOnEmptyStack(c: Chip8, ret: U16)
    requires Kind(ret) == 0x0 && N(ret) == 0xE && c.sp == 0
    ensures Execute(c, ret) == Fatal(IndexOutOfRange(0xFFFF))
  {
  }

  /** Any 0x0 opcode with low nibble 0 clears the screen, not only 00E0. */
  lemma ClearScreen(c: Chip8, op: U16)
    requires Kind(op) == 0x0 && N(op) == 0x0
    ensures Execute(c, op).Ok?
    ensures forall p :: 0 <= p < GFX_SIZE ==> Execute(c, op).value.gfx[p] == 0
    ensures Execute(c, op).value.pc == Adv(c.pc)
  {
  }

  /** 8XY4 wraps the sum and never touches VF. */
  lemma AddNeverSetsFlag(c: Chip8, op: U16)
    requires Kind(op) == 0x8 && N(op) == 0x4 && X(op) != FLAG
    ensures Execute(c, op).Ok?
    ensures Execute(c, op).value.v[X(op)] == (c.v[X(op)] as int + c.v[Y(op)]) % 256
    ensures Execute(c, op).value.v[FLAG] == c.v[FLAG]
  {
  }

  /** 8XY5 and 8XY7 store the wrapped difference and only ever set VF, on
      a strict greater-than; an equal or smaller minuend keeps the old VF. */
  lemma SubtractFlagSetOnly(c: Chip8, op: U16)
    requires Kind(op) == 0x8 && N(op) in {0x5, 0x7} && X(op) != FLAG
    ensures Execute(c, op).Ok?
    ensures var (a, b) := if N(op) == 0x5 then (c.v[X(op)], c.v[Y(op)]) else (c.v[Y(op)], c.v[X(op)]);
      && Execute(c, op).value.v[X(op)] == (a as int - b) % 256
      && Execute(c, op).value.v[FLAG] == if a > b then 1 else c.v[FLAG]
  {
  }

  /** 8XY6 tests the low nibble for 1 instead of bit 0: with Vx = 3 and
      VF = 0 the flag stays 0 although a 1 bit is shifted out. */
  lemma ShiftRightMissesOddValues(c: Chip8, op: U16)
    requires Kind(op) == 0x8 && N(op) == 0x6 && X(op) != FLAG
    requires c.v[X(op)] == 3 && c.v[FLAG] == 0
    ensures Execute(c, op).Ok?
    ensures Execute(c, op).value.v[X(op)] == 1 && Execute(c, op).value.v[FLAG] == 0
  {
  }

  /** 8XYE tests the high nibble for 1 instead of bit 7: with Vx = 0x80 and
      VF = 0 the flag stays 0 although a 1 bit is shifted out. */
  lemma ShiftLeftMissesHighBit(c: Chip8, op: U16)
    requires Kind(op) == 0x8 && N(op) == 0xE && X(op) != FLAG
    requires c.v[X(op)] == 0x80 && c.v[FLAG] == 0
    ensures Execute(c, op).Ok?
    ensures Execute(c, op).value.v[X(op)] == 0 && Execute(c, op).value.v[FLAG] == 0
  {
  }

  /** Framebuffer cells that are all 0 or 1. */
  predicate BinaryCells(g: Gfx) {
    forall p :: 0 <= p < GFX_SIZE ==> g[p] < 2
  }

  /** Drawing keeps every cell 0 or 1 (toggling with XOR 1). */
  lemma DrawKeepsCellsBinary(c: Chip8, op: U16)
    requires Kind(op) == 0xD && BinaryCells(c.gfx)
    ensures Execute(c, op).Ok? ==> BinaryCells(Execute(c, op).value.gfx)
  {
    if Execute(c, op).Ok? {
      forall p | 0 <= p < GFX_SIZE
        ensures Execute(c, op).value.gfx[p] < 2
      {
        Xor8OnBits(c.gfx[p], 1);
      }
    }
  }

  /** With the coordinates not in VF, drawing the same sprite twice gives
      back the framebuffer, and the second draw reports a collision exactly
      when the sprite has any cell at all that the first draw lit. */
  lemma DrawTwiceRestores(c: Chip8, op: U16)
    requires Kind(op) == 0xD && X(op) != FLAG && Y(op) != FLAG && BinaryCells(c.gfx)
    ensures Execute(c, op).Ok? ==>
      var c2 := Execute(Execute(c, op).value, op);
      && c2.Ok?
      && c2.value.gfx == c.gfx
      && (c2.value.v[FLAG] == 1 <==>
            exists p :: 0 <= p < GFX_SIZE && SpriteHit(c.memory, c.i, c.v[X(op)], c.v[Y(op)], N(op), 0, p) && c.gfx[p] == 0)
  {
    if Execute(c, op).Ok? {
      var c1 := Execute(c, op).value;
      var vx, vy := c.v[X(op)], c.v[Y(op)];
      assert c1.v[X(op)] == vx && c1.v[Y(op)] == vy && c1.memory == c.memory && c1.i == c.i;
      var c2 := Execute(c1, op).value;
      forall p | 0 <= p < GFX_SIZE
        ensures c2.gfx[p] == c.gfx[p]
        ensures SpriteHit(c.memory, c.i, vx, vy, N(op), 0, p) ==> (c1.gfx[p] == 1 <==> c.gfx[p] == 0)
      {
        Xor8Involution(c.gfx[p], 1);
        Xor8OnBits(c.gfx[p], 1);
      }
      assert c2.gfx == c.gfx;
      if c2.v[FLAG] == 1 {
        var p :| 0 <= p < GFX_SIZE && SpriteHit(c.memory, c.i, vx, vy, N(op), 0, p) && c1.gfx[p] == 1;
        assert c.gfx[p] == 0;
      }
      if exists p :: 0 <= p < GFX_SIZE && SpriteHit(c.memory, c.i, vx, vy, N(op), 0, p) && c.gfx[p] == 0 {
        var p :| 0 <= p < GFX_SIZE && SpriteHit(c.memory, c.i, vx, vy, N(op), 0, p) && c.gfx[p] == 0;
        assert c1.gfx[p] == 1;
      }
    }
  }

  /** The sprite row 0xC0 has exactly its two leftmost pixels set. */
  lemma TwoLeftPixels()
    ensures forall k :: SpriteBit(0xC0, k) <==> k == 0 || k == 1
  {
    assert Bit(0xC0, 7) == 1 && Bit(0xC0, 6) == 1 && Bit(0xC0, 5) == 0 && Bit(0xC0, 4) == 0;
    assert Bit(0xC0, 3) == 0 && Bit(0xC0, 2) == 0 && Bit(0xC0, 1) == 0 && Bit(0xC0, 0) == 0;
  }

  /** Drawing does not wrap at the right edge: a one-row sprite 0xC0 at
      x = 63 toggles cell 63 of its row and, for its second pixel, column 0
      of the next row, while column 0 of its own row stays as it was. */
  lemma DrawSpillsIntoNextRow(c: Chip8, op: U16)
    requires Kind(op) == 0xD && N(op) == 1
    requires c.v[X(op)] == 63 && c.v[Y(op)] < 31
    requires c.i < MEMORY_SIZE && c.memory[c.i] == 0xC0
    ensures Execute(c, op).Ok?
    ensures var vy := c.v[Y(op)]; var g := Execute(c, op).value.gfx;
      && g[(vy + 1) * WIDTH] == Xor8(c.gfx[(vy + 1) * WIDTH], 1)
      && g[vy * WIDTH + 63] == Xor8(c.gfx[vy * WIDTH + 63], 1)
      && g[vy * WIDTH] == c.gfx[vy * WIDTH]
  {
    ExecuteDraws(c, op);
    DrawSpill(c, op, c.v[Y(op)]);
  }

  /** DrawSpillsIntoNextRow for the draw step itself. */
  lemma DrawSpill(c: Chip8, op: U16, vy: Byte)
    requires N(op) == 1 && c.v[X(op)] == 63 && c.v[Y(op)] == vy && vy < 31
    requires c.i < MEMORY_SIZE && c.memory[c.i] == 0xC0
    ensures Draw(c, op).Ok?
    ensures var g := Draw(c, op).value.gfx;
      && g[(vy + 1) * WIDTH] == Xor8(c.gfx[(vy + 1) * WIDTH], 1)
      && g[vy * WIDTH + 63] == Xor8(c.gfx[vy * WIDTH + 63], 1)
      && g[vy * WIDTH] == c.gfx[vy * WIDTH]
  {
    SpillCells(c.memory, c.i, vy);
    var g := Draw(c, op).value.gfx;
    var a, b, z := (vy + 1) * WIDTH, vy * WIDTH + 63, vy * WIDTH;
    assert g[a] == Xor8(c.gfx[a], 1) by {
      assert SpriteHit(c.memory, c.i, 63, vy, N(op), 0, a);
    }
    assert g[b] == Xor8(c.gfx[b], 1) by {
      assert SpriteHit(c.memory, c.i, 63, vy, N(op), 0, b);
    }
    assert g[z] == c.gfx[z] by {
      assert !SpriteHit(c.memory, c.i, 63, vy, N(op), 0, z);
    }
  }

  /** The 0xD group is Draw. */
  lemma ExecuteDraws(c: Chip8, op: U16)
    requires Kind(op) == 0xD
    ensures Execute(c, op) == Draw(c, op)
  {
  }

  /** The cells a one-row sprite 0xC0 at x = 63 reaches. */
  lemma SpillCells(mem: Mem, i: U16, vy: Byte)
    requires vy < 31 && i < MEMORY_SIZE && mem[i] == 0xC0
    ensures SpriteFits(mem, i, 63, vy, 1, 0)
    ensures SpriteHit(mem, i, 63, vy, 1, 0, (vy + 1) * WIDTH)
    ensures SpriteHit(mem, i, 63, vy, 1, 0, vy * WIDTH + 63)
    ensures !SpriteHit(mem, i, 63, vy, 1, 0, vy * WIDTH)
  {
    TwoLeftPixels();
    assert RowAddr(i, 0) == i;
    assert RowFits(0xC0, RowBase(63, vy, 0));
    assert ((vy + 1) * WIDTH - 63) / WIDTH == vy && ((vy + 1) * WIDTH - 63) % WIDTH == 1;
    assert (vy * WIDTH + 63 - 63) / WIDTH == vy && (vy * WIDTH + 63 - 63) % WIDTH == 0;
    assert (vy * WIDTH - 63) / WIDTH == vy - 1;
  }

  /** Drawing does not wrap at the bottom edge: a lit pixel in a row below
      the framebuffer makes DXYN fatal. */
  lemma DrawOffBottomIsFatal(c: Chip8, op: U16, q: nat, k: nat)
    requires Kind(op) == 0xD && q < N(op) && RowReadable(c.memory, c.i, q)
    requires SpriteBit(c.memory[RowAddr(c.i, q)], k)
    requires c.v[Y(op)] + q >= HEIGHT
    ensures Execute(c, op).Fatal?
  {
    assert RowBase(c.v[X(op)], c.v[Y(op)], q) + k >= GFX_SIZE;
  }

  /** EXA1 skips when key X (the register number, not its value) is up. */
  lemma SkipIfKeyUpReadsKeyX(c: Chip8, op: U16)
    requires Kind(op) == 0xE && NN(op) == 0xA1
    ensures Execute(c, op).Ok?
    ensures Execute(c, op).value.pc == (c.pc + if c.key[X(op)] == 0 then 4 else 2) % 0x10000
  {
  }

  /** EX9E panics when Vx is not a key number. */
  lemma SkipIfKeyDownChecksRange(c: Chip8, op: U16)
    requires Kind(op) == 0xE && NN(op) == 0x9E
    ensures Execute(c, op).Ok? <==> c.v[X(op)] < KEYS
    ensures Execute(c, op).Ok? ==> Execute(c, op).value.pc == (c.pc + if c.key[c.v[X(op)]] == 1 then 4 else 2) % 0x10000
  {
  }

  /** FX0A: with no key down the same instruction runs again; otherwise Vx
      takes the highest-numbered key that is down and pc moves on. */
  lemma WaitKeyLastPressedWins(c: Chip8, op: U16)
    requires Kind(op) == 0xF && NN(op) == 0x0A
    ensures Execute(c, op).Ok?
    ensures (forall k :: 0 <= k < KEYS ==> c.key[k] == 0) ==> Execute(c, op).value == c
    ensures (exists k :: 0 <= k < KEYS && c.key[k] != 0) ==>
      && Execute(c, op).value.pc == Adv(c.pc)
      && var key := Execute(c, op).value.v[X(op)];
         key < KEYS && c.key[key] != 0 && forall k :: key < k < KEYS ==> c.key[k] == 0
  {
  }

  /** FX33 writes the three decimal digits of Vx to I, I+1, I+2. */
  lemma BcdWritesDigits(c: Chip8, op: U16)
    requires Kind(op) == 0xF && NN(op) == 0x33 && c.i + 2 < MEMORY_SIZE
    ensures Execute(c, op).Ok?
    ensures var m := Execute(c, op).value.memory;
      m[c.i] as int * 100 + m[c.i + 1] as int * 10 + m[c.i + 2] == c.v[X(op)]
      && m[c.i] < 10 && m[c.i + 1] < 10 && m[c.i + 2] < 10
    ensures Execute(c, op).value.i == c.i
  {
    assert RowAddr(c.i, 0) == c.i && RowAddr(c.i, 1) == c.i + 1 && RowAddr(c.i, 2) == c.i + 2;
  }

  /** FX55 stores V0..Vx at I.. and leaves I where it was. */
  lemma StoreRegisters(c: Chip8, op: U16)
    requires Kind(op) == 0xF && NN(op) == 0x55 && c.i + X(op) < MEMORY_SIZE
    ensures Execute(c, op).Ok?
    ensures forall k :: 0 <= k <= X(op) ==> Execute(c, op).value.memory[c.i + k] == c.v[k]
    ensures Execute(c, op).value.i == c.i && Execute(c, op).value.v == c.v
  {
    assert forall k :: 0 <= k <= X(op) ==> RowAddr(c.i, k) == c.i + k;
  }

  /** FX65 as one state update: the loaded bytes replace V0..Vx. */
  lemma LoadStep(c: Chip8, op: U16)
    requires Kind(op) == 0xF && NN(op) == 0x65 && c.i + X(op) < MEMORY_SIZE
    ensures LoadBytes(c.memory, c.i, X(op) + 1, 0).Ok?
    ensures Execute(c, op) == Ok(c.(v := LoadBytes(c.memory, c.i, X(op) + 1, 0).value + c.v[X(op) + 1..], pc := Adv(c.pc)))
  {
    assert Execute(c, op) == Misc(c, op);
  }

  /** FX65 loads V0..Vx from I.. and leaves I and the other registers alone. */
  lemma LoadRegisters(c: Chip8, op: U16)
    requires Kind(op) == 0xF && NN(op) == 0x65 && c.i + X(op) < MEMORY_SIZE
    ensures Execute(c, op).Ok?
    ensures forall k :: 0 <= k <= X(op) ==> Execute(c, op).value.v[k] == c.memory[c.i + k]
    ensures forall k :: X(op) < k < REGISTERS ==> Execute(c, op).value.v[k] == c.v[k]
    ensures Execute(c, op).value.i == c.i
  {
    LoadStep(c, op);
    var x: nat := X(op);
    var vals := LoadBytes(c.memory, c.i, x + 1, 0).value;
    LoadedPrefix(c, x, vals, vals + c.v[x + 1..]);
  }

  /** The register file FX65 builds: the loaded bytes, then the old Vx+1... */
  lemma LoadedPrefix(c: Chip8, x: nat, vals: seq<Byte>, v: seq<Byte>)
    requires x < REGISTERS && c.i + x < MEMORY_SIZE && |vals| == x + 1
    requires forall k :: 0 <= k < x + 1 ==> vals[k] == c.memory[RowAddr(c.i, k)]
    requires v == vals + c.v[x + 1..]
    ensures forall k :: 0 <= k <= x ==> v[k] == c.memory[c.i + k]
    ensures forall k :: x < k < REGISTERS ==> v[k] == c.v[k]
  {
    forall k | 0 <= k <= x ensures v[k] == c.memory[c.i + k] {
      assert RowAddr(c.i, k) == c.i + k;
    }
  }

  /** FX55 followed by FX65 with the same X gives back V0..Vx, since I
      does not move in between. */
  lemma StoreThenLoad(c: Chip8, save: U16, load: U16)
    requires Kind(save) == 0xF && NN(save) == 0x55 && Kind(load) == 0xF && NN(load) == 0x65
    requires X(save) == X(load) && c.i + X(save) < MEMORY_SIZE
    ensures Execute(c, save).Ok? && Execute(Execute(c, save).value, load).Ok?
    ensures Execute(Execute(c, save).value, load).value.v == c.v
  {
    StoreRegisters(c, save);
    var c1 := Execute(c, save).value;
    LoadRegisters(c1, load);
    var c2 := Execute(c1, load).value;
    assert forall k :: 0 <= k < REGISTERS ==> c2.v[k] == c.v[k];
  }

  /** No instruction counts the timers down: only FX15 and FX18 change
      them, by assignment. */
  lemma TimersOnlyAssigned(c: Chip8)
    requires ExecuteOp(c).Ok?
    ensures ExecuteOp(c).value.delayTimer == c.delayTimer || ExecuteOp(c).value.delayTimer == c.v[X(Fetch(c).value)]
    ensures ExecuteOp(c).value.soundTimer == c.soundTimer || ExecuteOp(c).value.soundTimer == c.v[X(Fetch(c).value)]
  {
  }

  /** BNNN and CXNN are not implemented. */
  lemma UnimplementedKinds(c: Chip8, op: U16)
    requires Kind(op) in {0xB, 0xC}
    ensures Execute(c, op) == Fatal(UnimplementedInstruction(op))
  {
  }
}

=== FILE: lib.dfy ===
/** Byte-level helpers of internal/lib: the compatibility-mode enum, the bit
    accessors `Bit`, `SetBit`, `ResetBit`, and the hexadecimal formatter.
    Bytes are integers in [0, 256); bitwise operators are defined bit by bit
    so that every fact about them is proved by induction over the bits. */
module Lib {
  import opened Results

  /** Go's `byte` / `uint8`. */
  type Byte = x: int | 0 <= x < 256

  /** Go's `uint16`. */
  type U16 = x: int | 0 <= x < 0x10000

  /** Number of bits in a byte. */
  const BYTE_SIZE: nat := 8

  /** The emulated hardware generation; declared in this order with `iota`. */
  datatype CompatibilityMode = CmNone | CmChip8 | CmSuperChip | CmXoChip

  /** The numeric value `iota` gives each mode. */
  function ModeValue(m: CompatibilityMode): nat {
    match m
    case CmNone => 0
    case CmChip8 => 1
    case CmSuperChip => 2
    case CmXoChip => 3
  }

  /** The modes are numbered 0 to 3 in capability order, so the numbering
      tells the modes apart. */
  lemma ModeValueOrdered()
    ensures ModeValue(CmNone) == 0
    ensures ModeValue(CmNone) < ModeValue(CmChip8) < ModeValue(CmSuperChip) < ModeValue(CmXoChip) == 3
    ensures forall m, m' :: ModeValue(m) == ModeValue(m') ==> m == m'
  {
  }

  // ---------------------------------------------------------------------
  // Shifts and single bits

  function Pow2(n: nat): (r: nat)
    ensures r >= 1
  {
    if n == 0 then 1 else 2 * Pow2(n - 1)
  }

  /** `v >> n` on an unsigned value: n halvings. A shift by at least the
      width of the value gives 0, as Go defines it. */
  function Shr(v: nat, n: nat): (r: nat)
    ensures r <= v
    ensures v < Pow2(n) ==> r == 0
  {
    if n == 0 then v else Shr(v / 2, n - 1)
  }

  /** `byte((b >> pos) & 1)`: bit `pos` of `b`, counting from the least
      significant bit. There is no bounds check on `pos`. */
  function Bit(b: nat, pos: nat): (r: nat)
    ensures r < 2
    ensures b < Pow2(pos) ==> r == 0
  {
    Shr(b, pos) % 2
  }

  lemma BitZero(b: nat)
    ensures Bit(b, 0) == b % 2
  {
  }

  lemma BitSucc(b: nat, p: nat)
    ensures Bit(b, p + 1) == Bit(b / 2, p)
  {
  }

  /** One more shift halves the result. */
  lemma {:induction false} ShrLast(v: nat, n: nat)
    ensures Shr(v, n + 1) == Shr(v, n) / 2
  {
    if n > 0 {
      ShrLast(v / 2, n - 1);
    }
  }

  lemma Pow2Monotone(m: nat, n: nat)
    requires m <= n
    ensures Pow2(m) <= Pow2(n)
  {
    if m < n {
      Pow2Monotone(m, n - 1);
    }
  }

  lemma Pow2Eight()
    ensures Pow2(8) == 256
  {
  }

  /** For a byte, every position from 8 upwards reads as 0: `Bit` never
      panics, whatever the test suite expects for position 8. */
  lemma {:induction false} BitOfByteBeyondWidth(b: Byte, pos: nat)
    requires pos >= BYTE_SIZE
    ensures Bit(b, pos) == 0
  {
    Pow2Monotone(8, pos);
    Pow2Eight();
  }

  /** Two values below 2^w with the same w low bits are equal. */
  lemma {:induction false} BitsDetermine(a: nat, b: nat, w: nat)
    requires a < Pow2(w) && b < Pow2(w)
    requires forall p: nat :: p < w ==> Bit(a, p) == Bit(b, p)
    ensures a == b
  {
    if w == 0 {
    } else {
      assert Bit(a, 0) == Bit(b, 0);
      forall p: nat | p < w - 1
        ensures Bit(a / 2, p) == Bit(b / 2, p)
      {
        BitSucc(a, p);
        BitSucc(b, p);
        assert Bit(a, p + 1) == Bit(b, p + 1);
      }
      BitsDetermine(a / 2, b / 2, w - 1);
    }
  }

  /** Bits of 2^n: only bit n is set. */
  lemma {:induction false} BitOfPow2(n: nat, q: nat)
    ensures Bit(Pow2(n), q) == if q == n then 1 else 0
  {
    if n == 0 {
      if q > 0 {
        BitSucc(1, q - 1);
        assert Bit(0, q - 1) == 0;
      }
    } else if q == 0 {
    } else {
      BitSucc(Pow2(n), q - 1);
      assert Pow2(n) / 2 == Pow2(n - 1);
      BitOfPow2(n - 1, q - 1);
    }
  }

  // ---------------------------------------------------------------------
  // Bitwise operators

  datatype BitOp = OrOp | AndOp | XorOp

  /** The operator on one pair of bits. */
  function Combine(op: BitOp, x: nat, y: nat): (r: nat)
    requires x < 2 && y < 2
    ensures r < 2
  {
    match op
    case OrOp => if x == 1 || y == 1 then 1 else 0
    case AndOp => if x == 1 && y == 1 then 1 else 0
    case XorOp => if x != y then 1 else 0
  }

  /** `a op b` on the low `width` bits, built from the least significant bit up. */
  function Bitwise(op: BitOp, a: nat, b: nat, width: nat): (r: nat)
    ensures r < Pow2(width)
  {
    if width == 0 then 0
    else Combine(op, a % 2, b % 2) + 2 * Bitwise(op, a / 2, b / 2, width - 1)
  }

  /** Bit p of `a op b` is the operator applied to bit p of each operand. */
  lemma {:induction false} BitOfBitwise(op: BitOp, a: nat, b: nat, width: nat, p: nat)
    ensures Bit(Bitwise(op, a, b, width), p) == if p < width then Combine(op, Bit(a, p), Bit(b, p)) else 0
  {
    var r := Bitwise(op, a, b, width);
    if width == 0 {
    } else if p == 0 {
      BitZero(r);
      BitZero(a);
      BitZero(b);
    } else {
      BitSucc(r, p - 1);
      BitSucc(a, p - 1);
      BitSucc(b, p - 1);
      var rest := Bitwise(op, a / 2, b / 2, width - 1);
      assert r == Combine(op, a % 2, b % 2) + 2 * rest;
      assert r / 2 == rest;
      BitOfBitwise(op, a / 2, b / 2, width - 1, p - 1);
    }
  }

  function Or8(a: Byte, b: Byte): Byte {
    Pow2Eight();
    Bitwise(OrOp, a, b, 8)
  }

  function And8(a: Byte, b: Byte): Byte {
    Pow2Eight();
    Bitwise(AndOp, a, b, 8)
  }

  function Xor8(a: Byte, b: Byte): Byte {
    Pow2Eight();
    Bitwise(XorOp, a, b, 8)
  }

  /** Go's unary `^` on a byte flips all eight bits. */
  function Not8(a: Byte): Byte {
    Xor8(a, 0xFF)
  }

  /** `v << n` on a byte: bits shifted past bit 7 are lost. */
  function Shl8(v: Byte, n: nat): Byte {
    (v * Pow2(n)) % 256
  }

  /** A byte AND anything has no bit the mask lacks. */
  lemma And8WithinMask(a: Byte, mask: Byte, p: nat)
    requires Bit(mask, p) == 0
    ensures Bit(And8(a, mask), p) == 0
  {
    BitOfBitwise(AndOp, a, mask, 8, p);
  }

  /** XOR with the same byte twice is the identity. */
  lemma Xor8Involution(a: Byte, b: Byte)
    ensures Xor8(Xor8(a, b), b) == a
  {
    var r := Xor8(Xor8(a, b), b);
    Pow2Eight();
    forall p: nat | p < 8
      ensures Bit(r, p) == Bit(a, p)
    {
      BitOfBitwise(XorOp, Xor8(a, b), b, 8, p);
      BitOfBitwise(XorOp, a, b, 8, p);
    }
    BitsDetermine(r, a, 8);
  }

  /** XOR does not depend on the order of its operands. */
  lemma Xor8Commutes(a: Byte, b: Byte)
    ensures Xor8(a, b) == Xor8(b, a)
  {
    Pow2Eight();
    forall p: nat | p < 8
      ensures Bit(Xor8(a, b), p) == Bit(Xor8(b, a), p)
    {
      BitOfBitwise(XorOp, a, b, 8, p);
      BitOfBitwise(XorOp, b, a, 8, p);
    }
    BitsDetermine(Xor8(a, b), Xor8(b, a), 8);
  }

  /** XOR-ing the same byte into two values keeps their difference. */
  lemma Xor8Pair(p: Byte, a: Byte, b: Byte)
    ensures Xor8(Xor8(p, a), Xor8(p, b)) == Xor8(a, b)
  {
    var r := Xor8(Xor8(p, a), Xor8(p, b));
    Pow2Eight();
    forall q: nat | q < 8
      ensures Bit(r, q) == Bit(Xor8(a, b), q)
    {
      BitOfBitwise(XorOp, Xor8(p, a), Xor8(p, b), 8, q);
      BitOfBitwise(XorOp, p, a, 8, q);
      BitOfBitwise(XorOp, p, b, 8, q);
      BitOfBitwise(XorOp, a, b, 8, q);
    }
    BitsDetermine(r, Xor8(a, b), 8);
  }

  /** A byte is fixed by its difference to a known byte. */
  lemma Xor8Cancel(a: Byte, b: Byte, c: Byte)
    requires Xor8(b, c) == Xor8(a, b)
    ensures c == a
  {
    Xor8Commutes(b, c);
    Xor8Involution(c, b);
    Xor8Involution(a, b);
  }

  /** XOR with 0 is the identity. */
  lemma Xor8Zero(a: Byte)
    ensures Xor8(0, a) == a
  {
    Pow2Eight();
    forall p: nat | p < 8
      ensures Bit(Xor8(0, a), p) == Bit(a, p)
    {
      BitOfBitwise(XorOp, 0, a, 8, p);
    }
    BitsDetermine(Xor8(0, a), a, 8);
  }

  /** XOR of two pixels in {0, 1} is their inequality. */
  lemma Xor8OnBits(a: Byte, b: Byte)
    requires a < 2 && b < 2
    ensures Xor8(a, b) == if a != b then 1 else 0
  {
    Pow2Eight();
    forall p: nat | p < 8
      ensures Bit(Xor8(a, b), p) == Bit(if a != b then 1 else 0, p)
    {
      BitOfBitwise(XorOp, a, b, 8, p);
      if p > 0 {
        assert a < Pow2(p) && b < Pow2(p) by { Pow2Monotone(1, p); }
      }
    }
    BitsDetermine(Xor8(a, b), if a != b then 1 else 0, 8);
  }

  // ---------------------------------------------------------------------
  // SetBit / ResetBit

  /** `1<<pos | b`, fatal for a position outside the byte. */
  function SetBit(b: Byte, pos: Byte): (r: Result<Byte>)
    ensures r.Ok? <==> pos < BYTE_SIZE
    ensures r.Ok? ==> Bit(r.value, pos) == 1
    ensures r.Ok? ==> forall q: nat :: q != pos ==> Bit(r.value, q) == Bit(b, q)
  {
    if pos >= BYTE_SIZE then Fatal(BitPositionOutOfRange(pos))
    else
      var v := Or8(Shl8(1, pos), b);
      forall q: nat ensures Bit(v, q) == (if q == pos then 1 else Bit(b, q)) {
        SetBitAt(b, pos, q);
      }
      Ok(v)
  }

  /** `1 << pos` for a position inside the byte is 2^pos. */
  lemma OneShifted(pos: nat)
    requires pos < 8
    ensures Shl8(1, pos) == Pow2(pos)
  {
    Pow2Monotone(pos, 7);
    Pow2Eight();
  }

  lemma SetBitAt(b: Byte, pos: nat, q: nat)
    requires pos < 8
    ensures Bit(Or8(Shl8(1, pos), b), q) == if q == pos then 1 else Bit(b, q)
  {
    OneShifted(pos);
    BitOfBitwise(OrOp, Pow2(pos), b, 8, q);
    BitOfPow2(pos, q);
    if q >= 8 { BitOfByteBeyondWidth(b, q); }
  }

  /** `^(1<<pos) & b`, fatal for a position outside the byte. */
  function ResetBit(b: Byte, pos: Byte): (r: Result<Byte>)
    ensures r.Ok? <==> pos < BYTE_SIZE
    ensures r.Ok? ==> Bit(r.value, pos) == 0
    ensures r.Ok? ==> forall q: nat :: q != pos ==> Bit(r.value, q) == Bit(b, q)
  {
    if pos >= BYTE_SIZE then Fatal(BitPositionOutOfRange(pos))
    else
      var v := And8(Not8(Shl8(1, pos)), b);
      forall q: nat ensures Bit(v, q) == (if q == pos then 0 else Bit(b, q)) {
        ResetBitAt(b, pos, q);
      }
      Ok(v)
  }

  lemma ResetBitAt(b: Byte, pos: nat, q: nat)
    requires pos < 8
    ensures Bit(And8(Not8(Shl8(1, pos)), b), q) == if q == pos then 0 else Bit(b, q)
  {
    OneShifted(pos);
    BitOfBitwise(AndOp, Not8(Pow2(pos)), b, 8, q);
    BitOfBitwise(XorOp, Pow2(pos), 0xFF, 8, q);
    BitOfPow2(pos, q);
    if q < 8 { BitOfAllOnes(q); }
    else { BitOfByteBeyondWidth(b, q); }
  }

  lemma BitOfAllOnes(q: nat)
    requires q < 8
    ensures Bit(0xFF, q) == 1
  {
    assert Bit(0xFF, 0) == 1 && Bit(0xFF, 1) == 1 && Bit(0xFF, 2) == 1 && Bit(0xFF, 3) == 1;
    assert Bit(0xFF, 4) == 1 && Bit(0xFF, 5) == 1 && Bit(0xFF, 6) == 1 && Bit(0xFF, 7) == 1;
  }

  /** Setting a bit that is already set changes nothing, and reading the bit
      back gives 1. */
  lemma {:induction false} SetBitIdempotent(b: Byte, pos: Byte)
    requires pos < BYTE_SIZE
    ensures SetBit(SetBit(b, pos).value, pos) == SetBit(b, pos)
    ensures Bit(SetBit(b, pos).value, pos) == 1
  {
    var once := SetBit(b, pos).value;
    var twice := SetBit(once, pos).value;
    Pow2Eight();
    forall p: nat | p < 8
      ensures Bit(twice, p) == Bit(once, p)
    {
    }
    BitsDetermine(twice, once, 8);
  }

  /** Clearing a bit that is already clear changes nothing, and reading the
      bit back gives 0. */
  lemma {:induction false} ResetBitIdempotent(b: Byte, pos: Byte)
    requires pos < BYTE_SIZE
    ensures ResetBit(ResetBit(b, pos).value, pos) == ResetBit(b, pos)
    ensures Bit(ResetBit(b, pos).value, pos) == 0
  {
    var once := ResetBit(b, pos).value;
    var twice := ResetBit(once, pos).value;
    Pow2Eight();
    forall p: nat | p < 8
      ensures Bit(twice, p) == Bit(once, p)
    {
    }
    BitsDetermine(twice, once, 8);
  }

  /** The table the repository's unit test checks for the byte 0b00010010,
      except position 8: the test expects a panic there, but `Bit` has no
      bounds check and returns 0. */
  lemma BitTestTable()
    ensures Bit(0x12, 0) == 0 && Bit(0x12, 1) == 1 && Bit(0x12, 2) == 0 && Bit(0x12, 3) == 0
    ensures Bit(0x12, 4) == 1 && Bit(0x12, 5) == 0 && Bit(0x12, 6) == 0 && Bit(0x12, 7) == 0
    ensures Bit(0x12, 8) == 0
  {
    BitOfByteBeyondWidth(0x12, 8);
  }

  // ---------------------------------------------------------------------
  // Hexadecimal formatting

  function HexChar(d: nat, upper: bool): (c: char)
    requires d < 16
  {
    if d < 10 then ('0' as int + d) as char
    else if upper then ('A' as int + d - 10) as char
    else ('a' as int + d - 10) as char
  }

  /** Value of one hexadecimal digit of either case; 0 for anything else. */
  function DigitValue(c: char): nat {
    if '0' <= c <= '9' then c as int - '0' as int
    else if 'A' <= c <= 'F' then c as int - 'A' as int + 10
    else if 'a' <= c <= 'f' then c as int - 'a' as int + 10
    else 0
  }

  /** The number a string of hexadecimal digits denotes, most significant first. */
  function HexValue(s: string): nat {
    if |s| == 0 then 0 else HexValue(s[..|s| - 1]) * 16 + DigitValue(s[|s| - 1])
  }

  predicate IsUpperHexDigit(c: char) {
    '0' <= c <= '9' || 'A' <= c <= 'F'
  }

  predicate IsLowerHexDigit(c: char) {
    '0' <= c <= '9' || 'a' <= c <= 'f'
  }

  /** The digits of v in base 16 without leading zeros ("0" for zero). */
  function HexDigits(v: nat, upper: bool): (s: string)
    ensures |s| >= 1
    ensures forall i :: 0 <= i < |s| ==> if upper then IsUpperHexDigit(s[i]) else IsLowerHexDigit(s[i])
  {
    if v < 16 then [HexChar(v, upper)]
    else HexDigits(v / 16, upper) + [HexChar(v % 16, upper)]
  }

  function Zeros(n: nat): (s: string)
    ensures |s| == n
  {
    seq(n, _ => '0')
  }

  lemma {:induction false} HexValueOfDigits(v: nat, upper: bool)
    ensures HexValue(HexDigits(v, upper)) == v
  {
    var s := HexDigits(v, upper);
    if v < 16 {
      assert s[..0] == [];
    } else {
      assert s[..|s| - 1] == HexDigits(v / 16, upper);
      HexValueOfDigits(v / 16, upper);
    }
  }

  lemma {:induction false} LeadingDigitNonZero(v: nat, upper: bool)
    ensures v > 0 ==> HexDigits(v, upper)[0] != '0'
  {
    if v >= 16 {
      LeadingDigitNonZero(v / 16, upper);
    }
  }

  /** Leading zeros do not change the value. */
  lemma {:induction false} HexValueOfPadded(n: nat, s: string)
    ensures HexValue(Zeros(n) + s) == HexValue(s)
    decreases n + |s|
  {
    var t := Zeros(n) + s;
    if |s| == 0 {
      assert t == Zeros(n);
      if n > 0 {
        assert t[..|t| - 1] == Zeros(n - 1) + [];
        HexValueOfPadded(n - 1, []);
      }
    } else {
      assert t[..|t| - 1] == Zeros(n) + s[..|s| - 1];
      HexValueOfPadded(n, s[..|s| - 1]);
    }
  }

  /** `FormatHex(v, length)`: `%0<length>X` for lengths 1 to 4, i.e.
      upper-case digits zero-padded to at least `length` characters and
      never truncated; any other length gives lower-case digits without
      padding. Either way the digits denote v. */
  function FormatHex(v: nat, length: int): (r: string)
    ensures HexValue(r) == v
    ensures 1 <= length <= 4 ==>
      && |r| == (if |HexDigits(v, true)| < length then length else |HexDigits(v, true)|)
      && (forall i :: 0 <= i < |r| ==> IsUpperHexDigit(r[i]))
      && (|r| > length ==> r[0] != '0')
    ensures !(1 <= length <= 4) ==>
      && |r| >= 1
      && (forall i :: 0 <= i < |r| ==> IsLowerHexDigit(r[i]))
      && (|r| > 1 ==> r[0] != '0')
  {
    if 1 <= length <= 4 then
      var d := HexDigits(v, true);
      HexValueOfDigits(v, true);
      if |d| < length then
        HexValueOfPadded(length - |d|, d);
        Zeros(length - |d|) + d
      else
        LeadingDigitNonZero(v, true);
        d
    else
      HexValueOfDigits(v, false);
      LeadingDigitNonZero(v, false);
      HexDigits(v, false)
  }
}

=== FILE: memory.dfy ===
/** The memory bus of internal/chip8/components/memory: 4096 bytes of which
    the first 0x200 belong to the interpreter and may not be touched by the
    program. Every access outside 0x200..0xFFF is fatal. */
module Memory {
  import opened Results
  import opened Lib

  const RAM_SIZE: nat := 4096
  const INTERPRETER_RAM_START: nat := 0
  const INTERPRETER_RAM_END: nat := 0x1FF
  const PROGRAM_RAM_START: nat := INTERPRETER_RAM_END + 1
  const PROGRAM_RAM_END: nat := 0xFFF
  /** Note: one less than the number of program addresses. */
  const PROGRAM_RAM_SIZE: nat := PROGRAM_RAM_END - PROGRAM_RAM_START

  type Ram = s: seq<Byte> | |s| == RAM_SIZE witness seq(4096, _ => 0)

  datatype Memory = Memory(ram: Ram)

  /** The addresses `Read` and `Write` accept. */
  predicate Accessible(a: int) {
    INTERPRETER_RAM_END < a < RAM_SIZE
  }

  /** A zeroed memory. */
  function New(): (m: Memory)
    ensures forall a :: 0 <= a < RAM_SIZE ==> m.ram[a] == 0
  {
    Memory(seq(RAM_SIZE, _ => 0))
  }

  /** The byte at `a`; the size check comes before the reserved-region check. */
  function Read(m: Memory, a: U16): (r: Result<Byte>)
    ensures r.Ok? <==> Accessible(a)
    ensures r.Ok? ==> r.value == m.ram[a]
    ensures a >= RAM_SIZE ==> r == Fatal(AddressOutOfRange(a))
    ensures a <= INTERPRETER_RAM_END ==> r == Fatal(ReservedRegion(a))
  {
    if a >= RAM_SIZE then Fatal(AddressOutOfRange(a))
    else if a <= INTERPRETER_RAM_END then Fatal(ReservedRegion(a))
    else Ok(m.ram[a])
  }

  /** Stores `v` at `a`, under the same checks as `Read`. */
  function Write(m: Memory, a: U16, v: Byte): (r: Result<Memory>)
    ensures r.Ok? <==> Accessible(a)
    ensures r.Ok? ==> r.value.ram[a] == v
    ensures r.Ok? ==> forall b :: 0 <= b < RAM_SIZE && b != a ==> r.value.ram[b] == m.ram[b]
    ensures a >= RAM_SIZE ==> r == Fatal(AddressOutOfRange(a))
    ensures a <= INTERPRETER_RAM_END ==> r == Fatal(ReservedRegion(a))
  {
    if a >= RAM_SIZE then Fatal(AddressOutOfRange(a))
    else if a <= INTERPRETER_RAM_END then Fatal(ReservedRegion(a))
    else Ok(Memory(m.ram[a := v]))
  }

  /** A read after a write sees the written byte at that address and the old
      contents everywhere else. */
  lemma ReadAfterWrite(m: Memory, a: U16, v: Byte, b: U16)
    requires Write(m, a, v).Ok?
    ensures Read(Write(m, a, v).value, b) == if b == a then Ok(v) else Read(m, b)
  {
  }

  /** A fresh memory reads 0 at every address the program may use. */
  lemma NewReadsZero(a: U16)
    requires Accessible(a)
    ensures Read(New(), a) == Ok(0)
  {
  }

  /** The program area spans 0xE00 addresses but `PROGRAM_RAM_SIZE` is 0xDFF. */
  lemma ProgramRamSizeIsOneShort()
    ensures PROGRAM_RAM_START == 0x200
    ensures PROGRAM_RAM_SIZE == 0xDFF
    ensures PROGRAM_RAM_END - PROGRAM_RAM_START + 1 == PROGRAM_RAM_SIZE + 1 == 0xE00
  {
  }
}

=== FILE: results.dfy ===
/** Outcome types shared by every component: the source terminates the
    emulator on a failed `lib.Assert`, an index panic or `log.Fatal`; the
    model returns `Fatal` with the reason instead. */
module Results {

  /** An optional value (Go's nil pointer or "absent"). */
  datatype Option<+T> = None | Some(value: T)

  /** Why the emulator would terminate. */
  datatype Error =
    | AddressOutOfRange(addr: int)         // memory address >= RAM size
    | ReservedRegion(addr: int)            // memory address in the interpreter area
    | IllegalProgramCounter(pc: int)       // fetch at or beyond the end of program RAM
    | StackOverflow                        // push with every slot taken
    | StackUnderflow                       // pop from an empty stack
    | UnimplementedInstruction(word: int)  // opcode outside the decode table
    | BitPositionOutOfRange(pos: int)      // SetBit / ResetBit with pos >= 8
    | RomTooLarge(size: int)               // ROM does not fit in program RAM
    | UiInitFailed                         // the display adapter refused to start
    | IndexOutOfRange(index: int)          // slice index panic (legacy interpreter)

  /** Either a value or the fatal error that stopped the emulator. */
  datatype Result<+T> = Ok(value: T) | Fatal(error: Error) {

    predicate IsFailure() {
      Fatal?
    }

    function PropagateFailure<U>(): Result<U>
      requires Fatal?
    {
      Fatal(error)
    }

    function Extract(): T
      requires Ok?
    {
      value
    }
  }
}

=== FILE: scheduler.dfy ===
/** The deterministic part of the emulator loop in internal/chip8/chip8.go:
    option handling, ROM loading, (re)initialisation, the per-iteration
    tick with its two independently paced channels (CPU and 60 Hz timers),
    the tick-limit pause or exit, and pausing. Time is an abstract integer
    clock `now`; the channel periods are inputs, as they are floating-point
    quotients in the source. */
module Scheduler {
  import opened Results
  import opened Lib
  import Memory
  import Ui
  import Timer
  import Cpu

  /** The options that steer the loop. */
  datatype Config = Config(debug: bool, headless: bool, tickLimit: int, exitAfterTickLimit: bool, testFlag: Byte)

  /** The loop's option functions that this model keeps. */
  datatype LoopOption =
    | WithDebug(debug: bool)
    | WithPauseAfter(pauseAfter: int)
    | WithExitAfter(exitAfter: int)
    | WithHeadless(headless: bool)
    | WithTestFlag(flag: Byte)

  function DefaultConfig(): Config {
    Config(false, false, 0, false, 0)
  }

  /** One option applied to the configuration. A tick limit is only taken
      while none is set; `WithExitAfter` sets the exit flag from its own
      argument either way. */
  function ApplyOption(c: Config, o: LoopOption): (r: Config)
    ensures o.WithPauseAfter? ==> r == c.(tickLimit := if c.tickLimit == 0 then o.pauseAfter else c.tickLimit)
    ensures o.WithExitAfter? ==> r.tickLimit == (if c.tickLimit == 0 then o.exitAfter else c.tickLimit)
    ensures o.WithExitAfter? ==> (r.exitAfterTickLimit <==> o.exitAfter > 0)
    ensures !o.WithPauseAfter? && !o.WithExitAfter? ==> r.tickLimit == c.tickLimit && r.exitAfterTickLimit == c.exitAfterTickLimit
  {
    match o
    case WithDebug(d) => c.(debug := d)
    case WithPauseAfter(n) => if c.tickLimit == 0 then c.(tickLimit := n) else c
    case WithExitAfter(n) => (if c.tickLimit == 0 then c.(tickLimit := n) else c).(exitAfterTickLimit := n > 0)
    case WithHeadless(h) => c.(headless := h)
    case WithTestFlag(f) => c.(testFlag := f)
  }

  /** The options applied in order, as `New` does. */
  function Configure(c: Config, opts: seq<LoopOption>): (r: Config)
    ensures c.tickLimit != 0 ==> r.tickLimit == c.tickLimit
    ensures (forall k :: 0 <= k < |opts| ==> !opts[k].WithExitAfter?) ==> r.exitAfterTickLimit == c.exitAfterTickLimit
    decreases |opts|
  {
    if |opts| == 0 then c else Configure(ApplyOption(c, opts[0]), opts[1..])
  }

  /** The argument of the first limit option whose argument is not 0. */
  function FirstLimit(opts: seq<LoopOption>): int
    decreases |opts|
  {
    if |opts| == 0 then 0
    else if opts[0].WithPauseAfter? && opts[0].pauseAfter != 0 then opts[0].pauseAfter
    else if opts[0].WithExitAfter? && opts[0].exitAfter != 0 then opts[0].exitAfter
    else FirstLimit(opts[1..])
  }

  /** Whether the last `WithExitAfter` had a positive argument. */
  function LastExit(opts: seq<LoopOption>, dflt: bool): bool
    decreases |opts|
  {
    if |opts| == 0 then dflt
    else LastExit(opts[1..], if opts[0].WithExitAfter? then opts[0].exitAfter > 0 else dflt)
  }

  /** Option precedence: the first non-zero tick limit wins, whichever of
      the two options gave it, and the exit flag comes from the last
      `WithExitAfter`. */
  lemma {:induction false} ConfigurePrecedence(c: Config, opts: seq<LoopOption>)
    ensures Configure(c, opts).tickLimit == if c.tickLimit != 0 then c.tickLimit else FirstLimit(opts)
    ensures Configure(c, opts).exitAfterTickLimit == LastExit(opts, c.exitAfterTickLimit)
    decreases |opts|
  {
    if |opts| > 0 {
      ConfigurePrecedence(ApplyOption(c, opts[0]), opts[1..]);
    }
  }

  /** The emulator: the machine, the loop bookkeeping and the ROM. */
  datatype Chip8 = Chip8(machine: Cpu.Machine, config: Config, rom: seq<Byte>,
                         cpuTicks: int, paused: bool,
                         lastFrame: int, lastTimerTick: int, lastCpuTick: int)

  /** `loadROM`: a ROM longer than `PROGRAM_RAM_SIZE` (0xDFF) is fatal,
      otherwise byte i goes to 0x200 + i. */
  function LoadRom(mem: Memory.Memory, rom: seq<Byte>): (r: Result<Memory.Memory>)
    ensures r.Ok? <==> |rom| <= Memory.PROGRAM_RAM_SIZE
    ensures r.Fatal? ==> r.error == RomTooLarge(|rom|)
    ensures r.Ok? ==> forall k :: 0 <= k < |rom| ==> r.value.ram[Memory.PROGRAM_RAM_START + k] == rom[k]
    ensures r.Ok? ==> forall a :: 0 <= a < Memory.RAM_SIZE && !(Memory.PROGRAM_RAM_START <= a < Memory.PROGRAM_RAM_START + |rom|) ==>
      r.value.ram[a] == mem.ram[a]
  {
    if |rom| > Memory.PROGRAM_RAM_SIZE then Fatal(RomTooLarge(|rom|))
    else
      var r := Cpu.StoreBlock(mem, Memory.PROGRAM_RAM_START, rom, 0);
      assert forall k :: 0 <= k < |rom| ==> Cpu.Offset(Memory.PROGRAM_RAM_START, k) == Memory.PROGRAM_RAM_START + k;
      r
  }

  /** A ROM of 0xE00 bytes would exactly fill 0x200..0xFFF but is refused. */
  lemma FullSizeRomRejected(mem: Memory.Memory, rom: seq<Byte>)
    requires |rom| == Memory.PROGRAM_RAM_END - Memory.PROGRAM_RAM_START + 1
    ensures LoadRom(mem, rom) == Fatal(RomTooLarge(0xE00))
  {
  }

  /** `init`: unpause, zero the tick count, restart the clocks, reinitialise
      memory (to `freshMem`: `Memory.Init` is not part of this model), CPU
      and timers, bring up the display unless headless (`uiReady` standing
      for SDL), write a non-zero test flag to 0x1FF and load the ROM. The
      CPU's mode effects are returned alongside. */
  function Init(c8: Chip8, freshMem: Memory.Memory, uiReady: bool, now: int): (r: Result<(Chip8, seq<Cpu.Effect>)>)
    ensures r.Ok? ==> !r.value.0.paused && r.value.0.cpuTicks == 0 && r.value.0.machine.cpu.ticks == 0
    ensures r.Ok? ==> r.value.0.lastCpuTick == now && r.value.0.lastTimerTick == now && r.value.0.lastFrame == now
    ensures r.Ok? ==> r.value.0.machine.cpu.pc == Memory.PROGRAM_RAM_START
    ensures r.Ok? ==> r.value.0.machine.timer.delay == 0 && r.value.0.machine.timer.sound == 0
    ensures r.Ok? ==> LoadRom(freshMem, c8.rom).Ok? && r.value.0.machine.mem == LoadRom(freshMem, c8.rom).value
    ensures r.Ok? <==> (c8.config.headless || uiReady) && c8.config.testFlag == 0 && |c8.rom| <= Memory.PROGRAM_RAM_SIZE
  {
    var m := c8.machine.(mem := freshMem);
    var s := Cpu.Init(m);
    var m1 := s.m.(timer := Timer.Init(s.m.timer));
    var screen :- if c8.config.headless then Ok(m1.screen) else Ui.Init(m1.screen, uiReady);
    var mem :- if c8.config.testFlag != 0 then Memory.Write(m1.mem, 0x1FF, c8.config.testFlag) else Ok(m1.mem);
    var mem' :- LoadRom(mem, c8.rom);
    Ok((c8.(machine := m1.(screen := screen, mem := mem'), paused := false, cpuTicks := 0,
            lastFrame := now, lastTimerTick := now, lastCpuTick := now), s.effects))
  }

  /** With the display up, a non-zero test flag makes `init` fatal: 0x1FF
      is interpreter memory, which `Write` refuses. */
  lemma TestFlagIsFatal(c8: Chip8, freshMem: Memory.Memory, uiReady: bool, now: int)
    requires c8.config.testFlag != 0 && (c8.config.headless || uiReady)
    ensures Init(c8, freshMem, uiReady, now) == Fatal(ReservedRegion(0x1FF))
  {
  }

  /** What one `tick` did besides the new state: the CPU's effects and
      whether the timers enqueued a beep. */
  datatype Outcome = Outcome(c8: Chip8, effects: seq<Cpu.Effect>, beep: bool)

  /** A channel is due once its period has elapsed since it last fired. */
  predicate Due(now: int, last: int, period: int) {
    now - last >= period
  }

  /** `tick`: the CPU executes one instruction when its period has elapsed
      (a fatal instruction ends everything), then, separately, the timers
      tick when theirs has. `queued` and `beepLen` are the audio queue's
      state as the timers see it. */
  function Tick(c8: Chip8, now: int, cpuPeriod: int, timerPeriod: int, env: Cpu.Env, queued: int, beepLen: nat): (r: Result<Outcome>)
    ensures r.Ok? ==> r.value.c8.cpuTicks == c8.cpuTicks + (if Due(now, c8.lastCpuTick, cpuPeriod) then 1 else 0)
    ensures r.Ok? ==> r.value.c8.machine.cpu.ticks == c8.machine.cpu.ticks + (if Due(now, c8.lastCpuTick, cpuPeriod) then 1 else 0)
    ensures r.Ok? ==> r.value.c8.lastCpuTick == (if Due(now, c8.lastCpuTick, cpuPeriod) then now else c8.lastCpuTick)
    ensures r.Ok? ==> r.value.c8.lastTimerTick == (if Due(now, c8.lastTimerTick, timerPeriod) then now else c8.lastTimerTick)
    ensures r.Ok? && !Due(now, c8.lastCpuTick, cpuPeriod) ==> r.value.effects == [] && r.value.c8.machine.cpu == c8.machine.cpu
    ensures r.Ok? && !Due(now, c8.lastTimerTick, timerPeriod) ==> !r.value.beep
    ensures r.Fatal? <==> Due(now, c8.lastCpuTick, cpuPeriod) && Cpu.Tick(c8.machine, env).Fatal?
    ensures r.Ok? ==> r.value.c8.paused == c8.paused && r.value.c8.config == c8.config
    // A due CPU contributes exactly the state and effects of one `Cpu.Tick`,
    // whatever the timers then do to their own counters.
    ensures r.Ok? && Due(now, c8.lastCpuTick, cpuPeriod) ==>
              && Cpu.Tick(c8.machine, env).Ok?
              && r.value.c8.machine.(timer := c8.machine.timer) == Cpu.Tick(c8.machine, env).value.m.(timer := c8.machine.timer)
              && r.value.effects == Cpu.Tick(c8.machine, env).value.effects
    ensures r.Ok? && !Due(now, c8.lastCpuTick, cpuPeriod) ==> r.value.c8.machine.(timer := c8.machine.timer) == c8.machine
    // The timers tick at most once, on the counters the CPU step left.
    ensures r.Ok? ==>
              var mid := if Due(now, c8.lastCpuTick, cpuPeriod) then Cpu.Tick(c8.machine, env).value.m.timer else c8.machine.timer;
              && (Due(now, c8.lastTimerTick, timerPeriod) ==> (r.value.c8.machine.timer, r.value.beep) == Timer.Tick(mid, queued, beepLen))
              && (!Due(now, c8.lastTimerTick, timerPeriod) ==> r.value.c8.machine.timer == mid)
  {
    var (c1, effects) :-
      if Due(now, c8.lastCpuTick, cpuPeriod) then
        var s :- Cpu.Tick(c8.machine, env);
        Ok((c8.(machine := s.m, lastCpuTick := now, cpuTicks := c8.cpuTicks + 1), s.effects))
      else Ok((c8, []));
    if Due(now, c1.lastTimerTick, timerPeriod) then
      var (t, beep) := Timer.Tick(c1.machine.timer, queued, beepLen);
      Ok(Outcome(c1.(machine := c1.machine.(timer := t), lastTimerTick := now), effects, beep))
    else Ok(Outcome(c1, effects, false))
  }

  /** `handleTickLimitReached`: once the CPU has run exactly `tickLimit`
      ticks (a positive limit) the loop pauses, and additionally asks to
      stop when it was configured to exit. The flag is that request. */
  function HandleTickLimitReached(c8: Chip8): (r: (Chip8, bool))
    ensures r.0.paused <==> c8.paused || (c8.config.tickLimit > 0 && c8.cpuTicks == c8.config.tickLimit)
    ensures r.1 <==> c8.config.tickLimit > 0 && c8.cpuTicks == c8.config.tickLimit && c8.config.exitAfterTickLimit
    ensures r.0.(paused := c8.paused) == c8
  {
    if c8.config.tickLimit > 0 && c8.cpuTicks == c8.config.tickLimit then
      (c8.(paused := true), c8.config.exitAfterTickLimit)
    else (c8, false)
  }

  /** `togglePause`. */
  function TogglePause(c8: Chip8): (r: Chip8)
    ensures r.paused != c8.paused && r.(paused := c8.paused) == c8
  {
    c8.(paused := !c8.paused)
  }

  lemma TogglePauseInvolution(c8: Chip8)
    ensures TogglePause(TogglePause(c8)) == c8
  {
  }

  /** The emulation part of one loop iteration: tick and check the limit
      unless paused. The flag asks the loop to stop. */
  function LoopStep(c8: Chip8, now: int, cpuPeriod: int, timerPeriod: int, env: Cpu.Env, queued: int, beepLen: nat): (r: Result<(Outcome, bool)>)
    ensures c8.paused ==> r == Ok((Outcome(c8, [], false), false))
    ensures !c8.paused ==> (r.Ok? <==> Tick(c8, now, cpuPeriod, timerPeriod, env, queued, beepLen).Ok?)
  {
    if c8.paused then Ok((Outcome(c8, [], false), false))
    else
      var o :- Tick(c8, now, cpuPeriod, timerPeriod, env, queued, beepLen);
      var (c1, stop) := HandleTickLimitReached(o.c8);
      Ok((o.(c8 := c1), stop))
  }

  /** The loop's count and the CPU's own count move together: they start
      equal after `init` and each iteration adds the same 0 or 1 to both. */
  lemma CountsAgree(c8: Chip8, now: int, cpuPeriod: int, timerPeriod: int, env: Cpu.Env, queued: int, beepLen: nat)
    requires c8.cpuTicks == c8.machine.cpu.ticks
    requires LoopStep(c8, now, cpuPeriod, timerPeriod, env, queued, beepLen).Ok?
    ensures var c1 := LoopStep(c8, now, cpuPeriod, timerPeriod, env, queued, beepLen).value.0.c8;
      c1.cpuTicks == c1.machine.cpu.ticks && c8.cpuTicks <= c1.cpuTicks <= c8.cpuTicks + 1
  {
  }

  /** With a positive limit L and the counts starting below it, the loop
      pauses on the iteration that completes the L-th CPU tick, and asks to
      stop then exactly when configured to exit. */
  lemma PausesAtLimit(c8: Chip8, now: int, cpuPeriod: int, timerPeriod: int, env: Cpu.Env, queued: int, beepLen: nat)
    requires !c8.paused && c8.config.tickLimit > 0 && c8.cpuTicks == c8.config.tickLimit - 1
    requires Due(now, c8.lastCpuTick, cpuPeriod)
    requires LoopStep(c8, now, cpuPeriod, timerPeriod, env, queued, beepLen).Ok?
    ensures var (o, stop) := LoopStep(c8, now, cpuPeriod, timerPeriod, env, queued, beepLen).value;
      o.c8.paused && o.c8.cpuTicks == c8.config.tickLimit && (stop <==> c8.config.exitAfterTickLimit)
  {
  }
}

=== FILE: timer.dfy ===
/** The delay and sound timers of internal/chip8/components/timer: two 8-bit
    counters that count down to 0 and stop there. While the sound timer is
    above 1 and audio is enabled, each tick tops up the audio queue with one
    beep when less than a beep is queued. The SDL device, the stream and the
    sine beep itself are not part of this model: the number of queued bytes
    and the beep length are inputs, and the enqueue decision is an output. */
module Timer {
  import opened Lib

  datatype Timer = Timer(audioDisabled: bool, delay: Byte, sound: Byte)

  /** A counter decremented once, stopping at 0. */
  function CountDown(v: Byte): (r: Byte)
    ensures v > 0 ==> r + 1 == v
    ensures v == 0 ==> r == 0
  {
    if v > 0 then v - 1 else 0
  }

  /** `Init`'s counter reset, done before the audio setup is even looked at.
      The caller ignores the setup's outcome, so it is not modelled. */
  function Init(t: Timer): (r: Timer)
    ensures r.delay == 0 && r.sound == 0
    ensures r.audioDisabled == t.audioDisabled
  {
    t.(delay := 0, sound := 0)
  }

  function GetDelay(t: Timer): (r: Byte)
    ensures SetDelay(t, r) == t
  {
    t.delay
  }

  function SetDelay(t: Timer, v: Byte): (r: Timer)
    ensures r.sound == t.sound && r.audioDisabled == t.audioDisabled
    ensures r.delay == v
  {
    t.(delay := v)
  }

  function SetSound(t: Timer, v: Byte): (r: Timer)
    ensures r.delay == t.delay && r.audioDisabled == t.audioDisabled
    ensures r.sound == v
  {
    t.(sound := v)
  }

  /** Setting the delay timer and reading it back gives the value set, and
      a later set overrides an earlier one. */
  lemma SetDelayThenGet(t: Timer, v: Byte, w: Byte)
    ensures GetDelay(SetDelay(t, v)) == v
    ensures SetDelay(SetDelay(t, v), w) == SetDelay(t, w)
    ensures SetSound(SetDelay(t, v), w) == SetDelay(SetSound(t, w), v)
  {
  }

  /** One 60 Hz tick. `queued` is the number of bytes waiting in the audio
      stream and `beepLen` the length of one beep; the second component of
      the result says whether a beep was enqueued. */
  function Tick(t: Timer, queued: int, beepLen: nat): (r: (Timer, bool))
    ensures r.0.delay == CountDown(t.delay) && r.0.sound == CountDown(t.sound)
    ensures r.0.audioDisabled == t.audioDisabled
    ensures r.1 <==> t.sound > 1 && !t.audioDisabled && queued < beepLen
  {
    var enqueue := t.sound > 0 && t.sound > 1 && !t.audioDisabled && queued < beepLen;
    (t.(delay := CountDown(t.delay), sound := CountDown(t.sound)), enqueue)
  }

  /** `n` ticks, with whatever the audio queue holds at each of them. */
  function Ticks(t: Timer, queue: seq<int>, beepLen: nat): Timer
    decreases |queue|
  {
    if |queue| == 0 then t else Ticks(Tick(t, queue[0], beepLen).0, queue[1..], beepLen)
  }

  function Max0(v: int): nat {
    if v > 0 then v else 0
  }

  /** After n ticks each counter has gone down by n and stopped at 0; each
      depends only on its own start value, never on the other counter or
      on the audio queue. */
  lemma {:induction false} TicksSaturate(t: Timer, queue: seq<int>, beepLen: nat)
    ensures Ticks(t, queue, beepLen).delay == Max0(t.delay - |queue|)
    ensures Ticks(t, queue, beepLen).sound == Max0(t.sound - |queue|)
    ensures Ticks(t, queue, beepLen).audioDisabled == t.audioDisabled
    decreases |queue|
  {
    if |queue| > 0 {
      TicksSaturate(Tick(t, queue[0], beepLen).0, queue[1..], beepLen);
    }
  }
}

=== FILE: ui.dfy ===
/** The framebuffer and keypad of internal/chip8/components/ui: a 64x32 grid
    of one-byte pixels drawn by XOR, with the start coordinate wrapped onto
    the screen and anything that runs past the right or bottom edge clipped.
    The grid is stored column-major, cell (x, y) at index x*32 + y, as the
    source's `[WIDTH][HEIGHT]` array is. Window, renderer and event polling
    are not part of this model. */
module Ui {
  import opened Results
  import opened Lib

  const WIDTH: nat := 64
  const HEIGHT: nat := 32
  const CELLS: nat := 2048

  type Frame = s: seq<Byte> | |s| == CELLS witness seq(2048, _ => 0)

  /** The 16 host keys the emulator listens to. */
  datatype HostKey =
    | Key1 | Key2 | Key3 | Key4
    | KeyQ | KeyW | KeyE | KeyR
    | KeyA | KeyS | KeyD | KeyF
    | KeyZ | KeyX | KeyC | KeyV

  /** The display state that is not SDL: pixels, the redraw flag and the
      logical key states. */
  datatype Screen = Screen(frame: Frame, draw: bool, keyState: map<Byte, bool>)

  function Idx(x: nat, y: nat): (i: nat)
    requires x < WIDTH && y < HEIGHT
    ensures i < CELLS && i / HEIGHT == x && i % HEIGHT == y
  {
    x * HEIGHT + y
  }

  /** Every pixel is 0 or 1, as `SetColor` asserts when presenting. */
  ghost predicate Binary(f: Frame) {
    forall i :: 0 <= i < CELLS ==> f[i] < 2
  }

  // ---------------------------------------------------------------------
  // Key map

  /** The `sdlKeyIDs` table: the classic 4x4 layout on 1234/QWER/ASDF/ZXCV. */
  function KeyId(k: HostKey): Byte {
    match k
    case Key1 => 0x1 case Key2 => 0x2 case Key3 => 0x3 case Key4 => 0xC
    case KeyQ => 0x4 case KeyW => 0x5 case KeyE => 0x6 case KeyR => 0xD
    case KeyA => 0x7 case KeyS => 0x8 case KeyD => 0x9 case KeyF => 0xE
    case KeyZ => 0xA case KeyX => 0x0 case KeyC => 0xB case KeyV => 0xF
  }

  /** The host key for a logical key, the inverse of the key map. */
  function HostKeyOf(id: Byte): (r: Option<HostKey>)
    ensures r.Some? <==> id < 16
    ensures r.Some? ==> KeyId(r.value) == id
  {
    match id
    case 0x0 => Some(KeyX) case 0x1 => Some(Key1) case 0x2 => Some(Key2) case 0x3 => Some(Key3)
    case 0x4 => Some(KeyQ) case 0x5 => Some(KeyW) case 0x6 => Some(KeyE) case 0x7 => Some(KeyA)
    case 0x8 => Some(KeyS) case 0x9 => Some(KeyD) case 0xA => Some(KeyZ) case 0xB => Some(KeyC)
    case 0xC => Some(Key4) case 0xD => Some(KeyR) case 0xE => Some(KeyF) case 0xF => Some(KeyV)
    case _ => None
  }

  /** The key map sends the 16 host keys one-to-one onto 0x0..0xF. */
  lemma KeyMapIsBijection()
    ensures forall k :: KeyId(k) < 16 && HostKeyOf(KeyId(k)) == Some(k)
    ensures forall k, k' :: KeyId(k) == KeyId(k') ==> k == k'
  {
    forall k ensures KeyId(k) < 16 && HostKeyOf(KeyId(k)) == Some(k) {
      match k
      case Key1 => case Key2 => case Key3 => case Key4 =>
      case KeyQ => case KeyW => case KeyE => case KeyR =>
      case KeyA => case KeyS => case KeyD => case KeyF =>
      case KeyZ => case KeyX => case KeyC => case KeyV =>
    }
  }

  // ---------------------------------------------------------------------
  // Keypad state

  /** A key absent from the state map reads as not pressed. */
  function IsKeyPressed(s: Screen, key: Byte): (r: bool)
    ensures key !in s.keyState ==> !r
  {
    key in s.keyState && s.keyState[key]
  }

  /** Some pressed key, or 0xFF when no key is pressed. The source walks the
      state map in Go's unspecified order and returns the first pressed key
      it meets, so which pressed key comes back is not determined. */
  method GetPressedKey(s: Screen) returns (k: Byte)
    ensures IsKeyPressed(s, k) || (k == 0xFF && forall j :: !IsKeyPressed(s, j))
  {
    var pending := s.keyState.Keys;
    while pending != {}
      invariant pending <= s.keyState.Keys
      invariant forall j :: j in s.keyState && j !in pending ==> !s.keyState[j]
      decreases pending
    {
      var id :| id in pending;
      if s.keyState[id] {
        return id;
      }
      pending := pending - {id};
    }
    k := 0xFF;
  }

  // ---------------------------------------------------------------------
  // Reset and the SDL-free part of Init

  /** Clears every pixel and requests a redraw. */
  function Reset(s: Screen): (r: Screen)
    ensures forall i :: 0 <= i < CELLS ==> r.frame[i] == 0
    ensures r.draw
    ensures r.keyState == s.keyState
  {
    s.(frame := seq(CELLS, _ => 0), draw := true)
  }

  /** `Init` once SDL is up: every mapped key released, the screen cleared.
      When SDL fails (`sdlReady` false) nothing is touched and the error is
      returned. */
  function Init(s: Screen, sdlReady: bool): (r: Result<Screen>)
    ensures r.Ok? <==> sdlReady
    ensures r.Ok? ==> forall k :: !IsKeyPressed(r.value, KeyId(k))
    ensures r.Ok? ==> forall i :: 0 <= i < CELLS ==> r.value.frame[i] == 0
    ensures r.Ok? ==> forall j :: j in s.keyState && j >= 16 ==> j in r.value.keyState && r.value.keyState[j] == s.keyState[j]
  {
    if !sdlReady then Fatal(UiInitFailed)
    else
      var released := map j | j in s.keyState.Keys + (set k: HostKey :: KeyId(k)) ::
        if j < 16 then false else s.keyState[j];
      assert forall k: HostKey :: KeyId(k) < 16 by { KeyMapIsBijection(); }
      Ok(Reset(s.(keyState := released, draw := false)))
  }

  // ---------------------------------------------------------------------
  // Sprite drawing, as the source's two nested loops

  /** The value of `prevXDraw` before column `offset` of a row starting at
      column s: the last column drawn so far, or s at the start. */
  function PrevX(s: nat, offset: nat): nat {
    if offset == 0 then s else if s + offset - 1 < WIDTH then s + offset - 1 else WIDTH - 1
  }

  /** The inner loop: columns `offset`..7 of one sprite row. A column is
      skipped when its wrapped position lies left of the last drawn one. */
  function DrawColumns(f: Frame, x: Byte, yDraw: nat, bits: Byte, offset: nat, prevX: int, coll: bool): (r: (Frame, bool))
    requires yDraw < HEIGHT && offset <= BYTE_SIZE
    ensures coll ==> r.1
    decreases BYTE_SIZE - offset
  {
    if offset == BYTE_SIZE then (f, coll)
    else
      var xDraw := ((x + offset) % 256) % WIDTH;
      var spritePixel := Bit(bits, 7 - offset);
      var oldPixel := f[Idx(xDraw, yDraw)];
      var newPixel := Xor8(spritePixel, oldPixel);
      if xDraw < prevX then DrawColumns(f, x, yDraw, bits, offset + 1, prevX, coll)
      else DrawColumns(f[Idx(xDraw, yDraw) := newPixel], x, yDraw, bits, offset + 1, xDraw,
                       coll || (spritePixel == 1 && oldPixel == 1))
  }

  /** The outer loop: rows `row`.. of the sprite. A row is skipped when its
      wrapped position lies above the start row. */
  function DrawRows(f: Frame, x: Byte, y: Byte, sprite: seq<Byte>, row: nat, coll: bool): (r: (Frame, bool))
    requires row <= |sprite|
    ensures coll ==> r.1
    decreases |sprite| - row
  {
    if row == |sprite| then (f, coll)
    else
      var yDraw := ((y + row) % 256) % HEIGHT;
      if yDraw < y % HEIGHT then DrawRows(f, x, y, sprite, row + 1, coll)
      else
        var (f', c') := DrawColumns(f, x, yDraw, sprite[row], 0, x % WIDTH, coll);
        DrawRows(f', x, y, sprite, row + 1, c')
  }

  // ---------------------------------------------------------------------
  // Closed form of one row

  /** Pixel i after columns `offset`.. of row `yDraw` are drawn from column s. */
  function RowValue(f: Frame, s: nat, yDraw: nat, bits: Byte, offset: nat, i: nat): Byte
    requires i < CELLS
  {
    if i % HEIGHT == yDraw && s + offset <= i / HEIGHT < s + 8
    then Xor8(Bit(bits, 7 - (i / HEIGHT - s)), f[i])
    else f[i]
  }

  /** Pixel i is drawn in that row with a set sprite bit over a set pixel. */
  ghost predicate RowHit(f: Frame, s: nat, yDraw: nat, bits: Byte, offset: nat, i: int) {
    && 0 <= i < CELLS
    && i % HEIGHT == yDraw && s + offset <= i / HEIGHT < s + 8
    && Bit(bits, 7 - (i / HEIGHT - s)) == 1 && f[i] == 1
  }

  lemma WrappedColumn(x: Byte, offset: nat)
    requires offset < 8
    ensures ((x + offset) % 256) % WIDTH == if x % WIDTH + offset < WIDTH then x % WIDTH + offset else x % WIDTH + offset - WIDTH
  {
  }

  lemma WrappedRow(y: Byte, row: nat)
    requires row < HEIGHT
    ensures ((y + row) % 256) % HEIGHT == if y % HEIGHT + row < HEIGHT then y % HEIGHT + row else y % HEIGHT + row - HEIGHT
  {
  }

  /** Drawing the pixel of column `offset`, inside the screen, moves the
      closed form from `offset` to `offset + 1`. */
  lemma RowStep(f: Frame, s: nat, yDraw: nat, bits: Byte, offset: nat, i: int)
    requires s + offset < WIDTH && yDraw < HEIGHT && offset < 8 && 0 <= i < CELLS
    ensures var j := Idx(s + offset, yDraw);
      RowValue(f[j := Xor8(Bit(bits, 7 - offset), f[j])], s, yDraw, bits, offset + 1, i) == RowValue(f, s, yDraw, bits, offset, i)
  {
  }

  /** The collisions left after column `offset` is drawn are the earlier
      ones minus that column's cell, which collides exactly when its sprite
      bit and its pixel are both set. */
  lemma RowHitStep(f: Frame, s: nat, yDraw: nat, bits: Byte, offset: nat, i: int)
    requires s + offset < WIDTH && yDraw < HEIGHT && offset < 8 && 0 <= i < CELLS
    ensures var j := Idx(s + offset, yDraw);
      && (RowHit(f[j := Xor8(Bit(bits, 7 - offset), f[j])], s, yDraw, bits, offset + 1, i) <==> RowHit(f, s, yDraw, bits, offset, i) && i != j)
      && (RowHit(f, s, yDraw, bits, offset, j) <==> Bit(bits, 7 - offset) == 1 && f[j] == 1)
  {
  }

  /** `RowStep` for a whole frame g that holds the closed form from
      `offset + 1` after the pixel of column `offset` is drawn. */
  lemma RowStepAll(f: Frame, g: Frame, s: nat, yDraw: nat, bits: Byte, offset: nat)
    requires s + offset < WIDTH && yDraw < HEIGHT && offset < 8
    requires var j := Idx(s + offset, yDraw);
      forall i :: 0 <= i < CELLS ==> g[i] == RowValue(f[j := Xor8(Bit(bits, 7 - offset), f[j])], s, yDraw, bits, offset + 1, i)
    ensures forall i :: 0 <= i < CELLS ==> g[i] == RowValue(f, s, yDraw, bits, offset, i)
  {
    forall i | 0 <= i < CELLS ensures g[i] == RowValue(f, s, yDraw, bits, offset, i) {
      RowStep(f, s, yDraw, bits, offset, i);
    }
  }

  /** A column past the right edge changes nothing. */
  lemma RowSkip(f: Frame, s: nat, yDraw: nat, bits: Byte, offset: nat, i: int)
    requires s + offset >= WIDTH && 0 <= i < CELLS
    ensures RowValue(f, s, yDraw, bits, offset + 1, i) == RowValue(f, s, yDraw, bits, offset, i)
    ensures RowHit(f, s, yDraw, bits, offset + 1, i) <==> RowHit(f, s, yDraw, bits, offset, i)
  {
  }

  /** The loop's skip test at column `offset` agrees with the closed form:
      the column is drawn exactly when it has not wrapped. */
  lemma ColumnTest(x: Byte, offset: nat)
    requires offset < 8
    ensures var s := x % WIDTH;
      var xDraw := ((x + offset) % 256) % WIDTH;
      && (xDraw < PrevX(s, offset) <==> s + offset >= WIDTH)
      && (s + offset >= WIDTH ==> PrevX(s, offset + 1) == PrevX(s, offset))
      && (s + offset < WIDTH ==> xDraw == s + offset == PrevX(s, offset + 1))
  {
    WrappedColumn(x, offset);
  }

  /** One step of the inner loop in terms of the closed form's start column. */
  lemma ColumnsUnfold(f: Frame, x: Byte, yDraw: nat, bits: Byte, offset: nat, coll: bool)
    requires yDraw < HEIGHT && offset < BYTE_SIZE
    ensures var s := x % WIDTH;
      DrawColumns(f, x, yDraw, bits, offset, PrevX(s, offset), coll)
      == if s + offset >= WIDTH then DrawColumns(f, x, yDraw, bits, offset + 1, PrevX(s, offset + 1), coll)
         else var j := Idx(s + offset, yDraw); DrawColumns(f[j := Xor8(Bit(bits, 7 - offset), f[j])], x, yDraw, bits, offset + 1, PrevX(s, offset + 1),
                          coll || (Bit(bits, 7 - offset) == 1 && f[j] == 1))
  {
    ColumnTest(x, offset);
  }

  lemma {:induction false} DrawColumnsFrame(f: Frame, x: Byte, yDraw: nat, bits: Byte, offset: nat, coll: bool)
    requires yDraw < HEIGHT && offset <= BYTE_SIZE
    ensures var r := DrawColumns(f, x, yDraw, bits, offset, PrevX(x % WIDTH, offset), coll);
      forall i :: 0 <= i < CELLS ==> r.0[i] == RowValue(f, x % WIDTH, yDraw, bits, offset, i)
    decreases BYTE_SIZE - offset
  {
    var s := x % WIDTH;
    if offset < BYTE_SIZE {
      ColumnsUnfold(f, x, yDraw, bits, offset, coll);
      if s + offset >= WIDTH {
        DrawColumnsFrame(f, x, yDraw, bits, offset + 1, coll);
        forall i | 0 <= i < CELLS
          ensures RowValue(f, s, yDraw, bits, offset + 1, i) == RowValue(f, s, yDraw, bits, offset, i)
        {
          RowSkip(f, s, yDraw, bits, offset, i);
        }
      } else {
        var j := Idx(s + offset, yDraw);
        var f1 := f[j := Xor8(Bit(bits, 7 - offset), f[j])];
        var coll1 := coll || (Bit(bits, 7 - offset) == 1 && f[j] == 1);
        var r := DrawColumns(f1, x, yDraw, bits, offset + 1, PrevX(s, offset + 1), coll1);
        assert DrawColumns(f, x, yDraw, bits, offset, PrevX(s, offset), coll) == r;
        DrawColumnsFrame(f1, x, yDraw, bits, offset + 1, coll1);
        RowStepAll(f, r.0, s, yDraw, bits, offset);
      }
    } else {
      forall i | 0 <= i < CELLS ensures RowValue(f, s, yDraw, bits, offset, i) == f[i] { }
    }
  }

  /** Some pixel of the row is a collision. */
  ghost predicate AnyRowHit(f: Frame, s: nat, yDraw: nat, bits: Byte, offset: nat) {
    exists i :: RowHit(f, s, yDraw, bits, offset, i)
  }

  /** Once the row has reached the right edge no collision remains. */
  lemma NoHitPastEdge(f: Frame, s: nat, yDraw: nat, bits: Byte, offset: nat)
    requires s + offset >= WIDTH
    ensures !AnyRowHit(f, s, yDraw, bits, offset)
  {
    forall i | 0 <= i < CELLS ensures i / HEIGHT < WIDTH { }
  }

  lemma {:induction false} DrawColumnsCollision(f: Frame, x: Byte, yDraw: nat, bits: Byte, offset: nat, coll: bool)
    requires yDraw < HEIGHT && offset <= BYTE_SIZE
    ensures DrawColumns(f, x, yDraw, bits, offset, PrevX(x % WIDTH, offset), coll).1
      <==> coll || AnyRowHit(f, x % WIDTH, yDraw, bits, offset)
    decreases BYTE_SIZE - offset
  {
    var s := x % WIDTH;
    if offset < BYTE_SIZE {
      ColumnsUnfold(f, x, yDraw, bits, offset, coll);
      if s + offset >= WIDTH {
        DrawColumnsCollision(f, x, yDraw, bits, offset + 1, coll);
        NoHitPastEdge(f, s, yDraw, bits, offset);
        NoHitPastEdge(f, s, yDraw, bits, offset + 1);
      } else {
        var j := Idx(s + offset, yDraw);
        var f1 := f[j := Xor8(Bit(bits, 7 - offset), f[j])];
        var hit := Bit(bits, 7 - offset) == 1 && f[j] == 1;
        DrawColumnsCollision(f1, x, yDraw, bits, offset + 1, coll || hit);
        RowHitStep(f, s, yDraw, bits, offset, j);
        if AnyRowHit(f, s, yDraw, bits, offset) {
          var i :| RowHit(f, s, yDraw, bits, offset, i);
          RowHitStep(f, s, yDraw, bits, offset, i);
          assert hit || AnyRowHit(f1, s, yDraw, bits, offset + 1);
        }
        if AnyRowHit(f1, s, yDraw, bits, offset + 1) {
          var i :| RowHit(f1, s, yDraw, bits, offset + 1, i);
          RowHitStep(f, s, yDraw, bits, offset, i);
        }
      }
    }
  }

  // ---------------------------------------------------------------------
  // Closed form of a whole sprite of at most 32 rows

  /** Pixel i after rows `fromRow`.. of the sprite are drawn at (x, y):
      drawn cells are old XOR sprite bit, bit 7 leftmost; cells right of
      column 63 or below row 31 are dropped rather than wrapped. */
  function SpriteValue(f: Frame, x: Byte, y: Byte, sprite: seq<Byte>, fromRow: nat, i: nat): Byte
    requires i < CELLS
  {
    var sx := x % WIDTH;
    var sy := y % HEIGHT;
    if sx <= i / HEIGHT < sx + 8 && sy + fromRow <= i % HEIGHT < sy + |sprite|
    then Xor8(Bit(sprite[i % HEIGHT - sy], 7 - (i / HEIGHT - sx)), f[i])
    else f[i]
  }

  /** Drawn cell i has sprite bit 1 over an old pixel equal to 1. */
  ghost predicate SpriteHit(f: Frame, x: Byte, y: Byte, sprite: seq<Byte>, fromRow: nat, i: int) {
    var sx := x % WIDTH;
    var sy := y % HEIGHT;
    && 0 <= i < CELLS
    && sx <= i / HEIGHT < sx + 8 && sy + fromRow <= i % HEIGHT < sy + |sprite|
    && Bit(sprite[i % HEIGHT - sy], 7 - (i / HEIGHT - sx)) == 1 && f[i] == 1
  }

  /** Row `row`, drawn in full by the inner loop, moves the closed form from
      `row` to `row + 1`. */
  lemma SpriteStep(f: Frame, f1: Frame, x: Byte, y: Byte, sprite: seq<Byte>, row: nat, i: int)
    requires row < |sprite| && y % HEIGHT + row < HEIGHT && 0 <= i < CELLS
    requires f1[i] == RowValue(f, x % WIDTH, y % HEIGHT + row, sprite[row], 0, i)
    ensures SpriteValue(f1, x, y, sprite, row + 1, i) == SpriteValue(f, x, y, sprite, row, i)
    ensures SpriteHit(f1, x, y, sprite, row + 1, i)
      <==> SpriteHit(f, x, y, sprite, row, i) && i % HEIGHT != y % HEIGHT + row
    ensures RowHit(f, x % WIDTH, y % HEIGHT + row, sprite[row], 0, i)
      <==> SpriteHit(f, x, y, sprite, row, i) && i % HEIGHT == y % HEIGHT + row
  {
  }

  /** A row below the bottom edge changes nothing. */
  lemma SpriteSkip(f: Frame, x: Byte, y: Byte, sprite: seq<Byte>, row: nat, i: int)
    requires y % HEIGHT + row >= HEIGHT && 0 <= i < CELLS
    ensures SpriteValue(f, x, y, sprite, row + 1, i) == SpriteValue(f, x, y, sprite, row, i)
    ensures SpriteHit(f, x, y, sprite, row + 1, i) <==> SpriteHit(f, x, y, sprite, row, i)
  {
  }

  /** Some drawn cell is a collision. */
  ghost predicate AnySpriteHit(f: Frame, x: Byte, y: Byte, sprite: seq<Byte>, fromRow: nat) {
    exists i :: SpriteHit(f, x, y, sprite, fromRow, i)
  }

  /** Once the sprite has reached the bottom edge no collision remains. */
  lemma NoSpriteHitPastEdge(f: Frame, x: Byte, y: Byte, sprite: seq<Byte>, row: nat)
    requires y % HEIGHT + row >= HEIGHT
    ensures !AnySpriteHit(f, x, y, sprite, row)
  {
  }

  /** One step of the outer loop in terms of the unwrapped start row. */
  lemma RowsUnfold(f: Frame, x: Byte, y: Byte, sprite: seq<Byte>, row: nat, coll: bool)
    requires row < |sprite| <= HEIGHT
    ensures var sy := y % HEIGHT;
      DrawRows(f, x, y, sprite, row, coll)
      == if sy + row >= HEIGHT then DrawRows(f, x, y, sprite, row + 1, coll)
         else var r := DrawColumns(f, x, sy + row, sprite[row], 0, x % WIDTH, coll);
           DrawRows(r.0, x, y, sprite, row + 1, r.1)
  {
    WrappedRow(y, row);
  }

  /** Drawing row `row` and then the rest gives the closed form from `row`. */
  lemma ComposeRows(f: Frame, mid: Frame, out: Frame, x: Byte, y: Byte, sprite: seq<Byte>, row: nat)
    requires row < |sprite| && y % HEIGHT + row < HEIGHT
    requires forall i :: 0 <= i < CELLS ==> mid[i] == RowValue(f, x % WIDTH, y % HEIGHT + row, sprite[row], 0, i)
    requires forall i :: 0 <= i < CELLS ==> out[i] == SpriteValue(mid, x, y, sprite, row + 1, i)
    ensures forall i :: 0 <= i < CELLS ==> out[i] == SpriteValue(f, x, y, sprite, row, i)
  {
    forall i | 0 <= i < CELLS ensures out[i] == SpriteValue(f, x, y, sprite, row, i) {
      SpriteStep(f, mid, x, y, sprite, row, i);
    }
  }

  lemma {:induction false} DrawRowsFrame(f: Frame, x: Byte, y: Byte, sprite: seq<Byte>, row: nat, coll: bool)
    requires |sprite| <= HEIGHT && row <= |sprite|
    ensures var r := DrawRows(f, x, y, sprite, row, coll);
      forall i :: 0 <= i < CELLS ==> r.0[i] == SpriteValue(f, x, y, sprite, row, i)
    decreases |sprite| - row
  {
    var sy := y % HEIGHT;
    if row < |sprite| {
      RowsUnfold(f, x, y, sprite, row, coll);
      if sy + row >= HEIGHT {
        DrawRowsFrame(f, x, y, sprite, row + 1, coll);
        forall i | 0 <= i < CELLS
          ensures SpriteValue(f, x, y, sprite, row + 1, i) == SpriteValue(f, x, y, sprite, row, i)
        {
          SpriteSkip(f, x, y, sprite, row, i);
        }
      } else {
        var yDraw := sy + row;
        DrawColumnsFrame(f, x, yDraw, sprite[row], 0, coll);
        var r := DrawColumns(f, x, yDraw, sprite[row], 0, x % WIDTH, coll);
        DrawRowsFrame(r.0, x, y, sprite, row + 1, r.1);
        ComposeRows(f, r.0, DrawRows(r.0, x, y, sprite, row + 1, r.1).0, x, y, sprite, row);
      }
    } else {
      forall i | 0 <= i < CELLS ensures SpriteValue(f, x, y, sprite, row, i) == f[i] { }
    }
  }

  /** A collision in row `row` or in the rest is a collision from `row`. */
  lemma ComposeRowsCollision(f: Frame, mid: Frame, x: Byte, y: Byte, sprite: seq<Byte>, row: nat,
                             coll: bool, cMid: bool, cOut: bool)
    requires row < |sprite| && y % HEIGHT + row < HEIGHT
    requires forall i :: 0 <= i < CELLS ==> mid[i] == RowValue(f, x % WIDTH, y % HEIGHT + row, sprite[row], 0, i)
    requires cMid <==> coll || AnyRowHit(f, x % WIDTH, y % HEIGHT + row, sprite[row], 0)
    requires cOut <==> cMid || AnySpriteHit(mid, x, y, sprite, row + 1)
    ensures cOut <==> coll || AnySpriteHit(f, x, y, sprite, row)
  {
    var s := x % WIDTH;
    var yDraw := y % HEIGHT + row;
    if AnySpriteHit(f, x, y, sprite, row) {
      var i :| SpriteHit(f, x, y, sprite, row, i);
      SpriteStep(f, mid, x, y, sprite, row, i);
      assert AnyRowHit(f, s, yDraw, sprite[row], 0) || AnySpriteHit(mid, x, y, sprite, row + 1);
    }
    if AnyRowHit(f, s, yDraw, sprite[row], 0) {
      var i :| RowHit(f, s, yDraw, sprite[row], 0, i);
      SpriteStep(f, mid, x, y, sprite, row, i);
    }
    if AnySpriteHit(mid, x, y, sprite, row + 1) {
      var i :| SpriteHit(mid, x, y, sprite, row + 1, i);
      SpriteStep(f, mid, x, y, sprite, row, i);
    }
  }

  lemma {:induction false} DrawRowsCollision(f: Frame, x: Byte, y: Byte, sprite: seq<Byte>, row: nat, coll: bool)
    requires |sprite| <= HEIGHT && row <= |sprite|
    ensures DrawRows(f, x, y, sprite, row, coll).1 <==> coll || AnySpriteHit(f, x, y, sprite, row)
    decreases |sprite| - row
  {
    var sy := y % HEIGHT;
    if row < |sprite| {
      RowsUnfold(f, x, y, sprite, row, coll);
      if sy + row >= HEIGHT {
        DrawRowsCollision(f, x, y, sprite, row + 1, coll);
        NoSpriteHitPastEdge(f, x, y, sprite, row);
        NoSpriteHitPastEdge(f, x, y, sprite, row + 1);
      } else {
        var yDraw := sy + row;
        DrawColumnsFrame(f, x, yDraw, sprite[row], 0, coll);
        DrawColumnsCollision(f, x, yDraw, sprite[row], 0, coll);
        var r := DrawColumns(f, x, yDraw, sprite[row], 0, x % WIDTH, coll);
        DrawRowsCollision(r.0, x, y, sprite, row + 1, r.1);
        ComposeRowsCollision(f, r.0, x, y, sprite, row, coll, r.1, DrawRows(r.0, x, y, sprite, row + 1, r.1).1);
      }
    } else {
      assert !AnySpriteHit(f, x, y, sprite, row);
    }
  }

  // ---------------------------------------------------------------------
  // Pixels stay binary, for sprites of any length

  lemma RowValueBinary(f: Frame, s: nat, yDraw: nat, bits: Byte, offset: nat, i: nat)
    requires i < CELLS && f[i] < 2
    ensures RowValue(f, s, yDraw, bits, offset, i) < 2
  {
    if i % HEIGHT == yDraw && s + offset <= i / HEIGHT < s + 8 {
      Xor8OnBits(Bit(bits, 7 - (i / HEIGHT - s)), f[i]);
    }
  }

  lemma {:induction false} DrawRowsKeepsBinary(f: Frame, x: Byte, y: Byte, sprite: seq<Byte>, row: nat, coll: bool)
    requires row <= |sprite| && Binary(f)
    ensures Binary(DrawRows(f, x, y, sprite, row, coll).0)
    decreases |sprite| - row
  {
    if row < |sprite| {
      var yDraw := ((y + row) % 256) % HEIGHT;
      if yDraw < y % HEIGHT {
        DrawRowsKeepsBinary(f, x, y, sprite, row + 1, coll);
      } else {
        DrawColumnsFrame(f, x, yDraw, sprite[row], 0, coll);
        var (f1, c1) := DrawColumns(f, x, yDraw, sprite[row], 0, x % WIDTH, coll);
        forall i | 0 <= i < CELLS ensures f1[i] < 2 {
          RowValueBinary(f, x % WIDTH, yDraw, sprite[row], 0, i);
        }
        DrawRowsKeepsBinary(f1, x, y, sprite, row + 1, c1);
      }
    }
  }

  lemma DrawRowsFacts(f: Frame, x: Byte, y: Byte, sprite: seq<Byte>)
    ensures var r := DrawRows(f, x, y, sprite, 0, false);
      && (|sprite| <= HEIGHT ==>
            && (forall i :: 0 <= i < CELLS ==> r.0[i] == SpriteValue(f, x, y, sprite, 0, i))
            && (r.1 <==> exists i :: SpriteHit(f, x, y, sprite, 0, i)))
      && (Binary(f) ==> Binary(r.0))
  {
    if |sprite| <= HEIGHT {
      DrawRowsFrame(f, x, y, sprite, 0, false);
      DrawRowsCollision(f, x, y, sprite, 0, false);
    }
    if Binary(f) { DrawRowsKeepsBinary(f, x, y, sprite, 0, false); }
  }

  // ---------------------------------------------------------------------
  // DrawSprite

  /** Draws `sprite` (one byte per row) with its top-left corner at
      (x mod 64, y mod 32) and reports whether a set sprite bit met a set
      pixel. For sprites of at most 32 rows the result is the closed form
      `SpriteValue`; longer sprites wrap back over their own rows, as the
      source's loops do. Pixels stay binary for any sprite. */
  function DrawSprite(s: Screen, x: Byte, y: Byte, sprite: seq<Byte>): (r: (Screen, bool))
    ensures r.0.draw && r.0.keyState == s.keyState
    ensures |sprite| <= HEIGHT ==>
      && (forall i :: 0 <= i < CELLS ==> r.0.frame[i] == SpriteValue(s.frame, x, y, sprite, 0, i))
      && (r.1 <==> exists i :: SpriteHit(s.frame, x, y, sprite, 0, i))
    ensures Binary(s.frame) ==> Binary(r.0.frame)
  {
    DrawRowsFacts(s.frame, x, y, sprite);
    var (f, collision) := DrawRows(s.frame, x, y, sprite, 0, false);
    (s.(frame := f, draw := true), collision)
  }

  /** On a binary frame a cell is set after the draw over a clear cell exactly
      when it is a drawn cell with a set sprite bit. */
  lemma LitByDraw(f: Frame, g: Frame, x: Byte, y: Byte, sprite: seq<Byte>, i: int)
    requires 0 <= i < CELLS && f[i] < 2 && g[i] == SpriteValue(f, x, y, sprite, 0, i)
    ensures SpriteHit(g, x, y, sprite, 0, i) <==> f[i] == 0 && g[i] == 1
  {
    var sx := x % WIDTH;
    var sy := y % HEIGHT;
    if sx <= i / HEIGHT < sx + 8 && sy <= i % HEIGHT < sy + |sprite| {
      var b := Bit(sprite[i % HEIGHT - sy], 7 - (i / HEIGHT - sx));
      Xor8OnBits(b, f[i]);
    }
  }

  /** One sprite row only ever writes pixel row `yDraw`. */
  lemma {:induction false} ColumnsStayInRow(f: Frame, x: Byte, yDraw: nat, bits: Byte, offset: nat, prevX: int, coll: bool)
    requires yDraw < HEIGHT && offset <= BYTE_SIZE
    ensures forall i :: 0 <= i < CELLS && i % HEIGHT != yDraw ==> DrawColumns(f, x, yDraw, bits, offset, prevX, coll).0[i] == f[i]
    decreases BYTE_SIZE - offset
  {
    if offset < BYTE_SIZE {
      var xDraw := ((x + offset) % 256) % WIDTH;
      var p := Bit(bits, 7 - offset);
      var k := Idx(xDraw, yDraw);
      if xDraw < prevX {
        ColumnsStayInRow(f, x, yDraw, bits, offset + 1, prevX, coll);
      } else {
        ColumnsStayInRow(f[k := Xor8(p, f[k])], x, yDraw, bits, offset + 1, xDraw, coll || (p == 1 && f[k] == 1));
      }
    }
  }

  /** Whatever its length, a sprite never writes a pixel row above its
      start row: rows that wrap past the bottom edge are skipped rather than
      drawn at the top. */
  lemma {:induction false} RowsKeepAboveStart(f: Frame, x: Byte, y: Byte, sprite: seq<Byte>, row: nat, coll: bool)
    requires row <= |sprite|
    ensures forall i :: 0 <= i < CELLS && i % HEIGHT < y % HEIGHT ==> DrawRows(f, x, y, sprite, row, coll).0[i] == f[i]
    decreases |sprite| - row
  {
    if row < |sprite| {
      var yDraw := ((y + row) % 256) % HEIGHT;
      if yDraw < y % HEIGHT {
        RowsKeepAboveStart(f, x, y, sprite, row + 1, coll);
      } else {
        var (f1, c1) := DrawColumns(f, x, yDraw, sprite[row], 0, x % WIDTH, coll);
        ColumnsStayInRow(f, x, yDraw, sprite[row], 0, x % WIDTH, coll);
        RowsKeepAboveStart(f1, x, y, sprite, row + 1, c1);
      }
    }
  }

  /** Frames f1 and g1 differ, cell by cell, as f and g do. */
  ghost predicate SameDiff(f: Frame, g: Frame, f1: Frame, g1: Frame) {
    forall i :: 0 <= i < CELLS ==> Xor8(f1[i], g1[i]) == Xor8(f[i], g[i])
  }

  /** The cells one row visits and the bits it XORs into them depend only on
      its position and bits, never on the frame: two frames drawn alike keep
      their difference. */
  lemma {:induction false} ColumnsDiff(f: Frame, g: Frame, x: Byte, yDraw: nat, bits: Byte, offset: nat, prevX: int, cf: bool, cg: bool)
    requires yDraw < HEIGHT && offset <= BYTE_SIZE
    ensures SameDiff(f, g, DrawColumns(f, x, yDraw, bits, offset, prevX, cf).0, DrawColumns(g, x, yDraw, bits, offset, prevX, cg).0)
    decreases BYTE_SIZE - offset
  {
    if offset < BYTE_SIZE {
      var xDraw := ((x + offset) % 256) % WIDTH;
      var p := Bit(bits, 7 - offset);
      var k := Idx(xDraw, yDraw);
      if xDraw < prevX {
        ColumnsDiff(f, g, x, yDraw, bits, offset + 1, prevX, cf, cg);
      } else {
        var f1 := f[k := Xor8(p, f[k])];
        var g1 := g[k := Xor8(p, g[k])];
        Xor8Pair(p, f[k], g[k]);
        assert SameDiff(f, g, f1, g1);
        ColumnsDiff(f1, g1, x, yDraw, bits, offset + 1, xDraw, cf || (p == 1 && f[k] == 1), cg || (p == 1 && g[k] == 1));
      }
    }
  }

  /** The same for the rows of a whole sprite, of any length. */
  lemma {:induction false} RowsDiff(f: Frame, g: Frame, x: Byte, y: Byte, sprite: seq<Byte>, row: nat, cf: bool, cg: bool)
    requires row <= |sprite|
    ensures SameDiff(f, g, DrawRows(f, x, y, sprite, row, cf).0, DrawRows(g, x, y, sprite, row, cg).0)
    decreases |sprite| - row
  {
    if row < |sprite| {
      var yDraw := ((y + row) % 256) % HEIGHT;
      if yDraw < y % HEIGHT {
        RowsDiff(f, g, x, y, sprite, row + 1, cf, cg);
      } else {
        var (f1, c1) := DrawColumns(f, x, yDraw, sprite[row], 0, x % WIDTH, cf);
        var (g1, d1) := DrawColumns(g, x, yDraw, sprite[row], 0, x % WIDTH, cg);
        ColumnsDiff(f, g, x, yDraw, sprite[row], 0, x % WIDTH, cf, cg);
        RowsDiff(f1, g1, x, y, sprite, row + 1, c1, d1);
      }
    }
  }

  /** XOR drawing is self-inverse: drawing the same sprite twice at the same
      place restores the frame, for sprites of any length (a 64-row sprite
      draws over some rows twice). */
  lemma DrawTwiceRestores(s: Screen, x: Byte, y: Byte, sprite: seq<Byte>)
    ensures DrawSprite(DrawSprite(s, x, y, sprite).0, x, y, sprite).0.frame == s.frame
  {
    var s1 := DrawSprite(s, x, y, sprite).0;
    var s2 := DrawSprite(s1, x, y, sprite).0;
    RowsDiff(s.frame, s1.frame, x, y, sprite, 0, false, false);
    forall i | 0 <= i < CELLS ensures s2.frame[i] == s.frame[i] {
      Xor8Cancel(s.frame[i], s1.frame[i], s2.frame[i]);
    }
  }

  /** On a binary frame, drawing a sprite a second time collides exactly when
      the first draw lit a pixel. */
  lemma RedrawCollides(s: Screen, x: Byte, y: Byte, sprite: seq<Byte>)
    requires |sprite| <= HEIGHT && Binary(s.frame)
    ensures var s1 := DrawSprite(s, x, y, sprite).0;
      DrawSprite(s1, x, y, sprite).1 <==> exists i :: 0 <= i < CELLS && s.frame[i] == 0 && s1.frame[i] == 1
  {
    var s1 := DrawSprite(s, x, y, sprite).0;
    if DrawSprite(s1, x, y, sprite).1 {
      var i :| SpriteHit(s1.frame, x, y, sprite, 0, i);
      LitByDraw(s.frame, s1.frame, x, y, sprite, i);
    }
    if exists i :: 0 <= i < CELLS && s.frame[i] == 0 && s1.frame[i] == 1 {
      var i :| 0 <= i < CELLS && s.frame[i] == 0 && s1.frame[i] == 1;
      LitByDraw(s.frame, s1.frame, x, y, sprite, i);
    }
  }
}
